=== FILE: README.md ===
# Drone simulation platform: planning and sequencing core in Dafny

This project models the planning and sequencing core of the drone simulation platform, a Python service. The service does the following:

- builds waypoints over buildings found in OpenStreetMap;
- orders them by a travelling-salesman tour;
- plans grid paths between consecutive waypoints with A\*, RRT or RRT\*;
- samples timed GPS points along each leg;
- replays a stored trace through a play/pause cursor.

The model covers these pieces:

- **`AStar`**: the 8-connected grid A\* of `AStarPlanner.find_path`, as a `while` loop over an explicit heap, parent map, g-scores and visited set.
- **`Rrt`**: the dictionary tree of `RRT`, with `steer`, the collision check, `plan` and `_reconstruct_path`, plus the helpers of `GeoAwareRRT`. The random draws are an injected sequence of samples.
- **`RrtStar`**: the clamped `world2map`, the point check, the dynamic goal bias, sampling with ten attempts, adaptive steering, the node cap, `get_final_path` and `is_valid_path`.
- **`PlannerWrapper`**: the case-insensitive planner table and `find_segment_path`.
- **`Tsp`**: the symmetric cost matrix, the complete graph, and the cyclic tour cost around an injected `christofides`.
- **`Simulation`**: heading normalisation, `grid_to_latlon`, the elevation lookup that never raises, waypoint clamping, the consecutive-segment loop of `run_simulation`, and the sample count and timestamps of `interpolate_segment`.
- **`WorldData`**: deduplication by clamped DEM cell, the 80-waypoint cap, and tour reordering.
- **`GeoUtils`**: the bounding box, stable rank-and-truncate, polygon waypoints, Overpass ring closing and building-height precedence.
- **`Interval`**, **`EnvConfig`** and **`Playback`**: `parse_interval`, `_expand_env_vars`, and the playback controller and cursor.

Some modules support the rest:

- **`Numeric`** covers Python's `int()`, `round()`, float `%`, clamps and numpy's negative indices.
- **`Text`** covers `strip`, `split`, `lower`, `int()` and `float()` on strings.
- **`Geometry`** covers points, squared distance, the nearest-point scan and affine transforms.
- **`Grid`** covers cells and matrices.
- **`Wrappers`** provides `Option` and `Result`.

Floats are `real`. Square root is an injected function characterised by `Geometry.IsSqrt`. Every foreign computation is a function parameter: geodesic distance, shapely, `christofides`, terrain complexity, the trace loader and the planner.

## Model

| member | source | states |
|---|---|---|
| AStar.FindPath | timeseries_api/controller/astar_planner.py:23-89 | start == goal yields exactly `[start]`; a returned path starts at start, ends at goal, moves by the 8 offsets through in-bounds free cells and repeats no cell; `None` only when no such path exists at all (completeness) |
| AStar.Neighbors | timeseries_api/controller/astar_planner.py:29-40 | the yielded cells are exactly the in-bounds free cells adjacent to `pos`, each with base cost 1 orthogonally and the diagonal norm otherwise |
| AStar.DirectionIndex | timeseries_api/controller/astar_planner.py:30-35 | an offset is one of the eight directions iff it is a non-zero move of at most one in each axis, and names its index in the table |
| AStar.DirectionIsMove | timeseries_api/controller/astar_planner.py:30-35 | every entry of the direction table is a one-cell move whose index lookup returns that entry |
| AStar.StepCostBounds | timeseries_api/controller/astar_planner.py:68-74 | without elevation a step costs its base cost; with a non-negative penalty it costs at least the base cost, which is at least 1; base cost is 1 exactly for orthogonal moves |
| AStar.MinEntry | timeseries_api/controller/astar_planner.py:50 | `heappop` returns an entry no other entry precedes in (f, row, col) tuple order |
| AStar.BeforeTransitive | timeseries_api/controller/astar_planner.py:50 | heap order is a strict order: transitive and irreflexive |
| AStar.Relax | timeseries_api/controller/astar_planner.py:64-85 | a visited neighbour changes nothing; otherwise g-scores only fall, and any change writes g, the parent and one pushed heap entry for that neighbour only, on strict improvement |
| AStar.Expand | timeseries_api/controller/astar_planner.py:62-85 | relaxing all neighbours of the popped cell keeps the search invariant and leaves every visited cell with no improvable neighbour |
| AStar.PopKeepsCore | timeseries_api/controller/astar_planner.py:49-50 | removing the heap minimum and marking it visited keeps the search invariant, and the heap shrinks |
| AStar.RelaxKeepsInvariant | timeseries_api/controller/astar_planner.py:75-85 | one relaxation keeps the search invariant and the popped cell's g-score |
| AStar.ParentCheaper | timeseries_api/controller/astar_planner.py:74-79 | with a non-negative penalty every parent's g-score is at least 1 below its child's |
| AStar.PathFromChain | timeseries_api/controller/astar_planner.py:52-57 | walking parent links back from the goal terminates and, reversed and prefixed with start, gives a legal path without repeats |
| AStar.ChainIsPath | timeseries_api/controller/astar_planner.py:53-56 | the parent walk is a legal path along which the visit rank strictly grows |
| AStar.IncreasingIsInjective | timeseries_api/controller/astar_planner.py:53-57 | a path whose ranks strictly increase repeats no cell |
| AStar.GoalUnreachable | timeseries_api/controller/astar_planner.py:49-89 | once the heap is empty with start visited and goal not, no path from start to goal exists |
| Rrt.Seed | timeseries_api/controller/rrt_planner.py:14-18 | the tree starts as the single root `{start: None}` |
| Rrt.SamplePoint | timeseries_api/controller/rrt_planner.py:20-26 | a coin above 0.9 returns the goal; otherwise the point lies in [0, rows] x [0, cols] for unit draws |
| Rrt.NearestNeighbor | timeseries_api/controller/rrt_planner.py:28-30 | the result is a tree node of minimal distance and the first such node in key order |
| Rrt.NearestMinimisesDist | timeseries_api/controller/rrt_planner.py:28-30 | minimising squared distance minimises the Euclidean norm the source compares |
| Rrt.Steer | timeseries_api/controller/rrt_planner.py:37-43 | a sample within step size is returned unchanged; a farther sample (with a non-negative step) yields a point on the ray from `nearest` through the sample, never away from it |
| Rrt.ScaleToward | timeseries_api/controller/rrt_planner.py:41-42 | adding the unit direction times step to `nearest` lands on the ray toward the sample, at fraction step / dist of the offset |
| Rrt.SteerDistance | timeseries_api/controller/rrt_planner.py:37-43 | the steered point is never farther than step size, and exactly step size away when the sample was farther (with `Rrt.Steer`: one step along the direction to the sample) |
| Rrt.IsCollisionFree | timeseries_api/controller/rrt_planner.py:45-57 | holds iff both coordinates are non-negative and the truncated cell is in bounds with value 0 |
| Rrt.Put | timeseries_api/controller/rrt_planner.py:70 | dict assignment: a new key is appended to the key order, an existing key keeps its place and only its parent changes |
| Rrt.Walk | timeseries_api/controller/rrt_planner.py:76-82 | a finished walk is a parent-linked path from a parentless root to the end point |
| Rrt.PlanAsWritten | timeseries_api/controller/rrt_planner.py:59-74 | `plan` as written: the tree stays a dict, and success reports a tree key strictly within step size of the goal |
| Rrt.SelfParentNeverEnds | timeseries_api/controller/rrt_planner.py:79-81 | a node that is its own parent makes the reconstruction walk run out of any fuel |
| Rrt.StartIsGoalHangs | timeseries_api/controller/rrt_planner.py:59-82 | with start == goal and a goal-biased first draw, the as-written plan makes start its own parent and reconstruction never ends |
| Rrt.StartIsGoalCorrected | timeseries_api/controller/rrt_planner.py:69-73 | in the corrected plan the same draw keeps the root parentless and reconstructs `[start]` |
| Rrt.Iterate | timeseries_api/controller/rrt_planner.py:65-73 | one corrected iteration keeps every existing link and adds only a collision-free point |
| Rrt.IterateKeeps | timeseries_api/controller/rrt_planner.py:65-70 | an iteration keeps the tree rooted at start, ranked, collision-free and, for a true square root, with links no longer than step size |
| Rrt.PutKeepsTreeOk | timeseries_api/controller/rrt_planner.py:69-70 | attaching a new collision-free point under a tree node keeps the tree invariant |
| Rrt.WalkEnds | timeseries_api/controller/rrt_planner.py:79-81 | in a well-ranked tree the walk from any key ends at start within fuel equal to its rank |
| Rrt.TreePathFacts | timeseries_api/controller/rrt_planner.py:76-82 | a tree path from start has collision-free points after start and no repeats |
| Rrt.ReconstructedPath | timeseries_api/controller/rrt_planner.py:76-82 | reconstruction from any key yields start ... key, collision-free after start, without repeats, with short links |
| Rrt.PlanCorrected | timeseries_api/controller/rrt_planner.py:64-74 | the corrected loop stops at the first iteration whose free steered point is strictly within step size of the goal, reporting a tree key; with no samples left it reports the tree unchanged |
| Rrt.Search | timeseries_api/controller/rrt_planner.py:59-74 | the loop over the first `max_iter` draws finds a point exactly when the corrected loop reaches the goal, and leaves the same tree, ranked and rooted at start |
| Rrt.ReachedPath | timeseries_api/controller/rrt_planner.py:72-82 | reconstruction from a key near the goal gives a path from start that ends strictly within step size of the goal, collision-free and without repeats |
| Rrt.Plan | timeseries_api/controller/rrt_planner.py:14-82 | None exactly when no iteration among the first `max_iter` reaches the goal; otherwise the reconstruction from the reaching point, which starts at start, ends strictly within step size of the goal, is collision-free after start, repeats no point and has links of at most step size |
| Rrt.LatLonToGrid | timeseries_api/controller/rrt_planner.py:102-104 | the returned (row, col) is within half a cell of the inverse transform of (lon, lat): y rounds to the row, x to the column |
| Rrt.GridToLatLon | timeseries_api/controller/rrt_planner.py:106-108 | for an invertible transform, inverting the returned (lon, lat) gives back (col, row) |
| Rrt.GridRoundTrip | timeseries_api/controller/rrt_planner.py:102-108 | `latlon_to_grid` rounds back every cell that `grid_to_latlon` produced |
| Rrt.ElevationLookup | timeseries_api/controller/rrt_planner.py:114-118 | indexing by truncated coordinates succeeds exactly within numpy's negative-index range |
| Rrt.ElevationCost | timeseries_api/controller/rrt_planner.py:110-121 | 0 without elevation; infinite iff either lookup is out of range; otherwise penalty times the absolute difference, non-negative for a non-negative penalty |
| Rrt.ElevationCostSymmetric | timeseries_api/controller/rrt_planner.py:119 | the cost does not depend on the direction of travel |
| Rrt.IsValidAndFree | timeseries_api/controller/rrt_planner.py:140-148 | true iff the truncated (row, col) is inside the grid and that cell holds 0 |
| Rrt.ValidAndFreeVsCollisionFree | timeseries_api/controller/rrt_planner.py:45-148 | the two checks agree for non-negative points and disagree for x in (-1, 0), where `int()` truncates to row 0 |
| RrtStar.Init | timeseries_api/controller/rrt_star_planner.py:6-33 | missing grid raises ValueError; otherwise the tree holds only start and no edges or path |
| RrtStar.World2Map | timeseries_api/controller/rrt_star_planner.py:41-50 | the pixel is always clamped into [0, width-1] x [0, height-1] |
| RrtStar.World2MapCorners | timeseries_api/controller/rrt_star_planner.py:41-50 | the world's top-left corner maps to pixel (0, 0) and the bottom-right to the last pixel |
| RrtStar.IsValidPoint | timeseries_api/controller/rrt_star_planner.py:62-77 | holds iff the mapped pixel holds a non-zero value (0 is an obstacle here) |
| RrtStar.DynamicBias | timeseries_api/controller/rrt_star_planner.py:94-95 | the goal bias always lies in [0.4, 0.95] |
| RrtStar.BiasMonotone | timeseries_api/controller/rrt_star_planner.py:95 | nodes closer to the goal never lower the bias |
| RrtStar.MinGoalDistance | timeseries_api/controller/rrt_star_planner.py:94 | the minimum is attained by a node and bounds every node's distance from below |
| RrtStar.FirstValid | timeseries_api/controller/rrt_star_planner.py:100-109 | returns the first attempt that passes the point check, or none of the ten did |
| RrtStar.SamplePoint | timeseries_api/controller/rrt_star_planner.py:92-110 | the goal under the bias; else the first drawn point that passes the check; else start after ten failed attempts |
| RrtStar.FindNearest | timeseries_api/controller/rrt_star_planner.py:112-114 | a node of minimal distance to the sample, and the first such in insertion order: every node before it is strictly farther (`min` keeps the first minimum) |
| RrtStar.GenerateNewPoint | timeseries_api/controller/rrt_star_planner.py:116-129 | zero length returns nearest; otherwise the advanced point exactly when its pixel, read as a world point, passes the check, else nearest |
| RrtStar.NewPointStep | timeseries_api/controller/rrt_star_planner.py:116-129 | a new point is either nearest or exactly min(delta, 0.7 length) from it, never past the target |
| RrtStar.AdvanceDistance | timeseries_api/controller/rrt_star_planner.py:124-125 | the advanced point lies exactly min(delta, 0.7 length) from nearest, strictly closer than the target |
| RrtStar.Step | timeseries_api/controller/rrt_star_planner.py:131-150 | at the node cap nothing changes and the step stops; otherwise the new point from the nearest node toward the sample is appended iff it passes the check (a failing one changes nothing and continues); the step then stops iff that point is within the target radius, recording `get_final_path` (or `None`) as the path, and otherwise keeps the path; edges never change |
| RrtStar.StepKeepsValid | timeseries_api/controller/rrt_star_planner.py:131-150 | every non-root node stays valid across a step, the path changes only on a stopping step, and a continuing step added no node within the target radius |
| RrtStar.NodeCapKept | timeseries_api/controller/rrt_star_planner.py:133-144 | a step keeps the node count at most `max_nodes` |
| RrtStar.ParentOf | timeseries_api/controller/rrt_star_planner.py:159 | the parent is taken from an edge to the node, and there is none iff no edge ends at it |
| RrtStar.TraceBack | timeseries_api/controller/rrt_star_planner.py:154-163 | a finished trace starts at the last node, follows parent edges, and stops before start |
| RrtStar.Reverse | timeseries_api/controller/rrt_star_planner.py:168 | `path[::-1]` holds the same points in reverse order |
| RrtStar.GetFinalPath | timeseries_api/controller/rrt_star_planner.py:152-178 | a returned path ends with the goal and, when start differs from the goal, begins with start |
| RrtStar.FinalPathWithoutEdges | timeseries_api/controller/rrt_star_planner.py:152-178 | with no edges ever recorded, tracing fails unless the last node is start, in which case the path is `[start, goal]` or `[goal]` |
| RrtStar.Linspace | timeseries_api/controller/rrt_star_planner.py:195-196 | `np.linspace` starts at the first end and ends at the second |
| RrtStar.SamplesFree | timeseries_api/controller/rrt_star_planner.py:199-202 | holds iff every remaining sample pixel is free |
| RrtStar.ShortSegmentUnchecked | timeseries_api/controller/rrt_star_planner.py:193-203 | a segment shorter than 0.5 has zero samples and passes unchecked |
| RrtStar.IsValidPath | timeseries_api/controller/rrt_star_planner.py:191-203 | fails iff the sample count `int(2 d)` is negative or positive on an empty map; zero samples pass; otherwise passes iff every sample pixel is free |
| RrtStar.LongSegmentChecked | timeseries_api/controller/rrt_star_planner.py:193-203 | a longer segment passes iff all `int(2 d)` sample pixels are free, including the truncated first endpoint |
| PlannerWrapper.KindOf | timeseries_api/controller/path_planner_wrapper.py:8-14 | exactly the five table keys name a planner |
| PlannerWrapper.KindNameRoundTrip | timeseries_api/controller/path_planner_wrapper.py:8-14 | the table is a bijection between keys and planner kinds |
| PlannerWrapper.Make | timeseries_api/controller/path_planner_wrapper.py:16-36 | raises ValueError iff the lower-cased name is not a key; otherwise keeps that kind and builds an A\* core exactly for "astar" |
| PlannerWrapper.MakeIgnoresCase | timeseries_api/controller/path_planner_wrapper.py:18 | construction depends only on the lower-cased name |
| PlannerWrapper.MadeIsValid | timeseries_api/controller/path_planner_wrapper.py:26-36 | every constructed wrapper has an A\* core exactly when its kind is A\* |
| PlannerWrapper.FindSegmentPath | timeseries_api/controller/path_planner_wrapper.py:38-53 | A\* answers with `find_path`'s guarantees; every other kind asks for a fresh planner over the segment; the error branch is never reached |
| Tsp.PairDistance | timeseries_api/data_processing/tsp_utils.py:18-23 | fails iff the metric is neither euclidean nor geodesic |
| Tsp.SetPair | timeseries_api/data_processing/tsp_utils.py:24 | writes both mirrored entries and nothing else |
| Tsp.ComputeCostMatrix | timeseries_api/data_processing/tsp_utils.py:7-26 | raises iff there are at least two points and the metric is unsupported; otherwise n x n, zero diagonal, off-diagonal entries are the metric distance, so the result is the one matrix `Tsp.CostMatrixOf` describes |
| Tsp.EntrySymmetric | timeseries_api/data_processing/tsp_utils.py:18-24 | the matrix is symmetric with zero diagonal |
| Tsp.RowEdges | timeseries_api/data_processing/tsp_utils.py:36-37 | row i contributes edges (i, j) for j < i weighted `m[i][j]` |
| Tsp.BuildGraph | timeseries_api/data_processing/tsp_utils.py:29-38 | every edge joins v < u with weight `m[u][v]`, and every unordered pair appears |
| Tsp.GraphEdgesOrdered | timeseries_api/data_processing/tsp_utils.py:35-37 | edges come in strictly increasing pair order with the matrix weight, so there are no self-loops |
| Tsp.GraphEdgesComplete | timeseries_api/data_processing/tsp_utils.py:35-37 | every pair below i is an edge |
| Tsp.GraphEdgesDistinct | timeseries_api/data_processing/tsp_utils.py:35-37 | no pair is added twice |
| Tsp.SolveTsp | timeseries_api/data_processing/tsp_utils.py:41-58 | returns the tour unchanged with its cyclic cost; an empty tour fails at `tsp_tour[-1]` |
| Tsp.OpenCostAppend | timeseries_api/data_processing/tsp_utils.py:51-53 | extending a tour adds the cost of the new last edge |
| Tsp.CycleCostRotation | timeseries_api/data_processing/tsp_utils.py:51-54 | rotating a tour does not change its cyclic cost |
| Tsp.OpenCostNonNegative | timeseries_api/data_processing/tsp_utils.py:51-53 | with non-negative distances the consecutive sum is non-negative |
| Tsp.CycleCostNonNegative | timeseries_api/data_processing/tsp_utils.py:51-54 | with non-negative distances the tour cost is non-negative |
| Simulation.ComputeHeading | timeseries_api/controller/simulation_controller.py:79-81 | the heading lies in [0, 360) and differs from azimuth + 360 by a whole number of turns |
| Simulation.HeadingOfAzimuth | timeseries_api/controller/simulation_controller.py:79-81 | for azimuths in [-180, 180] negative values gain 360 and the rest are unchanged |
| Simulation.HeadingIdempotent | timeseries_api/controller/simulation_controller.py:81 | normalising twice equals normalising once |
| Simulation.GridToLatLon | timeseries_api/controller/simulation_controller.py:83-85 | the transform of (col, row) gives (lon, lat), returned swapped as (lat, lon) |
| Simulation.RowColRoundTrip | timeseries_api/controller/simulation_controller.py:50-85 | `rowcol` recovers every cell from its `grid_to_latlon` position |
| Simulation.SafeDem | timeseries_api/controller/simulation_controller.py:50-55 | the elevation at the numpy-indexed cell, or 0.0 when indexing fails |
| Simulation.SafeDemAtCell | timeseries_api/controller/simulation_controller.py:50-55 | at a cell's own position the lookup returns that cell's elevation |
| Simulation.WaypointCell | timeseries_api/controller/simulation_controller.py:129-135 | the floored cell is clamped into the grid |
| Simulation.WaypointCellRoundTrip | timeseries_api/controller/simulation_controller.py:129-135 | a cell's own position clamps back to that cell |
| Simulation.BuildPath | timeseries_api/controller/simulation_controller.py:122-140 | one in-bounds cell per waypoint, in order |
| Simulation.PlanLegs | timeseries_api/controller/simulation_controller.py:164-184 | fewer than two cells raise ValueError; otherwise legs are in segment order, each converted by `grid_to_latlon`, and segment i has a leg iff its plan is non-empty |
| Simulation.Routed | timeseries_api/controller/simulation_controller.py:184 | every planned cell is converted to (lat, lon), in order |
| Simulation.SegmentSteps | timeseries_api/controller/simulation_controller.py:91-93 | zero speed or interval raises; otherwise the floor of duration in ms over the interval |
| Simulation.InterpolateSegment | timeseries_api/controller/simulation_controller.py:87-120 | exactly `steps` samples, the i-th at time i times the interval, at the i-th eased position, with the DEM altitude and one heading |
| Simulation.SegmentTimesIncrease | timeseries_api/controller/simulation_controller.py:112-119 | with a positive interval timestamps strictly increase and all headings are equal |
| WorldData.KeyCell | timeseries_api/data_processing/world_data_builder.py:107-115 | the dedup key is clamped into the DEM |
| WorldData.FirstOccurrence | timeseries_api/data_processing/world_data_builder.py:115-118 | every key has a first occurrence at or before it |
| WorldData.Dedup | timeseries_api/data_processing/world_data_builder.py:101-120 | keeps polygons in ranked order, exactly those whose key occurs first; a singular transform skips every polygon |
| WorldData.DedupUnique | timeseries_api/data_processing/world_data_builder.py:101-120 | any two outcomes that keep ranked polygons at increasing indices, exactly the first occurrences of their keys, are the same lists: the deduplication has one answer |
| WorldData.DedupKeys | timeseries_api/data_processing/world_data_builder.py:115-118 | kept keys are pairwise distinct and every key is represented by a kept polygon at or before it |
| WorldData.GenerateWaypoints | timeseries_api/data_processing/world_data_builder.py:89-128 | RuntimeError without bbox or DEM; the ranking's error; KeyError for a missing `waypoints`, `simulation` or (without an output file) `paths` section, and success exactly otherwise; the kept polygons are the deduplication of the ranked buildings (first occurrence of each DEM cell, ranked order) and all come from the input; exactly min(kept, 80) waypoints, the k-th at the k-th kept centroid and the configured clearance |
| WorldData.TspCoords | timeseries_api/data_processing/world_data_builder.py:137 | the (lat, lon) of every waypoint, same length and order |
| WorldData.Reorder | timeseries_api/data_processing/world_data_builder.py:146 | position k holds the waypoint at the k-th tour index |
| WorldData.ReorderVisitsAll | timeseries_api/data_processing/world_data_builder.py:146 | a tour visiting every index yields exactly the original waypoints |
| WorldData.GenerateOrderedWaypoints | timeseries_api/data_processing/world_data_builder.py:130-149 | an unsupported metric over two or more waypoints fails; success exactly when the metric is usable and the tour `christofides` returns on the cost matrix is non-empty and in range, and then the result is the waypoints reordered by that tour; any other failure is the IndexError |
| GeoUtils.BboxFromCenter | timeseries_api/data_processing/utils.py:22-33 | the box is centred on (lat, lon), square in degrees, with side `dem_km` (when configured, else the buffer) over 111 |
| GeoUtils.BboxRoundTrip | timeseries_api/data_processing/utils.py:22-33 | a square box is rebuilt from its centre and side |
| GeoUtils.Score | timeseries_api/data_processing/utils.py:69-75 | a polygon scores iff its truncated inverse-transformed centroid indexes the terrain |
| GeoUtils.Scores | timeseries_api/data_processing/utils.py:67-75 | exactly the scoring polygons, in input order, with their scores |
| GeoUtils.SortRanked | timeseries_api/data_processing/utils.py:76 | the sort is descending by score and stable on ties, and a permutation of its input |
| GeoUtils.InsertRanked | timeseries_api/data_processing/utils.py:76 | insertion keeps the order and adds exactly one element |
| GeoUtils.RankedScores | timeseries_api/data_processing/utils.py:67-76 | sorted descending and stable; holds exactly the scoring polygons |
| GeoUtils.Take | timeseries_api/data_processing/utils.py:77 | `s[:n]` is the prefix of length min(n, length) |
| GeoUtils.RankBuildings | timeseries_api/data_processing/utils.py:66-77 | at most `top_n` polygons, the k-th being the polygon of the k-th ranked score; a singular transform fails |
| GeoUtils.Centroids | timeseries_api/data_processing/utils.py:68-70 | one centroid per polygon, in order |
| GeoUtils.Clearance | timeseries_api/data_processing/utils.py:80 | 20 without config, KeyError without a "simulation" section, else the configured value or 20 |
| GeoUtils.FlightWaypoints | timeseries_api/data_processing/utils.py:79-89 | one waypoint per polygon in order, lat = centroid y, lon = centroid x, alt = clearance |
| GeoUtils.FlightWaypointsAppend | timeseries_api/data_processing/utils.py:82-88 | the mapping distributes over concatenation |
| GeoUtils.NodeTable | timeseries_api/data_processing/utils.py:116 | keys are exactly the node ids |
| GeoUtils.NodeTableLast | timeseries_api/data_processing/utils.py:116 | a duplicated id keeps its last node's (lon, lat) |
| GeoUtils.Ways | timeseries_api/data_processing/utils.py:117 | exactly the way elements |
| GeoUtils.Coords | timeseries_api/data_processing/utils.py:123 | succeeds iff every referenced node exists, and then maps each id in order |
| GeoUtils.CloseRing | timeseries_api/data_processing/utils.py:124-125 | the result extends the coordinates by at most one and its first and last agree |
| GeoUtils.CloseRingIdempotent | timeseries_api/data_processing/utils.py:124-125 | closing is idempotent and changes nothing exactly for an already closed ring |
| GeoUtils.TaggedHeight | timeseries_api/data_processing/utils.py:130-142 | a "height" tag is parsed with "m" removed; without it, a "building:levels" tag gives its decimal value times the level height, or no height when it does not parse; no tags give no height |
| GeoUtils.TagHeight | timeseries_api/data_processing/utils.py:144 | a missing or unreadable height falls back to the default |
| GeoUtils.UnreadableHeightIsDefault | timeseries_api/data_processing/utils.py:133-144 | an unparsable "height" tag gives the default and is not replaced by levels |
| GeoUtils.HeightTagWins | timeseries_api/data_processing/utils.py:133-142 | a "height" tag makes "building:levels" irrelevant |
| GeoUtils.HeightInMetres | timeseries_api/data_processing/utils.py:133-135 | "Nm" gives N |
| GeoUtils.HeightFromLevels | timeseries_api/data_processing/utils.py:138-140 | without "height", N levels give N times the level height |
| GeoUtils.WayBuilding | timeseries_api/data_processing/utils.py:121-148 | an unknown node skips the way; an empty way raises IndexError; an invalid polygon skips it; a kept building has the closed ring and the tag height |
| GeoUtils.ParseWays | timeseries_api/data_processing/utils.py:119-148 | at most one building per way, each ring closed, geometries and heights kept together |
| GeoUtils.Combine | timeseries_api/data_processing/utils.py:121-148 | the first error wins; otherwise the way's building precedes the rest |
| GeoUtils.ParseWaysAppend | timeseries_api/data_processing/utils.py:121-148 | parsing one more way appends exactly that way's result |
| GeoUtils.OverpassHeights | timeseries_api/data_processing/utils.py:113-114 | defaults 10 and 3 without config, KeyError without an "overpass" section, else the configured values |
| GeoUtils.ParseOverpass | timeseries_api/data_processing/utils.py:112-151 | parses the ways against the node table with the configured heights; never more buildings than ways |
| Interval.UnitSeconds | timeseries_api/controller/query.py:6-15 | the lower-cased unit must be second(s) (1) or minute(s) (60) |
| Interval.UnitIgnoresCase | timeseries_api/controller/query.py:15 | units match case-insensitively |
| Interval.FitsTimedeltaDays | timeseries_api/controller/query.py:15 | a duration is representable iff its days lie within timedelta's 999999999 bound |
| Interval.ParseInterval | timeseries_api/controller/query.py:5-17 | succeeds iff the stripped text splits into exactly two tokens, an integer and a known unit, with a representable product; every failure carries the 400 message |
| Interval.ParseShown | timeseries_api/controller/query.py:5-15 | "N unit" with any whitespace between parses to N times the unit's seconds |
| Interval.OneTokenFails | timeseries_api/controller/query.py:14-17 | a number glued to its unit is rejected |
| Interval.ParseIgnoresSurroundingSpace | timeseries_api/controller/query.py:14 | surrounding whitespace changes neither success nor value |
| EnvConfig.Match | timeseries_api/config/load_config.py:25 | a match is a well-formed reference that is a prefix of the string |
| EnvConfig.MatchRender | timeseries_api/config/load_config.py:25 | every well-formed `${KEY}` or `${KEY:default}` is matched back, whatever follows |
| EnvConfig.EmptyDefaultNoMatch | timeseries_api/config/load_config.py:25 | `${KEY:}` does not match and is returned unchanged |
| EnvConfig.Lookup | timeseries_api/config/load_config.py:27-31 | the environment value, else the default, else None |
| EnvConfig.Expand | timeseries_api/config/load_config.py:19-32 | dicts keep their keys and lists their length, and every dict value and list item is itself expanded; scalars and unmatched strings are unchanged; a matched string becomes its lookup |
| EnvConfig.TextAfterReferenceDropped | timeseries_api/config/load_config.py:25-31 | text after the closing brace is dropped |
| EnvConfig.ExpandPlain | timeseries_api/config/load_config.py:19-32 | a value without references expands to itself |
| Playback.NewController | timeseries_api/controller/sim_controller.py:3-4 | the controller starts paused |
| Playback.Play | timeseries_api/controller/sim_controller.py:6-7 | play unpauses |
| Playback.Pause | timeseries_api/controller/sim_controller.py:9-10 | pause pauses |
| Playback.ResetController | timeseries_api/controller/sim_controller.py:12-13 | reset pauses |
| Playback.Status | timeseries_api/controller/sim_controller.py:15-16 | reports exactly the paused flag |
| Playback.PauseResetIdempotent | timeseries_api/controller/sim_controller.py:9-13 | pause and reset are idempotent and undo play |
| Playback.Initial | timeseries_api/main.py:147-151 | the start-up state (controller of main.py:38 plus `playback_state`) is the state a reset leaves, paused and valid |
| Playback.Next | timeseries_api/main.py:153-171 | paused: nothing changes; an empty trace is reloaded from the store with the index at 0, then the first stored point is served (index 1), or done when the store is empty; past the end: done, unchanged; otherwise the point at the index, index + 1; the index never passes the trace length |
| Playback.PlayState | timeseries_api/main.py:173-176 | play keeps trace and index |
| Playback.PauseState | timeseries_api/main.py:178-181 | pause keeps trace and index |
| Playback.Reset | timeseries_api/main.py:183-188 | paused, empty trace, index 0 |
| Playback.RunServesRest | timeseries_api/main.py:163-171 | an unpaused cursor serves the rest of the trace in order, then done |
| Playback.ResetThenPlay | timeseries_api/main.py:159-188 | reset then play replays the whole stored trace, then done |
| Playback.PausedRunIsIdle | timeseries_api/main.py:155-156 | any number of requests while paused answer paused and change nothing |
| Text.Strip | timeseries_api/controller/query.py:14 | `strip()` removes exactly the leading and trailing whitespace |
| Text.Split | timeseries_api/controller/query.py:14 | `split()` yields non-empty tokens without whitespace |
| Text.SplitStrip | timeseries_api/controller/query.py:14 | splitting ignores surrounding whitespace |
| Text.SplitTwo | timeseries_api/controller/query.py:14 | two tokens separated by whitespace split into exactly those two |
| Text.Lower | timeseries_api/controller/path_planner_wrapper.py:18 | `lower()` maps each character, same length |
| Text.LowerIdempotent | timeseries_api/controller/path_planner_wrapper.py:18 | lower-casing twice equals once |
| Text.ParseInt | timeseries_api/controller/query.py:15 | `int()` succeeds iff the stripped text is digits with an optional sign; the value is the digits' value, negated after `-` |
| Text.ParseDecimal | timeseries_api/data_processing/utils.py:135-140 | `float()` reads the stripped text as an unsigned decimal, or after a sign as the unsigned decimal that follows, negated for `-` |
| Text.ParseShowInt | timeseries_api/controller/query.py:15 | `int()` reads back every integer's decimal form |
| Text.ParseShowNatDecimal | timeseries_api/data_processing/utils.py:135 | `float()` reads back every natural's decimal form |
| Text.UnsignedWithPoint | timeseries_api/data_processing/utils.py:135 | "W.F" reads as W plus the fraction F |
| Text.RemoveChar | timeseries_api/data_processing/utils.py:135 | `replace("m", "")` leaves no "m" and changes nothing without one |
| Text.RemoveCharKeepsOthers | timeseries_api/data_processing/utils.py:135 | every other character keeps its count |
| Numeric.Trunc | timeseries_api/controller/rrt_planner.py:57 | `int()` on a float truncates toward zero |
| Numeric.RoundHalfEven | timeseries_api/controller/rrt_planner.py:104 | `round()` is within one half and breaks ties to even |
| Numeric.FloatMod | timeseries_api/controller/simulation_controller.py:81 | float `%` with a positive modulus lies in [0, m) and differs from x by whole multiples |
| Numeric.Clamp | timeseries_api/controller/rrt_star_planner.py:48-49 | `min(max(v, lo), hi)` lies in [lo, hi], keeps in-range values, and moves others to the nearer end |
| Numeric.NumpyIndex | timeseries_api/data_processing/utils.py:72 | a numpy index is valid iff it lies in [-n, n), negatives counting from the end |
| Geometry.Nearest | timeseries_api/controller/rrt_star_planner.py:114 | `min` by distance returns the first index of minimal distance |
| Geometry.Invert | timeseries_api/controller/rrt_planner.py:95 | `~transform` is a two-sided inverse of a non-singular affine transform |

## Left out

- HTTP endpoints, the database and ingest, DEM and Overpass downloads, file writes, YAML reading and plotting: they are I/O. The playback trace loader is the `stored` parameter of `Playback.Next`.
- Foreign numerics enter as parameters or values:
  - geodesic and pyproj distances and azimuths;
  - `np.gradient` terrain complexity;
  - GPS noise and the sigmoid easing (the eased positions enter `Simulation.InterpolateSegment` as a sequence);
  - shapely validity and centroids;
  - networkx `christofides`.
- Floating-point rounding is not modelled: floats are exact reals.
- The inner `while` loop of `run_simulation` (simulation_controller.py:186-197) is left out. It steps geodesically towards each target until within 2 m, so whether it ends is a float liveness question. `Simulation.PlanLegs` stops at the planned legs.
- `step_towards`, `has_arrived`, `get_start_location`, `map2world`, `load_map` and `save_path` are left out because they are geodesic or file code.
- Broken wiring is modelled as each function in isolation:
  - rrt_star_planner.py:141 is not valid Python. `RrtStar.Step` rejects a failing point and continues, as line 142 does.
  - `GeoAwareRRT.find_path` calls `RRT(...)` with arguments it does not accept. `GeoAwareRRTStar.find_path` calls a `run` method that does not exist.
  - path_planner_wrapper.py:43-49 passes keyword arguments no sampling planner accepts. `PlannerWrapper.FindSegmentPath` reports the sampling planner that would be built.
  - main.py:160 calls the asynchronous loader with a cursor.
- The parent-segment check after `return True` in `is_valid_point` (rrt_star_planner.py:79-90) is unreachable and not modelled.
- `generate_new_point` passes map coordinates to `is_valid_point`, which treats them as world coordinates again. The model keeps that double conversion.
- `world_data_builder.py:107` names the inverse transform's (col, row) output as (row, col). The model keeps the names as written.
- rasterio's `rowcol` is modelled as a plain floor of the inverse transform, without rasterio's small epsilon.
- `Text.Lower` folds ASCII letters only. `Text.ParseInt` and `Text.ParseDecimal` accept optional sign, ASCII digits and one point. They do not model underscores, exponents, `inf`/`nan` or non-ASCII digits.
- `EnvConfig.Expand`: configuration values are strings, numbers, booleans, null, lists and dicts in YAML order. Duplicate-key handling of YAML dicts is not modelled.
- Simulation.BuildPath: requires a non-singular transform. For a singular one, the source's `~self.transform` raises, and the model leaves that error out.
- Simulation.SafeDem: requires a non-singular transform. For a singular one, `rowcol` raises an error that `safe_dem_func` does not catch (it catches only IndexError and ValueError), and the model leaves that error out.
- Simulation.WaypointCell: requires a non-singular transform, for the same reason as `Simulation.BuildPath`; the error `~self.transform` raises is not modelled.
- Simulation.InterpolateSegment: requires a non-singular transform, because each sample's altitude comes from `Simulation.SafeDem`; the uncaught error for a singular one is not modelled.
- RrtStar.GetFinalPath: the walk back takes a fuel bound, and running out of fuel is reported as `Unfinished`. An edge list with a cycle would make the source loop forever; the fuel bound leaves that behaviour unmodelled. No edges are ever recorded, so such a cycle cannot arise (see `RrtStar.FinalPathWithoutEdges`).
- AStar.FindPath: optimality of the returned path is not proved; the contract states legality, no repeats and completeness.
- AStar.FindPath: requires an elevation array of the grid's shape and, when elevation is given, an in-bounds start; the source raises IndexError (or wraps a negative index) otherwise. Its only caller, in `simulation_controller.py`, builds the grid from the elevation's shape and clamps the cells, so it always meets both.
- Rrt.Plan: requires a non-negative step size; a negative one makes `steer` move away from the sample in the source.
- Rrt.SamplePoint: the bounds are stated only for draws in [0, 1], which is what `random.uniform` scales.
- GeoUtils.RankBuildings: `top_n` is a natural number; Python slicing with a negative `top_n` is not modelled.
- WorldData.GenerateOrderedWaypoints: starts from the waypoints `generate_waypoints` returned (see `WorldData.GenerateWaypoints`). `christofides` is a parameter, so the contract does not state that every waypoint is visited; `WorldData.ReorderVisitsAll` covers a tour that does.
- WorldData.GenerateWaypoints: the terrain matrix is a parameter because `compute_terrain_complexity` is foreign.
- Playback.Next: the index is a natural number, which the source's counter always is.
- Interval.ParseInterval: Python's `int()` also accepts underscores between digits, which the model rejects. The `timedelta` OverflowError is modelled by `Interval.FitsTimedelta`.

## Findings

| source | as written | input that shows it | evidently intended | confidence | as-written member | corrected member |
|---|---|---|---|---|---|---|
| timeseries_api/controller/rrt_planner.py:69-81 | `self.tree[new_point] = nearest` runs even when `new_point` is already a key, so a node can become its own parent | start == goal, with the first draw above 0.9: the goal sample is start, the nearest node is start, and `steer` returns start. Then `tree[start] = start`, the distance to the goal is 0 < step size, and `_reconstruct_path` loops forever | attach only new points, so the root stays parentless and reconstruction returns `[start]` | high; not executed | Rrt.PlanAsWritten, Rrt.StartIsGoalHangs | Rrt.Plan, Rrt.StartIsGoalCorrected |

=== FILE: astar.dfy ===
/**
 * `AStarPlanner.find_path`: A* over an 8-connected integer occupancy grid
 * where 0 marks a free cell. A step costs its length (1 orthogonally,
 * sqrt 2 diagonally) plus `elevation_penalty * |delta elevation|` when an
 * elevation grid is given. The frontier is a binary heap of `(f, cell)`
 * tuples with no decrease-key, so a cell can be queued several times and is
 * popped in Python's tuple order; the `came_from` links are walked back from
 * the goal to rebuild the path.
 */
module AStar {
  import opened Wrappers
  import opened Grid

  /** `np.linalg.norm([1, 1])`, the diagonal step length, as the double numpy returns. */
  const DIAG: real := 1.4142135623730951

  /** The fields of an `AStarPlanner` (the debug flag only prints). */
  datatype Planner = Planner(grid: Matrix<int>, elevation: Option<Matrix<real>>, penalty: real)

  predicate WellFormed(p: Planner)
  {
    && Rectangular(p.grid)
    && (p.elevation.Some? ==> Rectangular(p.elevation.value) && SameShape(p.grid, p.elevation.value))
  }

  datatype Offset = Offset(dr: int, dc: int)

  /** The neighbour offsets in the order `get_neighbors` yields them. */
  const Directions: seq<Offset> := [
    Offset(0, 1), Offset(0, -1), Offset(1, 0), Offset(-1, 0),
    Offset(1, 1), Offset(1, -1), Offset(-1, 1), Offset(-1, -1)
  ]

  /** The 8-neighbourhood: distinct cells at most one row and one column apart. */
  predicate Adjacent(a: Cell, b: Cell)
  {
    a != b && -1 <= b.row - a.row <= 1 && -1 <= b.col - a.col <= 1
  }

  /** The position of an offset in `Directions`, or 8 for an offset that is not a move. */
  function DirectionIndex(dr: int, dc: int): (k: nat)
    ensures k <= 8
    ensures k < 8 <==> (dr != 0 || dc != 0) && -1 <= dr <= 1 && -1 <= dc <= 1
    ensures k < 8 ==> Directions[k] == Offset(dr, dc)
  {
    if dr == 0 && dc == 1 then 0
    else if dr == 0 && dc == -1 then 1
    else if dr == 1 && dc == 0 then 2
    else if dr == -1 && dc == 0 then 3
    else if dr == 1 && dc == 1 then 4
    else if dr == 1 && dc == -1 then 5
    else if dr == -1 && dc == 1 then 6
    else if dr == -1 && dc == -1 then 7
    else 8
  }

  /** `np.linalg.norm([dx, dy])` for a move: 1 for orthogonal, sqrt 2 for diagonal. */
  function BaseCost(a: Cell, b: Cell): real
  {
    if a.row == b.row || a.col == b.col then 1.0 else DIAG
  }

  /** One yielded neighbour: the cell and the length of the move to it. */
  datatype Step = Step(cell: Cell, base: real)

  function StepCells(steps: seq<Step>): set<Cell>
  {
    set i | 0 <= i < |steps| :: steps[i].cell
  }

  /**
   * `get_neighbors(pos)`: the in-bounds free cells around `pos`, in
   * `Directions` order, each with its move length.
   */
  function Neighbors(grid: Matrix<int>, pos: Cell): (steps: seq<Step>)
    requires Rectangular(grid)
    ensures forall i :: 0 <= i < |steps| ==>
              Adjacent(pos, steps[i].cell) && IsFree(grid, steps[i].cell)
              && steps[i].base == BaseCost(pos, steps[i].cell)
    ensures forall n :: n in StepCells(steps) <==> Adjacent(pos, n) && IsFree(grid, n)
  {
    NeighborsFrom(grid, pos, 0)
  }

  function NeighborsFrom(grid: Matrix<int>, pos: Cell, k: nat): (steps: seq<Step>)
    requires Rectangular(grid) && k <= |Directions|
    ensures NeighborsFromSpec(grid, pos, k, steps)
    decreases |Directions| - k
  {
    if k == |Directions| then []
    else
      var d := Directions[k];
      var n := Cell(pos.row + d.dr, pos.col + d.dc);
      var rest := NeighborsFrom(grid, pos, k + 1);
      var steps := if InBounds(grid, n) && At(grid, n) == 0 then [Step(n, BaseCost(pos, n))] + rest else rest;
      NeighborsFromStep(grid, pos, k, rest, steps);
      steps
  }

  /** What `NeighborsFrom(grid, pos, k)` yields: the moves among `Directions[k..]` onto free cells. */
  ghost predicate NeighborsFromSpec(grid: Matrix<int>, pos: Cell, k: nat, steps: seq<Step>)
    requires Rectangular(grid)
  {
    && (forall i :: 0 <= i < |steps| ==>
          Adjacent(pos, steps[i].cell) && IsFree(grid, steps[i].cell)
          && steps[i].base == BaseCost(pos, steps[i].cell))
    && (forall n :: n in StepCells(steps) <==>
          IsFree(grid, n) && k <= DirectionIndex(n.row - pos.row, n.col - pos.col) < 8)
  }

  lemma NeighborsFromStep(grid: Matrix<int>, pos: Cell, k: nat, rest: seq<Step>, steps: seq<Step>)
    requires Rectangular(grid) && k < |Directions|
    requires NeighborsFromSpec(grid, pos, k + 1, rest)
    requires var n := Cell(pos.row + Directions[k].dr, pos.col + Directions[k].dc);
             steps == if InBounds(grid, n) && At(grid, n) == 0 then [Step(n, BaseCost(pos, n))] + rest else rest
    ensures NeighborsFromSpec(grid, pos, k, steps)
  {
    var n := Cell(pos.row + Directions[k].dr, pos.col + Directions[k].dc);
    DirectionIsMove(k);
    assert Adjacent(pos, n);
    assert DirectionIndex(n.row - pos.row, n.col - pos.col) == k;
    forall c: Cell ensures DirectionIndex(c.row - pos.row, c.col - pos.col) == k ==> c == n {
      if DirectionIndex(c.row - pos.row, c.col - pos.col) == k {
        assert Directions[k] == Offset(c.row - pos.row, c.col - pos.col);
      }
    }
    if InBounds(grid, n) && At(grid, n) == 0 {
      StepCellsCons(Step(n, BaseCost(pos, n)), rest);
    }
  }

  /** Each listed direction is a move, and `DirectionIndex` finds it at its own position. */
  lemma DirectionIsMove(k: nat)
    requires k < |Directions|
    ensures var d := Directions[k];
            (d.dr != 0 || d.dc != 0) && -1 <= d.dr <= 1 && -1 <= d.dc <= 1
            && DirectionIndex(d.dr, d.dc) == k
  {
  }

  lemma StepCellsCons(st: Step, rest: seq<Step>)
    ensures StepCells([st] + rest) == {st.cell} + StepCells(rest)
  {
    var steps := [st] + rest;
    assert steps[0].cell == st.cell;
    forall c | c in StepCells(rest) ensures c in StepCells(steps) {
      var i :| 0 <= i < |rest| && rest[i].cell == c;
      assert steps[i + 1].cell == c;
    }
    forall c | c in StepCells(steps) ensures c in {st.cell} + StepCells(rest) {
      var i :| 0 <= i < |steps| && steps[i].cell == c;
      if i > 0 {
        assert rest[i - 1].cell == c;
      }
    }
  }

  /** The elevation of a cell; every cell this is asked about lies inside the grid. */
  function ElevationAt(e: Matrix<real>, c: Cell): real
  {
    if 0 <= c.row < |e| && 0 <= c.col < |e[c.row]| then e[c.row][c.col] else 0.0
  }

  function Abs(x: real): real
  {
    if x < 0.0 then -x else x
  }

  /** `elev_cost`: zero without an elevation grid, else the penalty times the height change. */
  function ElevationCost(p: Planner, a: Cell, b: Cell): real
  {
    match p.elevation
    case None => 0.0
    case Some(e) => p.penalty * Abs(ElevationAt(e, b) - ElevationAt(e, a))
  }

  /** The cost of moving from `a` to its neighbour `b`. */
  function StepCost(p: Planner, a: Cell, b: Cell): real
  {
    BaseCost(a, b) + ElevationCost(p, a, b)
  }

  /**
   * A move costs at least its length when the penalty is non-negative, and
   * exactly its length when no elevation grid is given.
   */
  lemma StepCostBounds(p: Planner, a: Cell, b: Cell)
    requires Adjacent(a, b)
    ensures p.elevation.None? ==> StepCost(p, a, b) == BaseCost(a, b)
    ensures p.penalty >= 0.0 ==> StepCost(p, a, b) >= BaseCost(a, b) >= 1.0
    ensures BaseCost(a, b) == 1.0 <==> a.row == b.row || a.col == b.col
  {
    if p.penalty >= 0.0 && p.elevation.Some? {
      var e := p.elevation.value;
      var d := Abs(ElevationAt(e, b) - ElevationAt(e, a));
      assert d >= 0.0;
      assert p.penalty * d >= 0.0;
    }
  }

  /** The straight-line distance to the goal, through the injected square root. */
  function Heuristic(sqrt: real -> real, goal: Cell, n: Cell): real
  {
    var dr := goal.row - n.row;
    var dc := goal.col - n.col;
    sqrt((dr * dr + dc * dc) as real)
  }

  /** A heap entry `(f_score, cell)`. */
  datatype Entry = Entry(f: real, cell: Cell)

  /** Python's tuple order on heap entries: by f, then row, then column. */
  predicate Before(a: Entry, b: Entry)
  {
    || a.f < b.f
    || (a.f == b.f && a.cell.row < b.cell.row)
    || (a.f == b.f && a.cell.row == b.cell.row && a.cell.col < b.cell.col)
  }

  /** The position of the entry `heappop` returns: one no other entry precedes. */
  function MinEntry(open: seq<Entry>): (k: nat)
    requires |open| > 0
    ensures k < |open|
    ensures forall j :: 0 <= j < |open| ==> !Before(open[j], open[k])
  {
    MinEntryFrom(open, 0, 1)
  }

  function MinEntryFrom(open: seq<Entry>, best: nat, i: nat): (k: nat)
    requires best < i <= |open|
    requires forall j :: 0 <= j < i ==> !Before(open[j], open[best])
    ensures k < |open|
    ensures forall j :: 0 <= j < |open| ==> !Before(open[j], open[k])
    decreases |open| - i
  {
    if i == |open| then best
    else if Before(open[i], open[best]) then
      assert forall j :: 0 <= j < i ==> !Before(open[j], open[i]) by {
        forall j | 0 <= j < i ensures !Before(open[j], open[i]) {
          BeforeTransitive(open[j], open[i], open[best]);
        }
      }
      MinEntryFrom(open, i, i + 1)
    else MinEntryFrom(open, best, i + 1)
  }

  lemma BeforeTransitive(a: Entry, b: Entry, c: Entry)
    ensures Before(a, b) && Before(b, c) ==> Before(a, c)
    ensures !Before(a, a)
  {
  }

  function OpenCells(open: seq<Entry>): set<Cell>
  {
    set i | 0 <= i < |open| :: open[i].cell
  }

  /** The search state of one `find_path` call. */
  datatype Search = Search(open: seq<Entry>, cameFrom: map<Cell, Cell>, g: map<Cell, real>, visited: set<Cell>)

  /**
   * Relaxing the edge from `current` to one yielded neighbour. A visited
   * neighbour is skipped; otherwise the neighbour's g-score and parent are
   * replaced, and the neighbour pushed, only on a strict improvement.
   */
  function Relax(p: Planner, sqrt: real -> real, goal: Cell, s: Search, current: Cell, step: Step): (r: Search)
    requires current in s.g
    ensures r.visited == s.visited
    ensures step.cell in s.visited ==> r == s
    ensures forall k :: k in s.g ==> k in r.g && r.g[k] <= s.g[k]
    ensures r != s ==> step.cell !in s.g || r.g[step.cell] < s.g[step.cell]
    ensures step.cell !in s.visited ==>
              step.cell in r.g && r.g[step.cell] <= s.g[current] + step.base + ElevationCost(p, current, step.cell)
    ensures r == s || (
              && r.g == s.g[step.cell := s.g[current] + step.base + ElevationCost(p, current, step.cell)]
              && r.cameFrom == s.cameFrom[step.cell := current]
              && r.open == s.open + [Entry(r.g[step.cell] + Heuristic(sqrt, goal, step.cell), step.cell)])
  {
    var n := step.cell;
    if n in s.visited then s
    else
      var tentative := s.g[current] + (step.base + ElevationCost(p, current, n));
      if n !in s.g || tentative < s.g[n] then
        Search(s.open + [Entry(tentative + Heuristic(sqrt, goal, n), n)],
               s.cameFrom[n := current], s.g[n := tentative], s.visited)
      else s
  }

  /** `path` is a walk of legal moves from `start` to `goal`; only the cells after `start` are checked. */
  predicate IsPath(grid: Matrix<int>, path: seq<Cell>, start: Cell, goal: Cell)
    requires Rectangular(grid)
  {
    && |path| >= 1 && path[0] == start && path[|path| - 1] == goal
    && forall i :: 0 < i < |path| ==> Adjacent(path[i - 1], path[i]) && IsFree(grid, path[i])
  }

  predicate NoRepeats(path: seq<Cell>)
  {
    forall i, j :: 0 <= i < j < |path| ==> path[i] != path[j]
  }

  /** A visited cell's free neighbours have been relaxed from it. */
  ghost predicate Closed(p: Planner, s: Search, v: Cell)
    requires Rectangular(p.grid)
  {
    forall n :: Adjacent(v, n) && IsFree(p.grid, n) ==>
      n in s.g && v in s.g && (n !in s.visited ==> s.g[n] <= s.g[v] + StepCost(p, v, n))
  }

  /** Parent links point to visited cells that were visited earlier than their children. */
  ghost predicate Ranked(cf: map<Cell, Cell>, rank: map<Cell, nat>, top: nat)
  {
    && (forall v :: v in rank ==> rank[v] < top)
    && (forall k :: k in cf ==> cf[k] in rank)
    && (forall k :: k in cf && k in rank ==> rank[cf[k]] < rank[k])
  }

  ghost function Height(rank: map<Cell, nat>, top: nat, c: Cell): nat
  {
    if c in rank then rank[c] else top
  }

  /**
   * The cells `while current in came_from` walks through, oldest first: the
   * loop at the end of `find_path` before it appends `start` and reverses.
   */
  function Chain(cf: map<Cell, Cell>, c: Cell, ghost rank: map<Cell, nat>, ghost top: nat): seq<Cell>
    requires Ranked(cf, rank, top)
    decreases Height(rank, top, c)
  {
    if c in cf then Chain(cf, cf[c], rank, top) + [c] else []
  }

  /** The invariant of the search loop apart from the closure of visited cells. */
  ghost predicate Core(p: Planner, start: Cell, goal: Cell, s: Search, rank: map<Cell, nat>, count: nat)
    requires WellFormed(p)
  {
    && CoreKeys(p, start, goal, s)
    && CoreParents(p, s)
    && rank.Keys == s.visited && Ranked(s.cameFrom, rank, count)
  }

  /** Which cells have a cost, a parent, a heap entry or a closed mark. */
  ghost predicate CoreKeys(p: Planner, start: Cell, goal: Cell, s: Search)
    requires WellFormed(p)
  {
    && start != goal
    && start in s.g && start !in s.cameFrom && s.g.Keys == s.cameFrom.Keys + {start}
    && s.visited <= s.g.Keys && goal !in s.visited
    && s.g.Keys <= AllCells(p.grid) + {start}
    && OpenCells(s.open) <= s.g.Keys && s.g.Keys <= s.visited + OpenCells(s.open)
    && (s.visited == {} ==> s.open == [Entry(0.0, start)])
    && (s.visited != {} ==> start in s.visited)
  }

  /** Every parent link is a legal move out of a closed cell, and costs add up along it. */
  ghost predicate CoreParents(p: Planner, s: Search)
    requires WellFormed(p)
  {
    && s.cameFrom.Keys <= s.g.Keys && s.visited <= s.g.Keys
    && (forall k :: k in s.cameFrom ==>
          s.cameFrom[k] in s.visited && Adjacent(s.cameFrom[k], k) && IsFree(p.grid, k))
    && (forall k :: k in s.cameFrom ==> s.g[k] == s.g[s.cameFrom[k]] + StepCost(p, s.cameFrom[k], k))
  }

  /**
   * `find_path(start, goal)`. A returned path runs from `start` to `goal`
   * through legal moves onto free cells and repeats no cell; `None` is
   * returned exactly when no such walk exists.
   */
  method FindPath(p: Planner, sqrt: real -> real, start: Cell, goal: Cell) returns (path: Option<seq<Cell>>)
    requires WellFormed(p)
    requires p.elevation.Some? ==> InBounds(p.grid, start)
    ensures start == goal ==> path == Some([start])
    ensures path.Some? ==> IsPath(p.grid, path.value, start, goal) && NoRepeats(path.value)
    ensures path.None? ==> forall w :: !IsPath(p.grid, w, start, goal)
  {
    if start == goal {
      return Some([start]);
    }
    var s := Search([Entry(0.0, start)], map[], map[start := 0.0], {});
    ghost var rank: map<Cell, nat> := map[];
    ghost var count: nat := 0;
    ghost var universe := AllCells(p.grid) + {start};
    assert s.open[0].cell == start;
    assert OpenCells(s.open) == {start};

    while |s.open| > 0
      invariant Core(p, start, goal, s, rank, count)
      invariant forall v :: v in s.visited ==> Closed(p, s, v)
      decreases universe - s.visited, |s.open|
    {
      var idx := MinEntry(s.open);
      var current := s.open[idx].cell;
      var rest := s.open[..idx] + s.open[idx + 1..];
      if current == goal {
        assert goal in s.cameFrom;
        PathFromChain(p, s, start, goal, rank, count);
        return Some([start] + Chain(s.cameFrom, goal, rank, count));
      }
      ghost var rank' := if current in s.visited then rank else rank[current := count];
      ghost var count' := if current in s.visited then count else count + 1;
      var popped := s.(open := rest, visited := s.visited + {current});
      PopKeepsCore(p, start, goal, s, idx, popped, rank, count, rank', count');
      rank, count := rank', count';
      s := Expand(p, sqrt, start, goal, popped, current, rank, count);
    }
    assert start in s.visited;
    GoalUnreachable(p, s, start, goal);
    return None;
  }

  /**
   * Popping the heap minimum and closing its cell keeps the invariant, and
   * either closes one more cell or shortens the heap.
   */
  lemma PopKeepsCore(p: Planner, start: Cell, goal: Cell, s: Search, idx: nat, popped: Search,
                     rank: map<Cell, nat>, count: nat, rank': map<Cell, nat>, count': nat)
    requires WellFormed(p)
    requires Core(p, start, goal, s, rank, count)
    requires forall v :: v in s.visited ==> Closed(p, s, v)
    requires idx < |s.open| && s.open[idx].cell != goal
    requires popped == s.(open := s.open[..idx] + s.open[idx + 1..], visited := s.visited + {s.open[idx].cell})
    requires rank' == (if s.open[idx].cell in s.visited then rank else rank[s.open[idx].cell := count])
    requires count' == (if s.open[idx].cell in s.visited then count else count + 1)
    ensures Core(p, start, goal, popped, rank', count')
    ensures forall v :: v in popped.visited && v != s.open[idx].cell ==> Closed(p, popped, v)
    ensures s.open[idx].cell in s.visited ==> Closed(p, popped, s.open[idx].cell)
    ensures s.open[idx].cell in AllCells(p.grid) + {start}
    ensures |popped.open| < |s.open|
  {
    var current := s.open[idx].cell;
    RemoveEntry(s.open, idx);
    assert current in OpenCells(s.open);
    PopKeepsKeys(p, start, goal, s, idx, popped);
    PopKeepsRanks(s, current, popped, rank, count, rank', count');
    PopKeepsClosed(p, s, current, popped);
  }

  lemma PopKeepsKeys(p: Planner, start: Cell, goal: Cell, s: Search, idx: nat, popped: Search)
    requires WellFormed(p)
    requires CoreKeys(p, start, goal, s) && CoreParents(p, s)
    requires idx < |s.open| && s.open[idx].cell != goal
    requires popped == s.(open := s.open[..idx] + s.open[idx + 1..], visited := s.visited + {s.open[idx].cell})
    ensures CoreKeys(p, start, goal, popped) && CoreParents(p, popped)
  {
    RemoveEntry(s.open, idx);
    assert s.open[idx].cell in OpenCells(s.open);
  }

  lemma PopKeepsRanks(s: Search, current: Cell, popped: Search,
                      rank: map<Cell, nat>, count: nat, rank': map<Cell, nat>, count': nat)
    requires rank.Keys == s.visited && Ranked(s.cameFrom, rank, count)
    requires forall k :: k in s.cameFrom ==> s.cameFrom[k] in s.visited
    requires popped.cameFrom == s.cameFrom && popped.visited == s.visited + {current}
    requires rank' == (if current in s.visited then rank else rank[current := count])
    requires count' == (if current in s.visited then count else count + 1)
    ensures rank'.Keys == popped.visited && Ranked(popped.cameFrom, rank', count')
  {
    forall k | k in popped.cameFrom && k in rank' ensures rank'[popped.cameFrom[k]] < rank'[k] {
      assert popped.cameFrom[k] in s.visited;
    }
  }

  lemma PopKeepsClosed(p: Planner, s: Search, current: Cell, popped: Search)
    requires WellFormed(p)
    requires forall v :: v in s.visited ==> Closed(p, s, v)
    requires popped.g == s.g && popped.visited == s.visited + {current}
    ensures forall v :: v in popped.visited && v != current ==> Closed(p, popped, v)
    ensures current in s.visited ==> Closed(p, popped, current)
  {
    forall v | v in popped.visited && (v != current || current in s.visited)
      ensures Closed(p, popped, v)
    {
      assert Closed(p, s, v);
    }
  }

  /** After every neighbour has been relaxed, the expanded cell is closed. */
  lemma NeighborsClose(p: Planner, s: Search, current: Cell, steps: seq<Step>)
    requires WellFormed(p)
    requires current in s.g
    requires steps == Neighbors(p.grid, current)
    requires forall j :: 0 <= j < |steps| ==> steps[j].cell in s.g
    requires forall j :: 0 <= j < |steps| && steps[j].cell !in s.visited ==>
               s.g[steps[j].cell] <= s.g[current] + StepCost(p, current, steps[j].cell)
    ensures Closed(p, s, current)
  {
    forall n | Adjacent(current, n) && IsFree(p.grid, n)
      ensures n in s.g && (n !in s.visited ==> s.g[n] <= s.g[current] + StepCost(p, current, n))
    {
      assert n in StepCells(steps);
      var j :| 0 <= j < |steps| && steps[j].cell == n;
    }
  }

  /**
   * The neighbour loop of `find_path`: relax every free neighbour of the
   * expanded cell. Afterwards the cell is closed; a cell that was already
   * closed (a stale heap entry) changes nothing.
   */
  method Expand(p: Planner, sqrt: real -> real, start: Cell, goal: Cell, s0: Search, current: Cell,
                ghost rank: map<Cell, nat>, ghost count: nat) returns (s: Search)
    requires WellFormed(p)
    requires Core(p, start, goal, s0, rank, count)
    requires current in s0.visited
    requires forall v :: v in s0.visited && v != current ==> Closed(p, s0, v)
    ensures Core(p, start, goal, s, rank, count)
    ensures s.visited == s0.visited
    ensures forall v :: v in s.visited ==> Closed(p, s, v)
    ensures Closed(p, s0, current) ==> s == s0
  {
    s := s0;
    var steps := Neighbors(p.grid, current);
    var k := 0;
    while k < |steps|
      invariant k <= |steps|
      invariant s.visited == s0.visited
      invariant Core(p, start, goal, s, rank, count)
      invariant forall v :: v in s.visited && v != current ==> Closed(p, s, v)
      invariant Closed(p, s0, current) ==> s == s0
      invariant forall j :: 0 <= j < k ==> steps[j].cell in s.g
      invariant forall j :: 0 <= j < k && steps[j].cell !in s.visited ==>
                  s.g[steps[j].cell] <= s.g[current] + StepCost(p, current, steps[j].cell)
    {
      var s' := Relax(p, sqrt, goal, s, current, steps[k]);
      RelaxKeepsInvariant(p, sqrt, start, goal, s, s', current, steps[k], rank, count);
      RelaxKeepsBounds(p, sqrt, goal, s, s', current, steps, k);
      s := s';
      k := k + 1;
    }
    NeighborsClose(p, s, current, steps);
  }

  /** Removing one heap entry loses at most that entry's cell. */
  lemma RemoveEntry(open: seq<Entry>, idx: nat)
    requires idx < |open|
    ensures |open[..idx] + open[idx + 1..]| == |open| - 1
    ensures OpenCells(open[..idx] + open[idx + 1..]) <= OpenCells(open)
    ensures OpenCells(open) <= OpenCells(open[..idx] + open[idx + 1..]) + {open[idx].cell}
  {
    var rest := open[..idx] + open[idx + 1..];
    forall c | c in OpenCells(rest) ensures c in OpenCells(open) {
      var i :| 0 <= i < |rest| && rest[i].cell == c;
      if i < idx { assert open[i].cell == c; } else { assert open[i + 1].cell == c; }
    }
    forall c | c in OpenCells(open) && c != open[idx].cell ensures c in OpenCells(rest) {
      var i :| 0 <= i < |open| && open[i].cell == c;
      if i < idx { assert rest[i].cell == c; } else { assert rest[i - 1].cell == c; }
    }
  }

  /** One relaxation inside the neighbour loop keeps the loop invariant. */
  lemma RelaxKeepsInvariant(p: Planner, sqrt: real -> real, start: Cell, goal: Cell,
                            s: Search, r: Search, current: Cell, step: Step,
                            rank: map<Cell, nat>, count: nat)
    requires WellFormed(p)
    requires Core(p, start, goal, s, rank, count)
    requires current in s.visited
    requires forall v :: v in s.visited && v != current ==> Closed(p, s, v)
    requires Adjacent(current, step.cell) && IsFree(p.grid, step.cell)
    requires step.base == BaseCost(current, step.cell)
    requires r == Relax(p, sqrt, goal, s, current, step)
    ensures Core(p, start, goal, r, rank, count)
    ensures forall v :: v in r.visited && v != current ==> Closed(p, r, v)
    ensures r.g[current] == s.g[current]
  {
    if r != s {
      RelaxKeepsCore(p, sqrt, start, goal, s, r, current, step, rank, count);
      forall v | v in r.visited && v != current ensures Closed(p, r, v) {
        assert Closed(p, s, v);
      }
    }
  }

  /** The neighbours relaxed so far stay reached, and their bounds only tighten. */
  lemma RelaxKeepsBounds(p: Planner, sqrt: real -> real, goal: Cell, s: Search, r: Search,
                         current: Cell, steps: seq<Step>, k: nat)
    requires WellFormed(p)
    requires k < |steps| && current in s.visited && s.visited <= s.g.Keys
    requires steps[k].base == BaseCost(current, steps[k].cell)
    requires forall j :: 0 <= j < k ==> steps[j].cell in s.g
    requires forall j :: 0 <= j < k && steps[j].cell !in s.visited ==>
               s.g[steps[j].cell] <= s.g[current] + StepCost(p, current, steps[j].cell)
    requires r == Relax(p, sqrt, goal, s, current, steps[k])
    requires r.g[current] == s.g[current]
    ensures forall j :: 0 <= j < k + 1 ==> steps[j].cell in r.g
    ensures forall j :: 0 <= j < k + 1 && steps[j].cell !in r.visited ==>
              r.g[steps[j].cell] <= r.g[current] + StepCost(p, current, steps[j].cell)
  {
    forall j | 0 <= j < k + 1
      ensures steps[j].cell in r.g
      ensures steps[j].cell !in r.visited ==>
                r.g[steps[j].cell] <= r.g[current] + StepCost(p, current, steps[j].cell)
    {
      if j == k {
        if steps[k].cell in s.visited {
          assert r == s;
          assert steps[k].cell in s.g;
        }
      }
    }
  }

  lemma RelaxKeepsCore(p: Planner, sqrt: real -> real, start: Cell, goal: Cell,
                       s: Search, r: Search, current: Cell, step: Step,
                       rank: map<Cell, nat>, count: nat)
    requires WellFormed(p)
    requires Core(p, start, goal, s, rank, count)
    requires current in s.visited
    requires Adjacent(current, step.cell) && IsFree(p.grid, step.cell)
    requires step.base == BaseCost(current, step.cell)
    requires r == Relax(p, sqrt, goal, s, current, step) && r != s
    ensures Core(p, start, goal, r, rank, count)
  {
    var n := step.cell;
    assert n !in s.visited;
    RelaxKeepsKeys(p, sqrt, start, goal, s, r, current, step);
    RelaxKeepsParents(p, sqrt, goal, s, r, current, step);
    assert Ranked(r.cameFrom, rank, count);
  }

  lemma RelaxKeepsKeys(p: Planner, sqrt: real -> real, start: Cell, goal: Cell,
                       s: Search, r: Search, current: Cell, step: Step)
    requires WellFormed(p)
    requires CoreKeys(p, start, goal, s)
    requires current in s.visited
    requires IsFree(p.grid, step.cell)
    requires r == Relax(p, sqrt, goal, s, current, step) && r != s
    ensures CoreKeys(p, start, goal, r)
  {
    var n := step.cell;
    assert n != start;
    OpenCellsPush(s.open, r.open[|s.open|]);
    assert r.open == s.open + [r.open[|s.open|]];
  }

  lemma RelaxKeepsParents(p: Planner, sqrt: real -> real, goal: Cell,
                          s: Search, r: Search, current: Cell, step: Step)
    requires WellFormed(p)
    requires CoreParents(p, s)
    requires current in s.visited && current in s.g
    requires Adjacent(current, step.cell) && IsFree(p.grid, step.cell)
    requires step.base == BaseCost(current, step.cell)
    requires r == Relax(p, sqrt, goal, s, current, step) && r != s
    ensures CoreParents(p, r)
  {
    var n := step.cell;
    assert n !in s.visited;
    forall k | k in r.cameFrom
      ensures r.g[k] == r.g[r.cameFrom[k]] + StepCost(p, r.cameFrom[k], k)
    {
      if k != n {
        assert r.cameFrom[k] == s.cameFrom[k];
        assert s.cameFrom[k] in s.visited;
      }
    }
  }

  lemma OpenCellsPush(open: seq<Entry>, e: Entry)
    ensures OpenCells(open + [e]) == OpenCells(open) + {e.cell}
  {
    var o := open + [e];
    assert o[|open|] == e;
    forall c | c in OpenCells(o) ensures c in OpenCells(open) + {e.cell} {
      var i :| 0 <= i < |o| && o[i].cell == c;
      if i < |open| { assert open[i].cell == c; }
    }
    forall c | c in OpenCells(open) ensures c in OpenCells(o) {
      var i :| 0 <= i < |open| && open[i].cell == c;
      assert o[i].cell == c;
    }
  }

  /**
   * With a non-negative elevation penalty every move costs at least 1, so a
   * parent's g-score is strictly below its child's.
   */
  lemma ParentCheaper(p: Planner, start: Cell, goal: Cell, s: Search, rank: map<Cell, nat>, count: nat)
    requires WellFormed(p) && p.penalty >= 0.0
    requires Core(p, start, goal, s, rank, count)
    ensures forall k :: k in s.cameFrom ==> s.g[s.cameFrom[k]] + 1.0 <= s.g[k]
  {
    forall k | k in s.cameFrom ensures s.g[s.cameFrom[k]] + 1.0 <= s.g[k] {
      StepCostBounds(p, s.cameFrom[k], k);
    }
  }

  /** Walking the parent links from the goal yields a legal, repetition-free path from `start`. */
  lemma PathFromChain(p: Planner, s: Search, start: Cell, goal: Cell, rank: map<Cell, nat>, count: nat)
    requires WellFormed(p)
    requires Core(p, start, goal, s, rank, count)
    requires goal in s.cameFrom
    ensures IsPath(p.grid, [start] + Chain(s.cameFrom, goal, rank, count), start, goal)
    ensures NoRepeats([start] + Chain(s.cameFrom, goal, rank, count))
  {
    assert start in s.visited;
    forall k | k in s.cameFrom ensures s.cameFrom[k] == start || s.cameFrom[k] in s.cameFrom {
      assert s.cameFrom[k] in s.g.Keys;
    }
    ChainIsPath(p.grid, s.cameFrom, start, goal, rank, count);
    var path := [start] + Chain(s.cameFrom, goal, rank, count);
    IncreasingIsInjective(path, rank, count);
  }

  lemma {:induction false} ChainIsPath(grid: Matrix<int>, cf: map<Cell, Cell>, start: Cell, c: Cell,
                                       rank: map<Cell, nat>, top: nat)
    requires Rectangular(grid) && Ranked(cf, rank, top)
    requires start in rank && start !in cf
    requires forall k :: k in cf ==>
               (cf[k] == start || cf[k] in cf) && Adjacent(cf[k], k) && IsFree(grid, k)
    requires c in cf
    ensures var path := [start] + Chain(cf, c, rank, top);
            && IsPath(grid, path, start, c)
            && forall i :: 0 < i < |path| ==> Height(rank, top, path[i - 1]) < Height(rank, top, path[i])
    decreases Height(rank, top, c)
  {
    var par := cf[c];
    if par == start {
      assert Chain(cf, c, rank, top) == [c];
    } else {
      ChainIsPath(grid, cf, start, par, rank, top);
      var prev := [start] + Chain(cf, par, rank, top);
      var path := [start] + Chain(cf, c, rank, top);
      assert path == prev + [c];
      assert prev[|prev| - 1] == par;
      forall i | 0 < i < |path|
        ensures Adjacent(path[i - 1], path[i]) && IsFree(grid, path[i])
        ensures Height(rank, top, path[i - 1]) < Height(rank, top, path[i])
      {
        if i < |prev| {
          assert path[i - 1] == prev[i - 1] && path[i] == prev[i];
        } else {
          assert path[i - 1] == par && path[i] == c;
        }
      }
    }
  }

  /** Strictly increasing heights along a sequence make its cells pairwise distinct. */
  lemma IncreasingIsInjective(path: seq<Cell>, rank: map<Cell, nat>, top: nat)
    requires forall i :: 0 < i < |path| ==> Height(rank, top, path[i - 1]) < Height(rank, top, path[i])
    ensures NoRepeats(path)
  {
    forall i, j | 0 <= i < j < |path| ensures Height(rank, top, path[i]) < Height(rank, top, path[j]) {
      var k := i + 1;
      while k < j
        invariant i < k <= j
        invariant Height(rank, top, path[i]) < Height(rank, top, path[k])
      {
        k := k + 1;
      }
    }
  }

  /** With the frontier empty, every walk from `start` stays among visited cells, so none reaches `goal`. */
  lemma GoalUnreachable(p: Planner, s: Search, start: Cell, goal: Cell)
    requires Rectangular(p.grid)
    requires start in s.visited && goal !in s.visited
    requires s.g.Keys <= s.visited
    requires forall v :: v in s.visited ==> Closed(p, s, v)
    ensures forall w :: !IsPath(p.grid, w, start, goal)
  {
    forall w | IsPath(p.grid, w, start, goal) ensures false {
      var k := 0;
      while k < |w| - 1
        invariant 0 <= k < |w| && w[k] in s.visited
      {
        assert Closed(p, s, w[k]);
        assert Adjacent(w[k], w[k + 1]) && IsFree(p.grid, w[k + 1]);
        k := k + 1;
      }
    }
  }
}

=== FILE: env_config.dfy ===
/**
 * `_expand_env_vars`: a loaded configuration tree in which every string
 * that starts with a `${KEY}` or `${KEY:default}` reference is replaced by
 * the environment's value for KEY, else the default, else `None`. The
 * environment is a parameter.
 */
module EnvConfig {
  import opened Wrappers

  /** A YAML value: scalars, lists, and mappings kept in their key order. */
  datatype Value =
    | VNull
    | VBool(b: bool)
    | VNum(n: real)
    | VStr(s: string)
    | VList(items: seq<Value>)
    | VDict(entries: seq<(string, Value)>)

  /** The two groups of the pattern: the variable's name and the optional default. */
  datatype Reference = Reference(key: string, default: Option<string>)

  /** The number of leading characters of `s` outside `stops`: a maximal `[^...]*` run. */
  function RunLength(s: string, stops: set<char>): (n: nat)
    ensures n <= |s|
    ensures forall i :: 0 <= i < n ==> s[i] !in stops
    ensures n < |s| ==> s[n] in stops
  {
    if |s| == 0 || s[0] in stops then 0 else 1 + RunLength(s[1..], stops)
  }

  /** The characters the name group `[^:}]+` excludes. */
  const KeyStops: set<char> := {':', '}'}
  /** The characters the default group `[^}]+` excludes. */
  const DefaultStops: set<char> := {'}'}

  /** A reference the pattern can produce: a non-empty name and a non-empty default, if any. */
  predicate WellFormed(r: Reference)
  {
    && |r.key| > 0 && (forall i :: 0 <= i < |r.key| ==> r.key[i] !in KeyStops)
    && (r.default.Some? ==>
          |r.default.value| > 0 && forall i :: 0 <= i < |r.default.value| ==> r.default.value[i] !in DefaultStops)
  }

  /** The text a reference is written as. */
  function Render(r: Reference): string
  {
    "${" + r.key + (if r.default.Some? then ":" + r.default.value else "") + "}"
  }

  /**
   * `re.match(r"\$\{([^:}]+)(?::([^}]+))?\}", s)`. The name run is maximal
   * (backtracking into it cannot reach a `:` or `}`), and so is the default
   * run, so the match is the one determined below. Only the start of `s` is
   * matched.
   */
  function Match(s: string): (m: Option<Reference>)
    ensures m.Some? ==> WellFormed(m.value)
    ensures m.Some? ==> |Render(m.value)| <= |s| && s[..|Render(m.value)|] == Render(m.value)
  {
    if |s| < 2 || s[0] != '$' || s[1] != '{' then None
    else
      var rest := s[2..];
      var k := RunLength(rest, KeyStops);
      if k == 0 || k == |rest| then None
      else if rest[k] == '}' then
        PlainPrefix(s, k);
        Some(Reference(rest[..k], None))
      else
        var tail := rest[k + 1..];
        var d := RunLength(tail, DefaultStops);
        if d == 0 || d == |tail| then None
        else
          DefaultPrefix(s, k, d);
          Some(Reference(rest[..k], Some(tail[..d])))
  }

  /** A `${name}` at the front of `s` is its rendering. */
  lemma PlainPrefix(s: string, k: nat)
    requires 2 + k < |s| && s[0] == '$' && s[1] == '{' && s[2 + k] == '}'
    ensures s[..k + 3] == Render(Reference(s[2..][..k], None))
  {
    var key := s[2..][..k];
    assert s[..k + 3] == s[..2] + s[2..2 + k] + [s[2 + k]];
    assert s[..2] == "${" && s[2..2 + k] == key;
  }

  /** A `${name:default}` at the front of `s` is its rendering. */
  lemma DefaultPrefix(s: string, k: nat, d: nat)
    requires 2 + k + 1 + d < |s| && s[0] == '$' && s[1] == '{' && s[2 + k] == ':' && s[2 + k + 1 + d] == '}'
    ensures s[..k + d + 4] == Render(Reference(s[2..][..k], Some(s[2..][k + 1..][..d])))
  {
    var key := s[2..][..k];
    var default := s[2..][k + 1..][..d];
    assert s[..k + d + 4] == s[..2] + s[2..2 + k] + [s[2 + k]] + s[3 + k..3 + k + d] + [s[3 + k + d]];
    assert s[..2] == "${" && s[2..2 + k] == key && s[3 + k..3 + k + d] == default;
  }

  /** Every well-formed reference, followed by anything, is matched as itself. */
  lemma MatchRender(r: Reference, tail: string)
    requires WellFormed(r)
    ensures Match(Render(r) + tail) == Some(r)
  {
    var s := Render(r) + tail;
    assert s[0] == '$' && s[1] == '{';
    var rest := s[2..];
    var key := r.key;
    if r.default.None? {
      assert rest == key + ("}" + tail);
      RunLengthOf(key, "}" + tail, KeyStops);
      assert rest[|key|] == '}' && rest[..|key|] == key;
    } else {
      var d := r.default.value;
      assert rest == key + (":" + (d + ("}" + tail)));
      RunLengthOf(key, ":" + (d + ("}" + tail)), KeyStops);
      assert rest[|key|] == ':' && rest[..|key|] == key;
      var t := rest[|key| + 1..];
      assert t == d + ("}" + tail);
      RunLengthOf(d, "}" + tail, DefaultStops);
      assert t[|d|] == '}' && t[..|d|] == d;
    }
  }

  /** `${KEY:}` is no reference: the default group needs a character, so the string stays as it is. */
  lemma EmptyDefaultNoMatch(env: map<string, string>, key: string, tail: string)
    requires |key| > 0 && forall i :: 0 <= i < |key| ==> key[i] !in KeyStops
    ensures Match("${" + key + ":}" + tail).None?
    ensures Expand(env, VStr("${" + key + ":}" + tail)) == VStr("${" + key + ":}" + tail)
  {
    var s := "${" + key + ":}" + tail;
    assert s[0] == '$' && s[1] == '{';
    var rest := s[2..];
    assert rest == key + (":}" + tail);
    RunLengthOf(key, ":}" + tail, KeyStops);
    assert rest[|key|] == ':';
    var after := rest[|key| + 1..];
    assert after == "}" + tail;
    assert RunLength(after, DefaultStops) == 0;
    assert Match(s).None?;
  }

  /** A run of characters outside `stops` followed by a stop is exactly one run long. */
  lemma {:induction false} RunLengthOf(a: string, rest: string, stops: set<char>)
    requires forall i :: 0 <= i < |a| ==> a[i] !in stops
    requires |rest| > 0 && rest[0] in stops
    ensures RunLength(a + rest, stops) == |a|
  {
    if |a| > 0 {
      assert (a + rest)[1..] == a[1..] + rest;
      RunLengthOf(a[1..], rest, stops);
    }
  }

  /** `os.getenv(key, default)`, with `None` when neither is there. */
  function Lookup(env: map<string, string>, r: Reference): (v: Value)
    ensures r.key in env ==> v == VStr(env[r.key])
    ensures r.key !in env && r.default.Some? ==> v == VStr(r.default.value)
    ensures r.key !in env && r.default.None? ==> v == VNull
  {
    if r.key in env then VStr(env[r.key])
    else if r.default.Some? then VStr(r.default.value)
    else VNull
  }

  /** `_expand_env_vars` over the whole tree. */
  function Expand(env: map<string, string>, v: Value): (r: Value)
    ensures v.VList? ==> r.VList? && |r.items| == |v.items|
    ensures v.VDict? ==> r.VDict? && |r.entries| == |v.entries|
    ensures v.VDict? ==> forall i :: 0 <= i < |v.entries| ==> r.entries[i].0 == v.entries[i].0
    ensures v.VList? ==> forall i :: 0 <= i < |v.items| ==> r.items[i] == Expand(env, v.items[i])
    ensures v.VDict? ==> forall i :: 0 <= i < |v.entries| ==> r.entries[i].1 == Expand(env, v.entries[i].1)
    ensures v.VNull? || v.VBool? || v.VNum? ==> r == v
    ensures v.VStr? && Match(v.s).None? ==> r == v
    ensures v.VStr? && Match(v.s).Some? ==> r == Lookup(env, Match(v.s).value)
  {
    match v
    case VList(items) =>
      VList(seq(|items|, i requires 0 <= i < |items| => Expand(env, items[i])))
    case VDict(entries) =>
      VDict(seq(|entries|, i requires 0 <= i < |entries| => (entries[i].0, Expand(env, entries[i].1))))
    case VStr(s) =>
      if Match(s).Some? then Lookup(env, Match(s).value) else v
    case _ => v
  }

  /** Whatever follows the closing brace of a reference is dropped. */
  lemma TextAfterReferenceDropped(env: map<string, string>, r: Reference, tail: string)
    requires WellFormed(r)
    ensures Expand(env, VStr(Render(r) + tail)) == Expand(env, VStr(Render(r)))
  {
    MatchRender(r, tail);
    MatchRender(r, "");
    assert Render(r) + "" == Render(r);
  }

  /** A tree with no string that starts with a reference. */
  predicate Plain(v: Value)
  {
    match v
    case VStr(s) => Match(s).None?
    case VList(items) => forall i :: 0 <= i < |items| ==> Plain(items[i])
    case VDict(entries) => forall i :: 0 <= i < |entries| ==> Plain(entries[i].1)
    case _ => true
  }

  /** Expansion changes nothing in a tree without references, at any depth. */
  lemma {:induction false} ExpandPlain(env: map<string, string>, v: Value)
    requires Plain(v)
    ensures Expand(env, v) == v
  {
    match v
    case VList(items) =>
      forall i | 0 <= i < |items|
        ensures Expand(env, items[i]) == items[i]
      {
        ExpandPlain(env, items[i]);
      }
      assert Expand(env, v).items == items;
    case VDict(entries) =>
      forall i | 0 <= i < |entries|
        ensures Expand(env, entries[i].1) == entries[i].1
      {
        ExpandPlain(env, entries[i].1);
      }
      assert Expand(env, v).entries == entries;
    case _ =>
  }
}

=== FILE: geo_utils.dfy ===
/**
 * The waypoint-preparation helpers: the DEM box around a centre, the
 * ranking of building footprints by the terrain roughness under them, one
 * waypoint per footprint, and the reading of OpenStreetMap ways into closed
 * footprints with a height.
 */
module GeoUtils {
  import opened Wrappers
  import opened Geometry
  import opened Grid
  import opened Text
  import Numeric

  /**
   * The loaded configuration as far as these helpers read it: sections of
   * numeric settings. `None` and an empty mapping are both falsy in the
   * source and behave alike, so both are the empty map here.
   */
  type Config = map<string, map<string, real>>

  /** `config[section].get(key, fallback)` once the section is known to be there. */
  function Setting(config: Config, section: string, key: string, fallback: real): real
    requires section in config
  {
    if key in config[section] then config[section][key] else fallback
  }

  /** Degrees of latitude per kilometre are taken as 1/111. */
  const KmPerDegree := 111.0

  datatype Bbox = Bbox(minLat: real, maxLat: real, minLon: real, maxLon: real)

  /** The box's side in kilometres: `simulation.dem_km` when configured, else the buffer. */
  function BoxKm(bufferKm: real, config: Config): real
  {
    if "simulation" in config then Setting(config, "simulation", "dem_km", bufferKm) else bufferKm
  }

  /** `get_bbox_from_center`: a square of `km / 111` degrees on each side, centred on the point. */
  function BboxFromCenter(lat: real, lon: real, bufferKm: real, config: Config): (b: Bbox)
    ensures (b.minLat + b.maxLat) / 2.0 == lat && (b.minLon + b.maxLon) / 2.0 == lon
    ensures b.maxLat - b.minLat == b.maxLon - b.minLon == BoxKm(bufferKm, config) / KmPerDegree
    ensures "simulation" in config && "dem_km" in config["simulation"] ==>
              b.maxLat - b.minLat == config["simulation"]["dem_km"] / KmPerDegree
    ensures !("simulation" in config && "dem_km" in config["simulation"]) ==>
              b.maxLat - b.minLat == bufferKm / KmPerDegree
  {
    var delta := BoxKm(bufferKm, config) / KmPerDegree;
    Bbox(lat - delta / 2.0, lat + delta / 2.0, lon - delta / 2.0, lon + delta / 2.0)
  }

  /** Every square box is the box around its own centre with its own side. */
  lemma BboxRoundTrip(b: Bbox)
    requires b.maxLat - b.minLat == b.maxLon - b.minLon
    ensures BboxFromCenter((b.minLat + b.maxLat) / 2.0, (b.minLon + b.maxLon) / 2.0,
                           (b.maxLat - b.minLat) * KmPerDegree, map[]) == b
  {
  }

  /** A polygon that survived the lookup, with the terrain value under its centroid. */
  datatype Scored = Scored(index: nat, score: real)

  /**
   * `dem[int(row), int(col)]` at a centroid, or `None` where numpy raises.
   * The source names the inverse transform's outputs (row, col), although
   * for a north-up raster they are (col, row); this is modelled as written.
   */
  function Score(inv: Affine, dem: Matrix<real>, c: Point): (s: Option<real>)
    requires Rectangular(dem)
    ensures s.Some? <==> Numeric.NumpyIndex(Numeric.Trunc(Apply(inv, c).x), Rows(dem)).Some?
                         && Numeric.NumpyIndex(Numeric.Trunc(Apply(inv, c).y), Cols(dem)).Some?
  {
    var p := Apply(inv, c);
    match (Numeric.NumpyIndex(Numeric.Trunc(p.x), Rows(dem)), Numeric.NumpyIndex(Numeric.Trunc(p.y), Cols(dem)))
    case (Some(i), Some(j)) => Some(dem[i][j])
    case _ => None
  }

  /** The `scores` list: each centroid whose lookup succeeds, in input order. */
  function Scores(inv: Affine, dem: Matrix<real>, cs: seq<Point>): (r: seq<Scored>)
    requires Rectangular(dem)
    ensures forall e :: e in r ==> e.index < |cs| && Score(inv, dem, cs[e.index]) == Some(e.score)
    ensures forall k, l :: 0 <= k < l < |r| ==> r[k].index < r[l].index
    ensures forall i :: 0 <= i < |cs| && Score(inv, dem, cs[i]).Some? ==>
              Scored(i, Score(inv, dem, cs[i]).value) in r
  {
    if |cs| == 0 then []
    else
      var front := Scores(inv, dem, cs[..|cs| - 1]);
      var last := |cs| - 1;
      assert forall i :: 0 <= i < last ==> cs[..last][i] == cs[i];
      match Score(inv, dem, cs[last])
      case Some(v) => front + [Scored(last, v)]
      case None => front
  }

  /**
   * The order `sort(key=score, reverse=True)` leaves: higher scores first,
   * and, the sort being stable, equal scores in input order.
   */
  predicate Before(a: Scored, b: Scored)
  {
    a.score > b.score || (a.score == b.score && a.index < b.index)
  }

  predicate Ranked(s: seq<Scored>)
  {
    forall i, j :: 0 <= i < j < |s| ==> Before(s[i], s[j])
  }

  predicate DistinctIndices(s: seq<Scored>)
  {
    forall i, j :: 0 <= i < j < |s| ==> s[i].index != s[j].index
  }

  /** Insert one entry ahead of the first entry it precedes. */
  function Insert(x: Scored, s: seq<Scored>): (r: seq<Scored>)
  {
    if |s| == 0 || Before(x, s[0]) then [x] + s else [s[0]] + Insert(x, s[1..])
  }

  /** Insertion keeps the order and adds exactly the new entry. */
  lemma {:induction false} InsertRanked(x: Scored, s: seq<Scored>)
    requires Ranked(s)
    requires forall i :: 0 <= i < |s| ==> s[i].index != x.index
    ensures Ranked(Insert(x, s))
    ensures multiset(Insert(x, s)) == multiset(s) + multiset{x}
  {
    if |s| == 0 || Before(x, s[0]) {
      assert forall j :: 0 < j < |s| ==> Before(s[0], s[j]);
    } else {
      InsertRanked(x, s[1..]);
      var t := Insert(x, s[1..]);
      assert multiset(s) == multiset{s[0]} + multiset(s[1..]) by {
        assert s == [s[0]] + s[1..];
      }
      HeadBeforeAll(s, x, t);
      assert Insert(x, s) == [s[0]] + t;
    }
  }

  /**
   * The head of a ranked list precedes every entry of the rest with one
   * entry it does not follow added.
   */
  lemma HeadBeforeAll(s: seq<Scored>, x: Scored, t: seq<Scored>)
    requires Ranked(s) && |s| > 0 && !Before(x, s[0]) && s[0].index != x.index
    requires multiset(t) == multiset(s[1..]) + multiset{x}
    ensures forall j :: 0 <= j < |t| ==> Before(s[0], t[j])
  {
    forall j | 0 <= j < |t|
      ensures Before(s[0], t[j])
    {
      assert t[j] in multiset(t);
      if t[j] != x {
        assert t[j] in multiset(s[1..]);
        var k :| 0 <= k < |s[1..]| && s[1..][k] == t[j];
        assert s[k + 1] == t[j];
      }
    }
  }

  /** The stable descending sort, by insertion. */
  function Sort(s: seq<Scored>): (r: seq<Scored>)
  {
    if |s| == 0 then [] else Insert(s[0], Sort(s[1..]))
  }

  /** Sorting entries with distinct indices ranks them and keeps exactly the same entries. */
  lemma {:induction false} SortRanked(s: seq<Scored>)
    requires DistinctIndices(s)
    ensures Ranked(Sort(s))
    ensures multiset(Sort(s)) == multiset(s)
    ensures forall x :: x in Sort(s) <==> x in s
  {
    if |s| > 0 {
      var rest := Sort(s[1..]);
      assert DistinctIndices(s[1..]);
      SortRanked(s[1..]);
      OtherIndices(s, rest);
      InsertRanked(s[0], rest);
      assert s == [s[0]] + s[1..];
    }
    SameMembers(Sort(s), s);
  }

  /** A list holding the entries after the head holds none with the head's index. */
  lemma OtherIndices(s: seq<Scored>, rest: seq<Scored>)
    requires DistinctIndices(s) && |s| > 0 && multiset(rest) == multiset(s[1..])
    ensures forall i :: 0 <= i < |rest| ==> rest[i].index != s[0].index
  {
    forall i | 0 <= i < |rest|
      ensures rest[i].index != s[0].index
    {
      assert rest[i] in multiset(s[1..]);
      var k :| 0 <= k < |s[1..]| && s[1..][k] == rest[i];
      assert s[k + 1] == rest[i];
    }
  }

  /** Lists with the same multiset have the same members. */
  lemma SameMembers<T>(a: seq<T>, b: seq<T>)
    requires multiset(a) == multiset(b)
    ensures forall x :: x in a <==> x in b
  {
    assert forall x :: x in a <==> x in multiset(a);
  }

  /** The first `n` entries, or all of them when there are fewer. */
  function Take<T>(s: seq<T>, n: nat): (r: seq<T>)
    ensures |r| <= n && |r| <= |s|
    ensures |r| == n || |r| == |s|
    ensures r == s[..|r|]
  {
    if n < |s| then s[..n] else s
  }

  /**
   * `rank_buildings_by_complexity`: score every polygon under its centroid,
   * drop those whose lookup raises, sort by score, highest first and stable,
   * and keep the first `topN`. Inverting a degenerate transform raises
   * before any polygon is scored.
   */
  function RankBuildings<P>(polys: seq<P>, centroid: P -> Point, dem: Matrix<real>, t: Affine,
                            topN: nat): (r: Result<seq<P>>)
    requires Rectangular(dem)
    ensures r.Err? <==> |polys| > 0 && Determinant(t) == 0.0
    ensures r.Ok? ==> |r.value| <= topN && |r.value| <= |polys|
    ensures r.Ok? && |polys| > 0 ==>
              var ranked := RankedScores(polys, centroid, dem, Invert(t));
              && |r.value| == |Take(ranked, topN)|
              && forall k :: 0 <= k < |r.value| ==> r.value[k] == polys[ranked[k].index]
  {
    if |polys| == 0 then Ok([])
    else if Determinant(t) == 0.0 then Err(ValueError("transform is not invertible"))
    else
      var kept := Take(RankedScores(polys, centroid, dem, Invert(t)), topN);
      assert forall k :: 0 <= k < |kept| ==> kept[k] in RankedScores(polys, centroid, dem, Invert(t));
      Ok(seq(|kept|, k requires 0 <= k < |kept| => polys[kept[k].index]))
  }

  /** The centroids, one per polygon. */
  function Centroids<P>(polys: seq<P>, centroid: P -> Point): (cs: seq<Point>)
    ensures |cs| == |polys|
    ensures forall i :: 0 <= i < |polys| ==> cs[i] == centroid(polys[i])
  {
    seq(|polys|, i requires 0 <= i < |polys| => centroid(polys[i]))
  }

  /**
   * The `scores` list after the sort: exactly the polygons whose lookup
   * succeeds, each once with its score, highest score first and ties in
   * input order (an order that leaves no two arrangements).
   */
  function RankedScores<P>(polys: seq<P>, centroid: P -> Point, dem: Matrix<real>, inv: Affine): (r: seq<Scored>)
    requires Rectangular(dem)
    ensures Ranked(r)
    ensures |r| <= |polys|
    ensures forall e :: e in r <==> e.index < |polys| && Score(inv, dem, centroid(polys[e.index])) == Some(e.score)
  {
    var cs := Centroids(polys, centroid);
    var scores := Scores(inv, dem, cs);
    SortRanked(scores);
    SortLength(scores);
    ScoresBound(scores, |cs|);
    Sort(scores)
  }

  /** Entries with increasing indices below `n` number at most `n`. */
  lemma {:induction false} ScoresBound(s: seq<Scored>, n: nat)
    requires forall e :: e in s ==> e.index < n
    requires forall k, l :: 0 <= k < l < |s| ==> s[k].index < s[l].index
    ensures |s| <= n
  {
    if |s| > 0 {
      var last := s[|s| - 1];
      assert last in s;
      assert forall e :: e in s[..|s| - 1] ==> e in s && e.index < last.index;
      ScoresBound(s[..|s| - 1], last.index);
    }
  }

  /** Sorting keeps the number of entries. */
  lemma {:induction false} SortLength(s: seq<Scored>)
    ensures |Sort(s)| == |s|
  {
    if |s| > 0 {
      SortLength(s[1..]);
      InsertLength(s[0], Sort(s[1..]));
    }
  }

  lemma {:induction false} InsertLength(x: Scored, s: seq<Scored>)
    ensures |Insert(x, s)| == |s| + 1
  {
    if |s| > 0 && !Before(x, s[0]) {
      InsertLength(x, s[1..]);
    }
  }

  /** One flight waypoint: the centroid's latitude and longitude, at the clearance altitude. */
  datatype Waypoint = Waypoint(lat: real, lon: real, alt: real)

  /**
   * `config["simulation"].get("altitude_clearance", 20) if config else 20`:
   * a non-empty configuration without the section raises KeyError.
   */
  function Clearance(config: Config): (r: Result<real>)
    ensures |config| == 0 ==> r == Ok(20.0)
    ensures |config| > 0 && "simulation" !in config ==> r == Err(KeyError("simulation"))
    ensures "simulation" in config ==> r == Ok(Setting(config, "simulation", "altitude_clearance", 20.0))
  {
    if |config| == 0 then Ok(20.0)
    else if "simulation" !in config then Err(KeyError("simulation"))
    else Ok(Setting(config, "simulation", "altitude_clearance", 20.0))
  }

  /** `generate_flight_waypoints_from_polygons`: one waypoint per polygon, in order. */
  function FlightWaypoints<P>(polys: seq<P>, centroid: P -> Point, config: Config): (r: Result<seq<Waypoint>>)
    ensures r.Err? <==> Clearance(config).Err?
    ensures r.Ok? ==> |r.value| == |polys|
    ensures r.Ok? ==> forall i :: 0 <= i < |polys| ==>
              r.value[i] == Waypoint(centroid(polys[i]).y, centroid(polys[i]).x, Clearance(config).value)
  {
    match Clearance(config)
    case Err(e) => Err(e)
    case Ok(alt) =>
      Ok(seq(|polys|, i requires 0 <= i < |polys| => Waypoint(centroid(polys[i]).y, centroid(polys[i]).x, alt)))
  }

  /** The waypoints of two polygon lists joined are the two waypoint lists joined. */
  lemma FlightWaypointsAppend<P>(a: seq<P>, b: seq<P>, centroid: P -> Point, config: Config)
    requires Clearance(config).Ok?
    ensures FlightWaypoints(a + b, centroid, config).value
         == FlightWaypoints(a, centroid, config).value + FlightWaypoints(b, centroid, config).value
  {
  }

  /** A position as the source stores it, `(lon, lat)`. */
  type Coord = (real, real)

  /** An OpenStreetMap way: its node ids in order and its tags. */
  datatype Way = Way(nodes: seq<int>, tags: map<string, string>)

  /** An element of the Overpass answer; anything else is ignored. */
  datatype Element =
    | NodeElement(id: int, lon: real, lat: real)
    | WayElement(way: Way)
    | OtherElement

  /** The `nodes` dict: each node's position by id; a later node with the same id replaces an earlier one. */
  function NodeTable(elements: seq<Element>): (t: map<int, Coord>)
    ensures forall id :: id in t <==>
              exists i :: 0 <= i < |elements| && elements[i].NodeElement? && elements[i].id == id
  {
    if |elements| == 0 then map[]
    else
      var front := elements[..|elements| - 1];
      var last := elements[|elements| - 1];
      var t := NodeTable(front);
      assert forall i :: 0 <= i < |front| ==> front[i] == elements[i];
      if last.NodeElement? then t[last.id := (last.lon, last.lat)] else t
  }

  /** A node's position is the one its last element with that id gives. */
  lemma {:induction false} NodeTableLast(elements: seq<Element>, i: nat)
    requires i < |elements| && elements[i].NodeElement?
    requires forall j :: i < j < |elements| && elements[j].NodeElement? ==> elements[j].id != elements[i].id
    ensures elements[i].id in NodeTable(elements)
    ensures NodeTable(elements)[elements[i].id] == (elements[i].lon, elements[i].lat)
  {
    if i < |elements| - 1 {
      var front := elements[..|elements| - 1];
      assert front[i] == elements[i];
      NodeTableLast(front, i);
    }
  }

  /** The `ways` list: the ways among the elements, in order. */
  function Ways(elements: seq<Element>): (ws: seq<Way>)
    ensures forall w :: w in ws <==> WayElement(w) in elements
  {
    if |elements| == 0 then []
    else
      var rest := Ways(elements[1..]);
      assert elements == [elements[0]] + elements[1..];
      if elements[0].WayElement? then [elements[0].way] + rest else rest
  }

  /** The positions of a way's node ids in order, or `None` for the KeyError of an unknown id. */
  function Coords(nodes: map<int, Coord>, ids: seq<int>): (r: Option<seq<Coord>>)
    ensures r.Some? <==> forall i :: 0 <= i < |ids| ==> ids[i] in nodes
    ensures r.Some? ==> |r.value| == |ids| && forall i :: 0 <= i < |ids| ==> r.value[i] == nodes[ids[i]]
  {
    if forall i :: 0 <= i < |ids| ==> ids[i] in nodes then
      Some(seq(|ids|, i requires 0 <= i < |ids| => nodes[ids[i]]))
    else None
  }

  /** An open ring is closed by repeating its first position; a closed one is kept. */
  function CloseRing(coords: seq<Coord>): (r: seq<Coord>)
    requires |coords| > 0
    ensures |r| == |coords| || |r| == |coords| + 1
    ensures r[0] == r[|r| - 1]
    ensures r[..|coords|] == coords
  {
    if coords[0] != coords[|coords| - 1] then coords + [coords[0]] else coords
  }

  /** Closing a ring only adds what is missing: a closed ring is left alone. */
  lemma CloseRingIdempotent(coords: seq<Coord>)
    requires |coords| > 0
    ensures CloseRing(CloseRing(coords)) == CloseRing(coords)
    ensures coords[0] == coords[|coords| - 1] <==> CloseRing(coords) == coords
  {
  }

  /** The height of a building of `levels` storeys, each `levelHeight` tall. */
  function LevelsHigh(levels: real, levelHeight: real): real
  {
    levels * levelHeight
  }

  /**
   * The number the tags give: the `height` tag with every `m` removed, or,
   * only when there is no `height` tag, `building:levels` times the level
   * height; `None` where the chosen tag does not read as a number.
   */
  function TaggedHeight(tags: map<string, string>, levelHeight: real): (h: Option<real>)
    ensures "height" in tags ==> h == ParseDecimal(RemoveChar(tags["height"], 'm'))
    ensures "height" !in tags && "building:levels" !in tags ==> h == None
    ensures "height" !in tags && "building:levels" in tags ==>
              (h.Some? <==> ParseDecimal(tags["building:levels"]).Some?)
              && (h.Some? ==> h.value == LevelsHigh(ParseDecimal(tags["building:levels"]).value, levelHeight))
  {
    if "height" in tags then ParseDecimal(RemoveChar(tags["height"], 'm'))
    else if "building:levels" in tags then
      match ParseDecimal(tags["building:levels"])
      case Some(levels) => Some(LevelsHigh(levels, levelHeight))
      case None => None
    else None
  }

  /** The height of a way: the tagged number, else the default. */
  function TagHeight(tags: map<string, string>, levelHeight: real, defaultHeight: real): (h: real)
    ensures TaggedHeight(tags, levelHeight).None? ==> h == defaultHeight
    ensures TaggedHeight(tags, levelHeight).Some? ==> h == TaggedHeight(tags, levelHeight).value
  {
    var tagged := TaggedHeight(tags, levelHeight);
    if tagged.Some? then tagged.value else defaultHeight
  }

  /** A `height` tag that does not read as a number gives the default, not the levels. */
  lemma UnreadableHeightIsDefault(tags: map<string, string>, levelHeight: real, defaultHeight: real)
    requires "height" in tags && ParseDecimal(RemoveChar(tags["height"], 'm')).None?
    ensures TagHeight(tags, levelHeight, defaultHeight) == defaultHeight
  {
  }

  /** With a `height` tag, the levels tag is never consulted, even when the height is unreadable. */
  lemma HeightTagWins(tags: map<string, string>, levels: string, levelHeight: real, defaultHeight: real)
    requires "height" in tags
    ensures TagHeight(tags["building:levels" := levels], levelHeight, defaultHeight)
         == TagHeight(tags, levelHeight, defaultHeight)
  {
    assert tags["building:levels" := levels]["height"] == tags["height"];
  }

  /** A height written as a whole number of metres, `"<n>m"`, reads as that number. */
  lemma HeightInMetres(tags: map<string, string>, n: nat, levelHeight: real, defaultHeight: real)
    requires "height" in tags && tags["height"] == ShowNat(n) + "m"
    ensures TagHeight(tags, levelHeight, defaultHeight) == n as real
  {
    var s := ShowNat(n);
    RemoveCharAppend(s, "m", 'm');
    assert forall i :: 0 <= i < |s| ==> s[i] != 'm';
    assert RemoveChar("m", 'm') == [];
    assert RemoveChar(s + "m", 'm') == s;
    ParseShowNatDecimal(n);
  }

  /** A whole number of levels, with no height tag, gives that many level heights. */
  lemma HeightFromLevels(tags: map<string, string>, n: nat, levelHeight: real, defaultHeight: real)
    requires "height" !in tags && "building:levels" in tags && tags["building:levels"] == ShowNat(n)
    ensures TagHeight(tags, levelHeight, defaultHeight) == LevelsHigh(n as real, levelHeight)
  {
    ParseShowNatDecimal(n);
  }

  /** A building footprint: its closed ring and its height. */
  datatype Building = Building(ring: seq<Coord>, height: real)

  /**
   * The body of the loop for one way. An unknown node id is the KeyError
   * the loop catches: the way is skipped. An empty node list fails at
   * `coords[0]` with an IndexError the loop does not catch. `polygon`
   * stands for shapely: its verdict on the ring, or the error it raises.
   */
  function WayBuilding(w: Way, nodes: map<int, Coord>, polygon: seq<Coord> -> Result<bool>,
                       levelHeight: real, defaultHeight: real): (r: Result<Option<Building>>)
    ensures Coords(nodes, w.nodes).None? ==> r == Ok(None)
    ensures Coords(nodes, w.nodes).Some? && |w.nodes| == 0 ==> r == Err(IndexError)
    ensures r.Ok? && r.value.Some? ==> Closed(r.value.value)
    ensures r.Ok? && r.value.Some? ==>
              var b := r.value.value;
              && Coords(nodes, w.nodes).Some? && |w.nodes| > 0
              && b.ring == CloseRing(Coords(nodes, w.nodes).value) && polygon(b.ring) == Ok(true)
              && b.height == TagHeight(w.tags, levelHeight, defaultHeight)
    ensures Coords(nodes, w.nodes).Some? && |w.nodes| > 0 ==>
              (polygon(CloseRing(Coords(nodes, w.nodes).value)).Err? <==> r.Err?)
              && (polygon(CloseRing(Coords(nodes, w.nodes).value)) == Ok(false) <==> r == Ok(None))
  {
    match Coords(nodes, w.nodes)
    case None => Ok(None)
    case Some(cs) =>
      if |cs| == 0 then Err(IndexError)
      else
        var ring := CloseRing(cs);
        match polygon(ring)
        case Err(e) => Err(e)
        case Ok(valid) =>
          if valid then Ok(Some(Building(ring, TagHeight(w.tags, levelHeight, defaultHeight)))) else Ok(None)
  }

  /** The loop over the ways: the buildings kept, in order, or the first uncaught error. */
  function ParseWays(ways: seq<Way>, nodes: map<int, Coord>, polygon: seq<Coord> -> Result<bool>,
                     levelHeight: real, defaultHeight: real): (r: Result<seq<Building>>)
    ensures r.Ok? ==> |r.value| <= |ways|
    ensures r.Ok? ==> forall k :: 0 <= k < |r.value| ==> Closed(r.value[k])
  {
    if |ways| == 0 then Ok([])
    else
      var one := WayBuilding(ways[0], nodes, polygon, levelHeight, defaultHeight);
      var rest := ParseWays(ways[1..], nodes, polygon, levelHeight, defaultHeight);
      if one.Ok? && rest.Ok? then
        KeptClosed(one.value, rest.value);
        Combine(one, rest)
      else Combine(one, rest)
  }

  /** One way's outcome in front of the outcome of the ways after it; the earlier error wins. */
  function Combine(one: Result<Option<Building>>, rest: Result<seq<Building>>): (r: Result<seq<Building>>)
    ensures one.Err? ==> r == Err(one.error)
    ensures one.Ok? && rest.Err? ==> r == Err(rest.error)
    ensures one.Ok? && rest.Ok? ==> r == Ok(Kept(one.value) + rest.value)
  {
    match one
    case Err(e) => Err(e)
    case Ok(b) =>
      match rest
      case Err(e) => Err(e)
      case Ok(bs) => Ok(Kept(b) + bs)
  }

  /** A footprint whose ring ends where it starts. */
  predicate Closed(b: Building)
  {
    |b.ring| > 0 && b.ring[0] == b.ring[|b.ring| - 1]
  }

  /** Prepending what one way keeps to closed footprints leaves them all closed. */
  lemma KeptClosed(b: Option<Building>, rest: seq<Building>)
    requires b.Some? ==> Closed(b.value)
    requires forall k :: 0 <= k < |rest| ==> Closed(rest[k])
    ensures forall k :: 0 <= k < |Kept(b) + rest| ==> Closed((Kept(b) + rest)[k])
  {
  }

  /** The buildings one way contributes: none, or the one it makes. */
  function Kept(b: Option<Building>): (r: seq<Building>)
    ensures |r| <= 1
  {
    if b.Some? then [b.value] else []
  }

  /**
   * `after` is `before` with one more way's outcome `one` at the end: an
   * earlier error stays, else that way's error, else its building appended.
   */
  predicate Extends(before: Result<seq<Building>>, one: Result<Option<Building>>, after: Result<seq<Building>>)
  {
    && (before.Err? ==> after == before)
    && (before.Ok? && one.Err? ==> after == Err(one.error))
    && (before.Ok? && one.Ok? ==> after == Ok(before.value + Kept(one.value)))
  }

  /** Putting the same first outcome in front of both sides keeps the extension. */
  lemma CombineExtends(first: Result<Option<Building>>, rest: Result<seq<Building>>,
                       one: Result<Option<Building>>, restAfter: Result<seq<Building>>)
    requires Extends(rest, one, restAfter)
    ensures Extends(Combine(first, rest), one, Combine(first, restAfter))
  {
    if first.Ok? && rest.Ok? && one.Ok? {
      assert Kept(first.value) + (rest.value + Kept(one.value))
          == (Kept(first.value) + rest.value) + Kept(one.value);
    }
  }

  /**
   * One more way extends the result by what that way alone gives; the
   * earlier ways' error, if any, comes first.
   */
  lemma {:induction false} ParseWaysAppend(ways: seq<Way>, w: Way, nodes: map<int, Coord>,
                                           polygon: seq<Coord> -> Result<bool>, levelHeight: real, defaultHeight: real)
    ensures Extends(ParseWays(ways, nodes, polygon, levelHeight, defaultHeight),
                    WayBuilding(w, nodes, polygon, levelHeight, defaultHeight),
                    ParseWays(ways + [w], nodes, polygon, levelHeight, defaultHeight))
  {
    var one := WayBuilding(w, nodes, polygon, levelHeight, defaultHeight);
    if |ways| == 0 {
      assert ways + [w] == [w];
      assert [w][1..] == [];
      if one.Ok? {
        assert [] + Kept(one.value) == Kept(one.value) + [];
      }
    } else {
      assert (ways + [w])[1..] == ways[1..] + [w];
      assert (ways + [w])[0] == ways[0];
      ParseWaysAppend(ways[1..], w, nodes, polygon, levelHeight, defaultHeight);
      CombineExtends(WayBuilding(ways[0], nodes, polygon, levelHeight, defaultHeight),
                     ParseWays(ways[1..], nodes, polygon, levelHeight, defaultHeight), one,
                     ParseWays(ways[1..] + [w], nodes, polygon, levelHeight, defaultHeight));
    }
  }


  /**
   * The two settings of the `overpass` section: the default building height
   * (10) and the height of a level (3). A non-empty configuration without
   * the section raises KeyError.
   */
  function OverpassHeights(config: Config): (r: Result<(real, real)>)
    ensures |config| == 0 ==> r == Ok((10.0, 3.0))
    ensures |config| > 0 && "overpass" !in config ==> r == Err(KeyError("overpass"))
    ensures "overpass" in config ==>
              r == Ok((Setting(config, "overpass", "default_building_height", 10.0),
                       Setting(config, "overpass", "building_levels_height", 3.0)))
  {
    if |config| == 0 then Ok((10.0, 3.0))
    else if "overpass" !in config then Err(KeyError("overpass"))
    else Ok((Setting(config, "overpass", "default_building_height", 10.0),
             Setting(config, "overpass", "building_levels_height", 3.0)))
  }

  /** `parse_overpass_to_polygons`: the buildings, each with its height, in way order. */
  function ParseOverpass(elements: seq<Element>, config: Config,
                         polygon: seq<Coord> -> Result<bool>): (r: Result<seq<Building>>)
    ensures OverpassHeights(config).Err? ==> r == Err(OverpassHeights(config).error)
    ensures OverpassHeights(config).Ok? ==>
              r == ParseWays(Ways(elements), NodeTable(elements), polygon,
                             OverpassHeights(config).value.1, OverpassHeights(config).value.0)
    ensures r.Ok? ==> |r.value| <= |Ways(elements)|
  {
    match OverpassHeights(config)
    case Err(e) => Err(e)
    case Ok((defaultHeight, levelHeight)) =>
      ParseWays(Ways(elements), NodeTable(elements), polygon, levelHeight, defaultHeight)
  }
}

=== FILE: geometry.dfy ===
/**
 * Planar points, squared distances, the square root the planners call
 * through numpy (an injected function characterised by `IsSqrt`), the
 * linear nearest-neighbour scan of Python's `min(..., key=...)`, and the
 * affine grid<->geographic transform of the `affine` package.
 */
module Geometry {
  import Numeric

  datatype Point = Point(x: real, y: real)

  /** A geographic position, latitude first as the planners return it. */
  datatype LatLon = LatLon(lat: real, lon: real)

  function SqDist(p: Point, q: Point): real
  {
    (p.x - q.x) * (p.x - q.x) + (p.y - q.y) * (p.y - q.y)
  }

  lemma SqDistNonNegative(p: Point, q: Point)
    ensures SqDist(p, q) >= 0.0
    ensures SqDist(p, q) == SqDist(q, p)
    ensures SqDist(p, p) == 0.0
  {
  }

  /**
   * `sqrt` is the non-negative square root on the non-negative reals. The
   * planners receive the square root as a parameter (numpy's `norm`); the
   * properties about distances are proved for every function satisfying this.
   */
  ghost predicate IsSqrt(sqrt: real -> real)
  {
    forall x :: 0.0 <= x ==> 0.0 <= sqrt(x) && sqrt(x) * sqrt(x) == x
  }

  /** Euclidean distance through the injected square root. */
  function Dist(sqrt: real -> real, p: Point, q: Point): real
  {
    sqrt(SqDist(p, q))
  }

  /** For non-negative `s`, comparing a root with `s` is comparing the radicand with `s * s`. */
  lemma SqrtCompare(sqrt: real -> real, v: real, s: real)
    requires IsSqrt(sqrt) && 0.0 <= v && 0.0 <= s
    ensures sqrt(v) <= s <==> v <= s * s
    ensures sqrt(v) < s <==> v < s * s
  {
    var r := sqrt(v);
    assert 0.0 <= r && r * r == v;
    if r < s {
      SquareStrictlyMonotone(r, s);
    } else if r > s {
      SquareStrictlyMonotone(s, r);
    }
  }

  /** Squaring is strictly increasing on the non-negative reals. */
  lemma SquareStrictlyMonotone(r: real, s: real)
    requires 0.0 <= r < s
    ensures r * r < s * s
  {
    Numeric.MulPositive(s - r, s + r);
    assert (s - r) * (s + r) == s * s - r * r;
  }

  /** Dividing a vector by its length gives a unit vector. */
  lemma UnitDirection(dx: real, dy: real, dist: real)
    requires dist > 0.0 && dist * dist == dx * dx + dy * dy
    ensures (dx / dist) * (dx / dist) + (dy / dist) * (dy / dist) == 1.0
  {
    var u := dx / dist;
    var v := dy / dist;
    assert dx == u * dist && dy == v * dist;
    calc {
      dist * dist;
      dx * dx + dy * dy;
      (u * dist) * (u * dist) + (v * dist) * (v * dist);
    }
    UnitFromScaled(u, v, dist);
  }

  lemma UnitFromScaled(u: real, v: real, dist: real)
    requires dist > 0.0 && dist * dist == (u * dist) * (u * dist) + (v * dist) * (v * dist)
    ensures u * u + v * v == 1.0
  {
  }

  /** A unit vector scaled by `step` has squared length `step * step`. */
  lemma ScaledUnitLength(u: real, v: real, step: real)
    requires u * u + v * v == 1.0
    ensures (u * step) * (u * step) + (v * step) * (v * step) == step * step
  {
  }

  /** The square root is monotone. */
  lemma SqrtMonotone(sqrt: real -> real, a: real, b: real)
    requires IsSqrt(sqrt) && 0.0 <= a <= b
    ensures sqrt(a) <= sqrt(b)
  {
    var ra := sqrt(a);
    var rb := sqrt(b);
    assert 0.0 <= ra && ra * ra == a;
    assert 0.0 <= rb && rb * rb == b;
    if rb < ra {
      SquareStrictlyMonotone(rb, ra);
    }
  }

  /** The square root of zero is zero and of a positive number positive. */
  lemma SqrtZero(sqrt: real -> real, v: real)
    requires IsSqrt(sqrt) && 0.0 <= v
    ensures sqrt(v) == 0.0 <==> v == 0.0
  {
    var r := sqrt(v);
    assert r * r == v;
    if r > 0.0 {
      SquareStrictlyMonotone(0.0, r);
    }
  }

  /**
   * Index of the point nearest to `q`, scanning left to right and replacing
   * the candidate only on a strictly smaller distance: Python's `min` over a
   * key, so the first of several equally near points wins. Squared distances
   * order points exactly as distances do.
   */
  function Nearest(pts: seq<Point>, q: Point): (k: nat)
    requires |pts| > 0
    ensures k < |pts|
    ensures forall j :: 0 <= j < |pts| ==> SqDist(pts[k], q) <= SqDist(pts[j], q)
    ensures forall j :: 0 <= j < k ==> SqDist(pts[k], q) < SqDist(pts[j], q)
  {
    NearestFrom(pts, q, 0, 1)
  }

  function NearestFrom(pts: seq<Point>, q: Point, best: nat, i: nat): (k: nat)
    requires best < i <= |pts|
    requires forall j :: 0 <= j < i ==> SqDist(pts[best], q) <= SqDist(pts[j], q)
    requires forall j :: 0 <= j < best ==> SqDist(pts[best], q) < SqDist(pts[j], q)
    ensures best <= k < |pts|
    ensures forall j :: 0 <= j < |pts| ==> SqDist(pts[k], q) <= SqDist(pts[j], q)
    ensures forall j :: 0 <= j < k ==> SqDist(pts[k], q) < SqDist(pts[j], q)
    decreases |pts| - i
  {
    if i == |pts| then best
    else if SqDist(pts[i], q) < SqDist(pts[best], q) then NearestFrom(pts, q, i, i + 1)
    else NearestFrom(pts, q, best, i + 1)
  }

  /**
   * An affine map `(x, y) |-> (a*x + b*y + c, d*x + e*y + f)`, the
   * coefficient order of the `affine` package.
   */
  datatype Affine = Affine(a: real, b: real, c: real, d: real, e: real, f: real)

  /** An affine transform applied to a point. */
  function Apply(t: Affine, p: Point): Point
  {
    Point(t.a * p.x + t.b * p.y + t.c, t.d * p.x + t.e * p.y + t.f)
  }

  function Determinant(t: Affine): real
  {
    t.a * t.e - t.b * t.d
  }

  /** `~transform`, defined for a non-degenerate transform. */
  function Invert(t: Affine): (inv: Affine)
    requires Determinant(t) != 0.0
    ensures forall p :: Apply(inv, Apply(t, p)) == p
    ensures forall p :: Apply(t, Apply(inv, p)) == p
  {
    var idet := 1.0 / Determinant(t);
    var ra := t.e * idet;
    var rb := -t.b * idet;
    var rd := -t.d * idet;
    var re := t.a * idet;
    var inv := Affine(ra, rb, -t.c * ra - t.f * rb, rd, re, -t.c * rd - t.f * re);
    forall p ensures Apply(inv, Apply(t, p)) == p {
      InverseLeft(t, inv, idet, p);
    }
    forall p ensures Apply(t, Apply(inv, p)) == p {
      InverseRight(t, inv, idet, p);
    }
    inv
  }

  lemma InverseLeft(t: Affine, inv: Affine, idet: real, p: Point)
    requires Determinant(t) != 0.0 && idet * Determinant(t) == 1.0
    requires inv.a == t.e * idet && inv.b == -t.b * idet
    requires inv.d == -t.d * idet && inv.e == t.a * idet
    requires inv.c == -t.c * inv.a - t.f * inv.b && inv.f == -t.c * inv.d - t.f * inv.e
    ensures Apply(inv, Apply(t, p)) == p
  {
    var q := Apply(t, p);
    var u := q.x - t.c;
    var v := q.y - t.f;
    assert u == t.a * p.x + t.b * p.y;
    assert v == t.d * p.x + t.e * p.y;
    calc {
      inv.a * q.x + inv.b * q.y + inv.c;
      idet * (t.e * u - t.b * v);
      idet * ((t.a * t.e - t.b * t.d) * p.x);
      p.x;
    }
    calc {
      inv.d * q.x + inv.e * q.y + inv.f;
      idet * (t.a * v - t.d * u);
      idet * ((t.a * t.e - t.b * t.d) * p.y);
      p.y;
    }
  }

  lemma InverseRight(t: Affine, inv: Affine, idet: real, p: Point)
    requires Determinant(t) != 0.0 && idet * Determinant(t) == 1.0
    requires inv.a == t.e * idet && inv.b == -t.b * idet
    requires inv.d == -t.d * idet && inv.e == t.a * idet
    requires inv.c == -t.c * inv.a - t.f * inv.b && inv.f == -t.c * inv.d - t.f * inv.e
    ensures Apply(t, Apply(inv, p)) == p
  {
    var u := p.x - t.c;
    var v := p.y - t.f;
    var q := Apply(inv, p);
    assert q.x == idet * (t.e * u - t.b * v);
    assert q.y == idet * (t.a * v - t.d * u);
    calc {
      t.a * q.x + t.b * q.y;
      idet * (t.a * t.e * u - t.a * t.b * v + t.b * t.a * v - t.b * t.d * u);
      idet * ((t.a * t.e - t.b * t.d) * u);
      u;
    }
    calc {
      t.d * q.x + t.e * q.y;
      idet * (t.d * t.e * u - t.d * t.b * v + t.e * t.a * v - t.e * t.d * u);
      idet * ((t.a * t.e - t.b * t.d) * v);
      v;
    }
  }
}

=== FILE: grid.dfy ===
/**
 * Row-major 2-D arrays (the numpy occupancy and elevation grids) and the
 * integer cells that index them. A cell is `(row, col)`; `shape[0]` is the
 * number of rows and `shape[1]` the number of columns.
 */
module Grid {

  datatype Cell = Cell(row: int, col: int)

  type Matrix<T> = seq<seq<T>>

  function Rows<T>(m: Matrix<T>): nat
  {
    |m|
  }

  function Cols<T>(m: Matrix<T>): nat
  {
    if |m| == 0 then 0 else |m[0]|
  }

  /** Every row has the same length, as a numpy 2-D array does. */
  predicate Rectangular<T>(m: Matrix<T>)
  {
    forall i :: 0 <= i < |m| ==> |m[i]| == Cols(m)
  }

  predicate SameShape<T, U>(a: Matrix<T>, b: Matrix<U>)
  {
    Rows(a) == Rows(b) && Cols(a) == Cols(b)
  }

  predicate InBounds<T>(m: Matrix<T>, c: Cell)
  {
    0 <= c.row < Rows(m) && 0 <= c.col < Cols(m)
  }

  function At<T>(m: Matrix<T>, c: Cell): T
    requires Rectangular(m) && InBounds(m, c)
  {
    m[c.row][c.col]
  }

  /** A cell of the occupancy grid that holds 0, the planners' "free" value. */
  predicate IsFree(grid: Matrix<int>, c: Cell)
    requires Rectangular(grid)
  {
    InBounds(grid, c) && At(grid, c) == 0
  }

  /** The finite set of cells inside the grid. */
  ghost function AllCells<T>(m: Matrix<T>): (cells: set<Cell>)
    ensures forall c :: c in cells <==> InBounds(m, c)
  {
    set r, k | 0 <= r < Rows(m) && 0 <= k < Cols(m) :: Cell(r, k)
  }
}

=== FILE: interval.dfy ===
/**
 * `parse_interval`: the resampling interval of the trace endpoint, written
 * as a count and a unit ("5 seconds", "2 Minutes"), read as a number of
 * seconds. Every failure becomes the same HTTP 400.
 */
module Interval {
  import opened Wrappers
  import opened Text

  /** `timedelta` keeps its day count within plus or minus this bound. */
  const MaxDays := 999999999
  const SecondsPerDay := 86400

  /** The keys of `unit_multipliers`. */
  predicate IsUnit(name: string)
  {
    name in {"second", "seconds", "minute", "minutes"}
  }

  /** `unit_multipliers[unit.lower()]`: seconds per unit, or the `KeyError`. */
  function UnitSeconds(unit: string): (m: Option<int>)
    ensures m.Some? <==> IsUnit(Lower(unit))
    ensures m == Some(1) <==> Lower(unit) in {"second", "seconds"}
    ensures m == Some(60) <==> Lower(unit) in {"minute", "minutes"}
  {
    var u := Lower(unit);
    if u == "second" || u == "seconds" then Some(1)
    else if u == "minute" || u == "minutes" then Some(60)
    else None
  }

  /** Upper-case, lower-case or mixed: the unit means the same. */
  lemma UnitIgnoresCase(unit: string)
    ensures UnitSeconds(Upper(unit)) == UnitSeconds(unit)
  {
    LowerUpper(unit);
  }

  /**
   * `timedelta(seconds=...)` succeeds when its normalised day count, the
   * floor of the seconds over a day, stays within the bound.
   */
  predicate FitsTimedelta(seconds: int)
  {
    -MaxDays * SecondsPerDay <= seconds <= MaxDays * SecondsPerDay + (SecondsPerDay - 1)
  }

  /** The seconds range above is exactly the range of an in-bounds day count. */
  lemma FitsTimedeltaDays(seconds: int)
    ensures FitsTimedelta(seconds) <==> -MaxDays <= seconds / SecondsPerDay <= MaxDays
  {
  }

  /** The one error every failure turns into. */
  function Invalid(s: string): Error
  {
    HttpError(400, "Invalid interval format: " + s)
  }

  /**
   * `parse_interval`: strip, split on whitespace, demand exactly two tokens,
   * read the first as an integer and look the second up lower-cased. The
   * seconds count is the product.
   */
  function ParseInterval(s: string): (r: Result<int>)
    ensures r.Err? ==> r.error == Invalid(s)
    ensures r.Ok? <==> |Split(Strip(s))| == 2 && ParseInt(Split(Strip(s))[0]).Some?
                       && UnitSeconds(Split(Strip(s))[1]).Some?
                       && FitsTimedelta(ParseInt(Split(Strip(s))[0]).value * UnitSeconds(Split(Strip(s))[1]).value)
    ensures r.Ok? ==> FitsTimedelta(r.value)
  {
    var tokens := Split(Strip(s));
    if |tokens| != 2 then Err(Invalid(s))
    else
      match (ParseInt(tokens[0]), UnitSeconds(tokens[1]))
      case (Some(n), Some(m)) =>
        if FitsTimedelta(n * m) then Ok(n * m) else Err(Invalid(s))
      case _ => Err(Invalid(s))
  }

  /** A lower-case unit name has no whitespace, so neither has any spelling of it. */
  lemma UnitHasNoSpace(unit: string)
    requires IsUnit(Lower(unit))
    ensures |unit| > 0 && NoSpace(unit)
  {
    var u := Lower(unit);
    forall i | 0 <= i < |unit|
      ensures !IsSpace(unit[i])
    {
      assert u[i] == LowerChar(unit[i]);
      assert !IsSpace(u[i]);
    }
  }

  /**
   * `"<n> <unit>"` reads back as n times the unit's seconds, whatever the
   * whitespace between the two and the case of the unit.
   */
  lemma ParseShown(n: int, w: string, unit: string)
    requires |w| > 0 && forall i :: 0 <= i < |w| ==> IsSpace(w[i])
    requires IsUnit(Lower(unit))
    requires FitsTimedelta(n * UnitSeconds(unit).value)
    ensures ParseInterval(ShowInt(n) + w + unit) == Ok(n * UnitSeconds(unit).value)
  {
    var s := ShowInt(n) + w + unit;
    UnitHasNoSpace(unit);
    assert s[0] == ShowInt(n)[0];
    assert s[|s| - 1] == unit[|unit| - 1];
    StripUnchanged(s);
    SplitTwo(ShowInt(n), w, unit);
    ParseShowInt(n);
  }

  /** A number and a unit with no whitespace between them is one token, and fails. */
  lemma OneTokenFails(n: nat, unit: string)
    requires IsUnit(Lower(unit))
    ensures ParseInterval(ShowNat(n) + unit) == Err(Invalid(ShowNat(n) + unit))
  {
    var s := ShowNat(n) + unit;
    UnitHasNoSpace(unit);
    assert NoSpace(s);
    StripUnchanged(s);
    TokenLengthOf(s, "");
    assert s + "" == s;
    assert s[|s|..] == [];
    assert Split(s) == [s];
  }

  /** Whitespace around the interval changes neither success nor the seconds read. */
  lemma ParseIgnoresSurroundingSpace(w1: string, s: string, w2: string)
    requires forall i :: 0 <= i < |w1| ==> IsSpace(w1[i])
    requires forall i :: 0 <= i < |w2| ==> IsSpace(w2[i])
    ensures ParseInterval(w1 + s + w2).Ok? == ParseInterval(s).Ok?
    ensures ParseInterval(s).Ok? ==> ParseInterval(w1 + s + w2).value == ParseInterval(s).value
  {
    var t := w1 + s + w2;
    SplitStrip(t);
    SplitStrip(s);
    assert t == w1 + (s + w2);
    SplitSpaces(w1, s + w2);
    SplitTrailing(s, w2);
  }
}

=== FILE: numeric.dfy ===
/**
 * Python and numpy numeric conversions written out over unbounded integers
 * and reals: `int()` of a float, `round()`, float `%`, `min(max(..))`
 * clamping and numpy's negative-index wrap-around.
 */
module Numeric {
  import opened Wrappers

  /** Python `int(x)` for a float: truncation toward zero. */
  function Trunc(x: real): (r: int)
    ensures 0.0 <= x ==> r as real <= x < r as real + 1.0
    ensures x < 0.0 ==> x <= r as real < x + 1.0
    ensures r == 0 <==> -1.0 < x < 1.0
  {
    if x >= 0.0 then x.Floor else -((-x).Floor)
  }

  /** Python `round(x)`: nearest integer, ties to the even neighbour. */
  function RoundHalfEven(x: real): (r: int)
    ensures -0.5 <= r as real - x <= 0.5
    ensures r as real - x == 0.5 || x - r as real == 0.5 ==> r % 2 == 0
  {
    var f := x.Floor;
    var frac := x - f as real;
    if frac < 0.5 then f
    else if frac > 0.5 then f + 1
    else if f % 2 == 0 then f else f + 1
  }

  /** Python float `x % m` for a positive modulus (the result takes the sign of `m`). */
  function FloatMod(x: real, m: real): (r: real)
    requires m > 0.0
    ensures 0.0 <= r < m
    ensures (x - r) / m == ((x - r) / m).Floor as real
  {
    var q := x / m;
    var kr := q.Floor as real;
    DivMul(x, m);
    FloorQuotientBounds(x, m, q, kr);
    x - kr * m
  }

  /** Adding one modulus to a value already in [0, m) and reducing gives the value back. */
  lemma FloatModShifted(x: real, m: real)
    requires m > 0.0 && 0.0 <= x < m
    ensures FloatMod(x + m, m) == x
  {
    var q := (x + m) / m;
    DivMul(x + m, m);
    assert (q - 1.0) * m == x;
    UnitQuotient(q - 1.0, m, x);
    assert q.Floor == 1;
  }

  /** A value already in [0, m) is its own remainder. */
  lemma FloatModInRange(x: real, m: real)
    requires m > 0.0 && 0.0 <= x < m
    ensures FloatMod(x, m) == x
  {
    var q := x / m;
    DivMul(x, m);
    UnitQuotient(q, m, x);
    assert q.Floor == 0;
  }

  /** Dividing by a non-zero value and multiplying back is the identity. */
  lemma DivMul(x: real, m: real)
    requires m != 0.0
    ensures (x / m) * m == x
  {
  }

  /** A factor that takes a positive `m` into [0, m) lies in [0, 1). */
  lemma UnitQuotient(q: real, m: real, x: real)
    requires m > 0.0 && q * m == x && 0.0 <= x < m
    ensures 0.0 <= q < 1.0
  {
    if q < 0.0 {
      MulMonotone(q, 0.0, m);
    } else if q >= 1.0 {
      MulMonotone(1.0, q, m);
    }
  }

  /** A fraction in [0, 1) of a positive `m` lies in [0, m). */
  lemma ScaleBelow(d: real, m: real)
    requires m > 0.0 && 0.0 <= d < 1.0
    ensures 0.0 <= d * m < m
  {
    MulMonotone(0.0, d, m);
    MulMonotone(d, 1.0, m);
  }

  /** The remainder left by a floored quotient lies in [0, m). */
  lemma FloorQuotientBounds(x: real, m: real, q: real, kr: real)
    requires m > 0.0 && x == q * m
    requires kr <= q < kr + 1.0
    ensures 0.0 <= x - kr * m < m
    ensures (x - (x - kr * m)) / m == kr
  {
    var d := q - kr;
    assert x - kr * m == d * m;
    ScaleBelow(d, m);
    assert x - (x - kr * m) == kr * m;
  }

  /** The floored quotient `k` of `x` by a positive `m` brackets `x` between `k * m` and `(k + 1) * m`. */
  lemma FloorQuotient(x: real, m: real)
    ensures m > 0.0 ==> (x / m).Floor as real * m <= x < ((x / m).Floor + 1) as real * m
  {
    if m > 0.0 {
      var q := x / m;
      var kr := q.Floor as real;
      DivMul(x, m);
      FloorQuotientBounds(x, m, q, kr);
      assert (kr + 1.0) * m == kr * m + m;
    }
  }

  /** The product of two positive reals is positive. */
  lemma MulPositive(a: real, b: real)
    requires a > 0.0 && b > 0.0
    ensures a * b > 0.0
  {
  }

  /** Scaling by a positive factor preserves a non-strict and a strict order. */
  lemma MulMonotone(a: real, b: real, m: real)
    requires m > 0.0
    ensures a <= b ==> a * m <= b * m
    ensures a < b ==> a * m < b * m
  {
  }

  /** Scaling on the left by a non-negative factor preserves order. */
  lemma MulLeftMonotone(m: real, a: real, b: real)
    requires m >= 0.0 && a <= b
    ensures m * a <= m * b
  {
    if m > 0.0 {
      MulMonotone(a, b, m);
    }
  }

  /** `a * u`, the product the samplers scale a unit draw with. */
  function Scale(a: real, u: real): (r: real)
    requires a >= 0.0
    ensures 0.0 <= u <= 1.0 ==> 0.0 <= r <= a
  {
    if 0.0 <= u <= 1.0 then
      MulLeftMonotone(a, 0.0, u);
      MulLeftMonotone(a, u, 1.0);
      a * u
    else a * u
  }

  /** `min(max(v, lo), hi)` as the source writes its clamps. */
  function Clamp(v: int, lo: int, hi: int): (r: int)
    ensures lo <= hi ==> lo <= r <= hi
    ensures lo <= v <= hi ==> r == v
    ensures lo <= hi && v < lo ==> r == lo
    ensures lo <= hi && v > hi ==> r == hi
  {
    var atLeast := if v < lo then lo else v;
    if atLeast > hi then hi else atLeast
  }

  /**
   * numpy indexing of one axis of length `n`: an index in [-n, n) selects an
   * element (negative ones count from the end), anything else raises IndexError.
   */
  function NumpyIndex(i: int, n: nat): (r: Option<nat>)
    ensures r.Some? <==> -(n as int) <= i < n
    ensures r.Some? ==> r.value < n
    ensures r.Some? && 0 <= i ==> r.value == i
    ensures r.Some? && i < 0 ==> r.value == i + n
  {
    if 0 <= i < n then Some(i)
    else if -(n as int) <= i < 0 then Some(i + n)
    else None
  }
}

=== FILE: planner_wrapper.dfy ===
/**
 * `PathPlannerWrapper`: the planner chosen by a case-insensitive name. A*
 * is built once at construction and asked for every segment; the four
 * sampling planners are only named at construction and are built afresh,
 * from the segment's endpoints and the wrapper's tuning, on every call.
 */
module PlannerWrapper {
  import opened Wrappers
  import opened Grid
  import AStar
  import opened Text

  /** The keys of `PLANNER_MAP`. */
  datatype Kind = AStarKind | RrtKind | RrtStarKind | GeoRrtKind | GeoRrtStarKind

  /** The lookup in `PLANNER_MAP`. */
  function KindOf(name: string): (k: Option<Kind>)
    ensures k.Some? <==> name in {"astar", "rrt", "rrt*", "geo_rrt", "geo_rrt*"}
  {
    if name == "astar" then Some(AStarKind)
    else if name == "rrt" then Some(RrtKind)
    else if name == "rrt*" then Some(RrtStarKind)
    else if name == "geo_rrt" then Some(GeoRrtKind)
    else if name == "geo_rrt*" then Some(GeoRrtStarKind)
    else None
  }

  /** The map's key for each planner kind. */
  function NameOf(k: Kind): string
  {
    match k
    case AStarKind => "astar"
    case RrtKind => "rrt"
    case RrtStarKind => "rrt*"
    case GeoRrtKind => "geo_rrt"
    case GeoRrtStarKind => "geo_rrt*"
  }

  /** The name table is a bijection between its keys and the planner kinds. */
  lemma KindNameRoundTrip(k: Kind, name: string)
    ensures KindOf(NameOf(k)) == Some(k)
    ensures KindOf(name).Some? ==> NameOf(KindOf(name).value) == name
  {
  }

  /**
   * A constructed wrapper: the lower-cased name's kind, the stored tuning,
   * and the A* planner built when the kind is A*.
   */
  datatype Wrapper = Wrapper(kind: Kind, grid: Matrix<int>, elevation: Option<Matrix<real>>,
                             penalty: real, stepSize: real, maxIter: nat,
                             core: Option<AStar.Planner>)

  /** `__init__`: lower-case the name, then build A* or remember the class, or fail. */
  function Make(name: string, grid: Matrix<int>, elevation: Option<Matrix<real>>,
                penalty: real, stepSize: real, maxIter: nat): (r: Result<Wrapper>)
    ensures r.Err? <==> Lower(name) !in {"astar", "rrt", "rrt*", "geo_rrt", "geo_rrt*"}
    ensures r.Ok? ==> NameOf(r.value.kind) == Lower(name)
    ensures r.Ok? ==> (r.value.kind == AStarKind <==> r.value.core.Some?)
    ensures r.Ok? && r.value.core.Some? ==> r.value.core.value == AStar.Planner(grid, elevation, penalty)
  {
    match KindOf(Lower(name))
    case None => Err(ValueError("Unsupported planner type: " + Lower(name)))
    case Some(k) =>
      KindNameRoundTrip(k, Lower(name));
      var core := if k == AStarKind then Some(AStar.Planner(grid, elevation, penalty)) else None;
      Ok(Wrapper(k, grid, elevation, penalty, stepSize, maxIter, core))
  }

  /** Construction depends on the name only through its lower-cased form. */
  lemma MakeIgnoresCase(name: string, grid: Matrix<int>, elevation: Option<Matrix<real>>,
                        penalty: real, stepSize: real, maxIter: nat)
    ensures Make(name, grid, elevation, penalty, stepSize, maxIter)
         == Make(Lower(name), grid, elevation, penalty, stepSize, maxIter)
  {
    LowerIdempotent(name);
  }

  /** A wrapper as `Make` leaves it. */
  predicate Valid(w: Wrapper)
  {
    w.kind == AStarKind <==> w.core == Some(AStar.Planner(w.grid, w.elevation, w.penalty))
  }

  /** What `find_segment_path` produces: A*'s answer, or the sampling planner to build and run. */
  datatype Segment =
    | Planned(path: Option<seq<Cell>>)
    | SamplingPlanner(kind: Kind, start: Cell, goal: Cell, stepSize: real, maxIter: nat)

  /**
   * `find_segment_path`: A* answers the segment itself; any other kind is
   * handed on as a fresh planner over the segment. No kind reaches the
   * error branch.
   */
  method FindSegmentPath(w: Wrapper, sqrt: real -> real, start: Cell, goal: Cell) returns (r: Segment)
    requires Valid(w)
    requires w.kind == AStarKind ==> AStar.WellFormed(w.core.value)
    requires w.kind == AStarKind && w.elevation.Some? ==> InBounds(w.grid, start)
    ensures w.kind != AStarKind <==> r.SamplingPlanner?
    ensures r.SamplingPlanner? ==> r == SamplingPlanner(w.kind, start, goal, w.stepSize, w.maxIter)
    ensures r.Planned? && start == goal ==> r.path == Some([start])
    ensures r.Planned? && r.path.Some? ==>
              AStar.IsPath(w.grid, r.path.value, start, goal) && AStar.NoRepeats(r.path.value)
    ensures r.Planned? && r.path.None? ==> forall p :: !AStar.IsPath(w.grid, p, start, goal)
  {
    if w.kind == AStarKind {
      var path := AStar.FindPath(w.core.value, sqrt, start, goal);
      return Planned(path);
    }
    return SamplingPlanner(w.kind, start, goal, w.stepSize, w.maxIter);
  }

  /** Every wrapper `Make` returns satisfies `FindSegmentPath`'s precondition on its kind. */
  lemma MadeIsValid(name: string, grid: Matrix<int>, elevation: Option<Matrix<real>>,
                    penalty: real, stepSize: real, maxIter: nat)
    requires Make(name, grid, elevation, penalty, stepSize, maxIter).Ok?
    ensures Valid(Make(name, grid, elevation, penalty, stepSize, maxIter).value)
  {
  }
}

=== FILE: playback.dfy ===
/**
 * Trace playback: the `PlaybackController` pause flag and the cursor the
 * next-point endpoint moves along the stored trace. Reading the trace from
 * the database is a parameter: the points it would return.
 */
module Playback {

  /** `PlaybackController`: only the pause flag. */
  datatype Controller = Controller(paused: bool)

  /** A new controller is paused. */
  function NewController(): (c: Controller)
    ensures c.paused
  {
    Controller(true)
  }

  function Play(c: Controller): (r: Controller)
    ensures !r.paused
  {
    Controller(false)
  }

  function Pause(c: Controller): (r: Controller)
    ensures r.paused
  {
    Controller(true)
  }

  /** The controller's own `reset` only pauses; the cursor reset is the endpoint's. */
  function ResetController(c: Controller): (r: Controller)
    ensures r.paused
  {
    Controller(true)
  }

  /** `get_status`: the flag, and nothing changes. */
  function Status(c: Controller): (paused: bool)
    ensures paused == c.paused
  {
    c.paused
  }

  /** Pausing and resetting are idempotent, and both undo `play`. */
  lemma PauseResetIdempotent(c: Controller)
    ensures Pause(Pause(c)) == Pause(c) && ResetController(ResetController(c)) == ResetController(c)
    ensures Pause(Play(c)) == NewController() && ResetController(Play(c)) == NewController()
  {
  }

  /** The controller with `playback_state`: the loaded trace and the index of the next point. */
  datatype State<T> = State(controller: Controller, trace: seq<T>, index: nat)

  /**
   * The state at start-up: a fresh controller and an empty `playback_state`.
   * It is the state a reset leaves, and it answers every next-point request
   * with "paused" until `play`.
   */
  function Initial<T>(): (s: State<T>)
    ensures Valid(s)
    ensures Reset(s) == s
    ensures Status(s.controller)
  {
    State(NewController(), [], 0)
  }

  /** The cursor never passes the end of the trace. */
  predicate Valid<T>(s: State<T>)
  {
    s.index <= |s.trace|
  }

  /** The three replies of `get_next_point`. */
  datatype Reply<T> = PausedReply | DoneReply | PointReply(point: T)

  /**
   * `get_next_point`: nothing while paused; (re)load an empty trace and
   * rewind; then either the end or the point under the cursor, advancing
   * it by one.
   */
  function Next<T>(s: State<T>, stored: seq<T>): (r: (Reply<T>, State<T>))
    ensures s.controller.paused ==> r == (PausedReply, s)
    ensures !s.controller.paused && |s.trace| > 0 && s.index >= |s.trace| ==> r == (DoneReply, s)
    ensures !s.controller.paused && |s.trace| > 0 && s.index < |s.trace| ==>
              r == (PointReply(s.trace[s.index]), s.(index := s.index + 1))
    ensures !s.controller.paused && |s.trace| == 0 ==> r.1.trace == stored
    ensures !s.controller.paused && |s.trace| == 0 && |stored| > 0 ==>
              r == (PointReply(stored[0]), s.(trace := stored, index := 1))
    ensures !s.controller.paused && |s.trace| == 0 && |stored| == 0 ==> r == (DoneReply, s.(index := 0))
    ensures r.1.controller == s.controller
    ensures Valid(s) ==> Valid(r.1)
  {
    if s.controller.paused then (PausedReply, s)
    else
      var s1 := if |s.trace| == 0 then s.(trace := stored, index := 0) else s;
      if s1.index >= |s1.trace| then (DoneReply, s1)
      else (PointReply(s1.trace[s1.index]), s1.(index := s1.index + 1))
  }

  function PlayState<T>(s: State<T>): (r: State<T>)
    ensures !r.controller.paused && r.trace == s.trace && r.index == s.index
  {
    s.(controller := Play(s.controller))
  }

  function PauseState<T>(s: State<T>): (r: State<T>)
    ensures r.controller.paused && r.trace == s.trace && r.index == s.index
  {
    s.(controller := Pause(s.controller))
  }

  /** `reset_simulation`: pause, forget the trace, rewind. */
  function Reset<T>(s: State<T>): (r: State<T>)
    ensures r.controller.paused && r.trace == [] && r.index == 0
    ensures Valid(r)
  {
    State(ResetController(s.controller), [], 0)
  }

  /** The replies to `k` successive next-point requests, and the state after them. */
  function Run<T>(s: State<T>, stored: seq<T>, k: nat): (r: (seq<Reply<T>>, State<T>))
    ensures |r.0| == k
    decreases k
  {
    if k == 0 then ([], s)
    else
      var (reply, s1) := Next(s, stored);
      var (rest, s2) := Run(s1, stored, k - 1);
      ([reply] + rest, s2)
  }

  /** The replies serving the points of `t` in order. */
  function Points<T>(t: seq<T>): (r: seq<Reply<T>>)
    ensures |r| == |t|
    ensures forall i :: 0 <= i < |t| ==> r[i] == PointReply(t[i])
  {
    seq(|t|, i requires 0 <= i < |t| => PointReply(t[i]))
  }

  /** From any cursor on a loaded trace, playing on serves the rest of it and then reports the end. */
  lemma {:induction false} RunServesRest<T>(s: State<T>, stored: seq<T>)
    requires Valid(s) && !s.controller.paused && |s.trace| > 0
    ensures Run(s, stored, |s.trace| - s.index + 1).0 == Points(s.trace[s.index..]) + [DoneReply]
    decreases |s.trace| - s.index
  {
    var k := |s.trace| - s.index + 1;
    if s.index == |s.trace| {
      assert s.trace[s.index..] == [];
    } else {
      var s1 := s.(index := s.index + 1);
      var head := PointReply(s.trace[s.index]);
      RunServesRest(s1, stored);
      PointsCons(s.trace[s.index..]);
      assert s.trace[s.index..][1..] == s.trace[s1.index..];
      assert Run(s, stored, k).0 == [head] + Run(s1, stored, k - 1).0;
      assert [head] + (Points(s.trace[s1.index..]) + [DoneReply])
          == ([head] + Points(s.trace[s1.index..])) + [DoneReply];
    }
  }

  /** Serving a non-empty trace is serving its first point, then the rest. */
  lemma PointsCons<T>(t: seq<T>)
    requires |t| > 0
    ensures Points(t) == [PointReply(t[0])] + Points(t[1..])
  {
  }

  /**
   * After a reset and `play`, the stored trace is played from its first
   * point to its last, once each, and then the end is reported.
   */
  lemma ResetThenPlay<T>(s: State<T>, stored: seq<T>)
    requires |stored| > 0
    ensures Run(PlayState(Reset(s)), stored, |stored| + 1).0 == Points(stored) + [DoneReply]
  {
    var p := PlayState(Reset(s));
    var loaded := p.(trace := stored, index := 0);
    RunServesRest(loaded, stored);
    assert stored[0..] == stored;
    assert Run(p, stored, 1) == Run(loaded, stored, 1);
    assert Next(p, stored) == Next(loaded, stored);
  }

  /** While paused, requests change nothing and are all answered as paused. */
  lemma {:induction false} PausedRunIsIdle<T>(s: State<T>, stored: seq<T>, k: nat)
    requires s.controller.paused
    ensures Run(s, stored, k).1 == s
    ensures forall i :: 0 <= i < k ==> Run(s, stored, k).0[i] == PausedReply
  {
    if k > 0 {
      PausedRunIsIdle(s, stored, k - 1);
    }
  }
}

=== FILE: rrt.dfy ===
/**
 * `RRT` and `GeoAwareRRT` from the plain RRT planner. The tree is a Python
 * dict from point to parent (`None` for the root): its keys keep insertion
 * order, which decides ties in the nearest-node scan, and assigning an
 * existing key replaces the parent in place. The random draws are an
 * injected sequence of samples, so planning is a function of that sequence.
 */
module Rrt {
  import opened Wrappers
  import opened Grid
  import opened Geometry
  import Numeric

  /** The fields of an `RRT`; `occupancy` is `self.map` (0 = free). */
  datatype Config = Config(occupancy: Matrix<int>, stepSize: real, maxIter: nat)

  /** The draws one iteration makes: `random.random()` for the goal bias, then two uniforms in [0, 1]. */
  datatype Sample = Sample(coin: real, ux: real, uy: real)

  /** `sample_point`: the goal when the coin exceeds 0.9, else a uniform point of the map's extent. */
  function SamplePoint(c: Config, goal: Point, smp: Sample): (p: Point)
    ensures smp.coin > 0.9 ==> p == goal
    ensures smp.coin <= 0.9 && 0.0 <= smp.ux <= 1.0 && 0.0 <= smp.uy <= 1.0 ==>
              0.0 <= p.x <= Rows(c.occupancy) as real && 0.0 <= p.y <= Cols(c.occupancy) as real
  {
    if smp.coin > 0.9 then goal
    else
      Point(Numeric.Scale(Rows(c.occupancy) as real, smp.ux), Numeric.Scale(Cols(c.occupancy) as real, smp.uy))
  }

  /** The `self.tree` dict: its keys in insertion order and the parent of each key. */
  datatype Tree = Tree(nodes: seq<Point>, parent: map<Point, Option<Point>>)

  /** The key sequence lists each key of the dict exactly once. */
  predicate TreeShape(t: Tree)
  {
    && (forall i :: 0 <= i < |t.nodes| ==> t.nodes[i] in t.parent)
    && (forall k :: k in t.parent ==> k in t.nodes)
    && (forall i, j :: 0 <= i < j < |t.nodes| ==> t.nodes[i] != t.nodes[j])
  }

  /** `find_path` seeds the tree as `{start: None}`. */
  function Seed(start: Point): (t: Tree)
    ensures TreeShape(t) && t.nodes == [start] && t.parent == map[start := None]
  {
    Tree([start], map[start := None])
  }

  /**
   * `tree[k] = v`: the parent of `k` becomes `v`; a new key goes last and an
   * existing key keeps its place.
   */
  function Put(t: Tree, k: Point, v: Option<Point>): (r: Tree)
    requires TreeShape(t)
    ensures TreeShape(r)
    ensures r.parent == t.parent[k := v]
    ensures k in t.parent ==> r.nodes == t.nodes
    ensures k !in t.parent ==> r.nodes == t.nodes + [k]
  {
    if k in t.parent then Tree(t.nodes, t.parent[k := v])
    else Tree(t.nodes + [k], t.parent[k := v])
  }

  /**
   * `nearest_neighbor`: a key of minimal distance to `q`; every key inserted
   * before it is strictly farther, so the first of equally near keys wins.
   */
  function NearestNeighbor(t: Tree, q: Point): (n: Point)
    requires |t.nodes| > 0
    ensures n in t.nodes
    ensures forall m :: m in t.nodes ==> SqDist(n, q) <= SqDist(m, q)
    ensures exists k :: 0 <= k < |t.nodes| && t.nodes[k] == n
              && forall j :: 0 <= j < k ==> SqDist(n, q) < SqDist(t.nodes[j], q)
  {
    var k := Nearest(t.nodes, q);
    t.nodes[k]
  }

  /** Ranking by squared distance is ranking by distance. */
  lemma NearestMinimisesDist(sqrt: real -> real, t: Tree, q: Point)
    requires IsSqrt(sqrt) && |t.nodes| > 0
    ensures forall m :: m in t.nodes ==> Dist(sqrt, NearestNeighbor(t, q), q) <= Dist(sqrt, m, q)
  {
    var n := NearestNeighbor(t, q);
    forall m | m in t.nodes ensures Dist(sqrt, n, q) <= Dist(sqrt, m, q) {
      SqDistNonNegative(n, q);
      SqrtMonotone(sqrt, SqDist(n, q), SqDist(m, q));
    }
  }

  /**
   * `steer`: the sample itself when it lies within one step of `nearest`,
   * otherwise the point one step from `nearest` toward the sample.
   */
  function Steer(sqrt: real -> real, step: real, nearest: Point, sampled: Point): (r: Point)
    ensures Dist(sqrt, nearest, sampled) <= step ==> r == sampled
    ensures 0.0 <= step && Dist(sqrt, nearest, sampled) > step ==>
              exists lam :: Toward(nearest, sampled, r, lam)
  {
    var dist := Dist(sqrt, nearest, sampled);
    if dist <= step then sampled
    else if dist == 0.0 then nearest
    else
      var r := Point(nearest.x + (sampled.x - nearest.x) / dist * step,
                     nearest.y + (sampled.y - nearest.y) / dist * step);
      ScaleToward(nearest, sampled, r, dist, step);
      r
  }

  /** `p` lies on the ray from `from` through `to`, `lam` times the offset `to - from` along it. */
  predicate Toward(from: Point, to: Point, p: Point, lam: real)
  {
    lam >= 0.0 && p.x - from.x == lam * (to.x - from.x) && p.y - from.y == lam * (to.y - from.y)
  }

  /** Moving `step` along the offset divided by its length `dist` stays on the ray, at `step / dist`. */
  lemma ScaleToward(from: Point, to: Point, p: Point, dist: real, step: real)
    requires dist != 0.0
    requires p.x == from.x + (to.x - from.x) / dist * step
    requires p.y == from.y + (to.y - from.y) / dist * step
    ensures 0.0 <= step && 0.0 < dist ==> Toward(from, to, p, step / dist)
  {
  }

  /**
   * A steered point is never more than one step from `nearest`, and a far
   * sample yields a point exactly one step away.
   */
  lemma SteerDistance(sqrt: real -> real, step: real, nearest: Point, sampled: Point)
    requires IsSqrt(sqrt) && 0.0 <= step
    ensures SqDist(nearest, Steer(sqrt, step, nearest, sampled)) <= step * step
    ensures Dist(sqrt, nearest, sampled) > step ==>
              SqDist(nearest, Steer(sqrt, step, nearest, sampled)) == step * step
  {
    var dist := Dist(sqrt, nearest, sampled);
    SqDistNonNegative(nearest, sampled);
    var d2 := SqDist(nearest, sampled);
    assert 0.0 <= dist && dist * dist == d2;
    if dist <= step {
      SqrtCompare(sqrt, d2, step);
    } else {
      var dx := sampled.x - nearest.x;
      var dy := sampled.y - nearest.y;
      UnitDirection(dx, dy, dist);
      var u := dx / dist;
      var v := dy / dist;
      var r := Steer(sqrt, step, nearest, sampled);
      assert r.x - nearest.x == u * step && r.y - nearest.y == v * step;
      assert SqDist(nearest, r) == (u * step) * (u * step) + (v * step) * (v * step);
      ScaledUnitLength(u, v, step);
    }
  }

  /** The cell a non-negative point lies in. */
  function CellOf(p: Point): Cell
  {
    Cell(p.x.Floor, p.y.Floor)
  }

  /**
   * `is_collision_free`: the point lies inside the map and the cell
   * `map[int(x), int(y)]` is free.
   */
  function IsCollisionFree(c: Config, p: Point): (b: bool)
    requires Rectangular(c.occupancy)
    ensures b <==> 0.0 <= p.x && 0.0 <= p.y && IsFree(c.occupancy, CellOf(p))
  {
    if p.x < 0.0 || p.x >= Rows(c.occupancy) as real || p.y < 0.0 || p.y >= Cols(c.occupancy) as real then false
    else c.occupancy[Numeric.Trunc(p.x)][Numeric.Trunc(p.y)] == 0
  }

  /**
   * The `while` loop of `_reconstruct_path`, allowed at most `fuel` parent
   * steps: `Some(path)` once a parentless or unknown point is reached, oldest
   * point first; `None` while the walk is still going.
   */
  function Walk(parent: map<Point, Option<Point>>, e: Point, fuel: nat): (w: Option<seq<Point>>)
    ensures w.Some? ==> TreePath(parent, w.value) && w.value[|w.value| - 1] == e
                        && |w.value| <= fuel + 1
    decreases fuel
  {
    if e in parent && parent[e].Some? then
      if fuel == 0 then None
      else
        match Walk(parent, parent[e].value, fuel - 1)
        case None => None
        case Some(w) => Some(w + [e])
    else Some([e])
  }

  /** A root-to-node list: the first point has no parent and each later one is the child of its predecessor. */
  predicate TreePath(parent: map<Point, Option<Point>>, w: seq<Point>)
  {
    && |w| >= 1
    && (w[0] !in parent || parent[w[0]].None?)
    && forall i :: 0 < i < |w| ==> w[i] in parent && parent[w[i]] == Some(w[i - 1])
  }

  /** One loop iteration's outcome as the source writes it: the goal test passed, or the tree grew. */
  datatype Outcome = Reached(tree: Tree, end: Point) | Exhausted(tree: Tree)

  /**
   * `plan` exactly as written: every collision-free steered point is
   * assigned `nearest` as parent, even when it is already a key of the tree.
   * `Reached(t, e)` is the state in which `_reconstruct_path(e)` is entered.
   */
  function PlanAsWritten(c: Config, sqrt: real -> real, goal: Point, t: Tree, samples: seq<Sample>): (o: Outcome)
    requires Rectangular(c.occupancy) && TreeShape(t) && |t.nodes| > 0
    ensures TreeShape(o.tree) && |o.tree.nodes| > 0
    ensures o.Reached? ==> o.end in o.tree.parent && Dist(sqrt, o.end, goal) < c.stepSize
    decreases |samples|
  {
    if |samples| == 0 then Exhausted(t)
    else
      var sampled := SamplePoint(c, goal, samples[0]);
      var nearest := NearestNeighbor(t, sampled);
      var next := Steer(sqrt, c.stepSize, nearest, sampled);
      if IsCollisionFree(c, next) then
        var t' := Put(t, next, Some(nearest));
        if Dist(sqrt, next, goal) < c.stepSize then Reached(t', next)
        else PlanAsWritten(c, sqrt, goal, t', samples[1..])
      else PlanAsWritten(c, sqrt, goal, t, samples[1..])
  }

  /** A point that is its own parent sends the reconstruction walk round forever. */
  lemma {:induction false} SelfParentNeverEnds(parent: map<Point, Option<Point>>, e: Point, fuel: nat)
    requires e in parent && parent[e] == Some(e)
    ensures Walk(parent, e, fuel) == None
    decreases fuel
  {
    if fuel > 0 {
      SelfParentNeverEnds(parent, e, fuel - 1);
    }
  }

  /**
   * With `start == goal`, a goal-biased first sample steers onto `start`
   * itself, the tree records `start` as its own parent, and the goal test
   * passes: the reconstruction that follows never ends.
   */
  lemma StartIsGoalHangs(c: Config, sqrt: real -> real, start: Point, rest: seq<Sample>, fuel: nat)
    requires IsSqrt(sqrt) && Rectangular(c.occupancy) && c.stepSize > 0.0
    requires IsCollisionFree(c, start)
    ensures var o := PlanAsWritten(c, sqrt, start, Seed(start), [Sample(0.95, 0.0, 0.0)] + rest);
            o.Reached? && o.end == start && o.tree.parent[start] == Some(start)
            && Walk(o.tree.parent, o.end, fuel) == None
  {
    var samples := [Sample(0.95, 0.0, 0.0)] + rest;
    assert samples[0] == Sample(0.95, 0.0, 0.0);
    SqDistNonNegative(start, start);
    SqrtZero(sqrt, 0.0);
    assert Dist(sqrt, start, start) == 0.0;
    var o := PlanAsWritten(c, sqrt, start, Seed(start), samples);
    assert o == Reached(Put(Seed(start), start, Some(start)), start);
    SelfParentNeverEnds(o.tree.parent, start, fuel);
  }

  /**
   * The same first iteration with the correction: `start` is already a key,
   * so it keeps its `None` parent, and the reconstruction returns `[start]`.
   */
  lemma StartIsGoalCorrected(c: Config, sqrt: real -> real, start: Point)
    requires IsSqrt(sqrt) && Rectangular(c.occupancy) && c.stepSize > 0.0
    requires IsCollisionFree(c, start)
    ensures Iterate(c, sqrt, start, Seed(start), Sample(0.95, 0.0, 0.0)) == Iteration(Seed(start), Some(start))
    ensures Dist(sqrt, start, start) < c.stepSize
    ensures Walk(Seed(start).parent, start, 1) == Some([start])
  {
    SqDistNonNegative(start, start);
    SqrtZero(sqrt, 0.0);
    assert Dist(sqrt, start, start) == 0.0;
  }

  /**
   * What the corrected planner's tree keeps: the dict shape, `start` as the
   * only root, and for every other key a parent inserted earlier (a lower
   * rank) and a free cell.
   */
  ghost predicate TreeOk(c: Config, start: Point, t: Tree, rank: map<Point, nat>)
    requires Rectangular(c.occupancy)
  {
    && TreeShape(t) && |t.nodes| > 0
    && start in t.parent && t.parent[start].None?
    && rank.Keys == t.parent.Keys
    && (forall k :: k in rank ==> rank[k] < |t.nodes|)
    && (forall k :: k in t.parent && k != start ==>
          && t.parent[k].Some? && t.parent[k].value in t.parent
          && rank[t.parent[k].value] < rank[k]
          && IsCollisionFree(c, k))
  }

  /** Every parent link of the tree is at most one step long. */
  ghost predicate ShortEdges(c: Config, t: Tree)
  {
    forall k :: k in t.parent && t.parent[k].Some? ==> SqDist(t.parent[k].value, k) <= c.stepSize * c.stepSize
  }

  /** Inserting a new free point below an existing key keeps the tree ranked. */
  lemma PutKeepsTreeOk(c: Config, start: Point, t: Tree, rank: map<Point, nat>, next: Point, nearest: Point)
    requires Rectangular(c.occupancy) && TreeOk(c, start, t, rank)
    requires next !in t.parent && nearest in t.parent && IsCollisionFree(c, next)
    ensures TreeOk(c, start, Put(t, next, Some(nearest)), rank[next := |t.nodes|])
  {
    var t' := Put(t, next, Some(nearest));
    var rank' := rank[next := |t.nodes|];
    assert start != next && t'.parent[start] == t.parent[start];
    PutKeepsRanks(t, rank, next, nearest);
    PutKeepsLinks(c, start, t, rank, next, nearest);
  }

  /** The new key gets the next rank, and every rank stays below the node count. */
  lemma PutKeepsRanks(t: Tree, rank: map<Point, nat>, next: Point, nearest: Point)
    requires TreeShape(t) && rank.Keys == t.parent.Keys && next !in t.parent
    requires forall k :: k in rank ==> rank[k] < |t.nodes|
    ensures var t' := Put(t, next, Some(nearest));
            var rank' := rank[next := |t.nodes|];
            rank'.Keys == t'.parent.Keys && forall k :: k in rank' ==> rank'[k] < |t'.nodes|
  {
    var t' := Put(t, next, Some(nearest));
    var rank' := rank[next := |t.nodes|];
    assert |t'.nodes| == |t.nodes| + 1;
    forall k | k in rank'
      ensures rank'[k] < |t'.nodes|
    {
      if k != next {
        assert rank'[k] == rank[k];
      }
    }
  }

  /** Every non-root key still has a known parent of lower rank and lies on a free cell. */
  lemma PutKeepsLinks(c: Config, start: Point, t: Tree, rank: map<Point, nat>, next: Point, nearest: Point)
    requires Rectangular(c.occupancy) && TreeOk(c, start, t, rank)
    requires next !in t.parent && nearest in t.parent && IsCollisionFree(c, next)
    ensures var parent := t.parent[next := Some(nearest)];
            var rank' := rank[next := |t.nodes|];
            forall k :: k in parent && k != start ==>
              && parent[k].Some? && parent[k].value in parent
              && rank'[parent[k].value] < rank'[k] && IsCollisionFree(c, k)
  {
    var parent := t.parent[next := Some(nearest)];
    forall k | k in parent && k != start
      ensures var rank' := rank[next := |t.nodes|];
              && parent[k].Some? && parent[k].value in parent
              && rank'[parent[k].value] < rank'[k] && IsCollisionFree(c, k)
    {
      PutKeepsLink(c, start, t, rank, next, nearest, k);
    }
  }

  /** One key's parent link after inserting `next` below `nearest`. */
  lemma PutKeepsLink(c: Config, start: Point, t: Tree, rank: map<Point, nat>, next: Point, nearest: Point, k: Point)
    requires Rectangular(c.occupancy) && TreeOk(c, start, t, rank)
    requires next !in t.parent && nearest in t.parent && IsCollisionFree(c, next)
    requires k in t.parent[next := Some(nearest)] && k != start
    ensures var parent := t.parent[next := Some(nearest)];
            var rank' := rank[next := |t.nodes|];
            && parent[k].Some? && parent[k].value in parent
            && rank'[parent[k].value] < rank'[k] && IsCollisionFree(c, k)
  {
    var rank' := rank[next := |t.nodes|];
    if k == next {
      assert nearest != next;
      assert rank'[nearest] == rank[nearest] < |t.nodes| == rank'[k];
    } else {
      var p := t.parent[k].value;
      assert p in t.parent && p != next;
      assert rank'[p] == rank[p] && rank'[k] == rank[k];
    }
  }

  /** Inserting a point at most one step from its parent keeps every link short. */
  lemma PutKeepsShortEdges(c: Config, t: Tree, next: Point, nearest: Point)
    requires TreeShape(t) && ShortEdges(c, t)
    requires SqDist(nearest, next) <= c.stepSize * c.stepSize
    ensures ShortEdges(c, Put(t, next, Some(nearest)))
  {
  }

  /** In a ranked tree the walk from any key ends within its rank, at `start`. */
  lemma {:induction false} WalkEnds(c: Config, start: Point, t: Tree, rank: map<Point, nat>, e: Point, fuel: nat)
    requires Rectangular(c.occupancy) && TreeOk(c, start, t, rank)
    requires e in t.parent && fuel >= rank[e]
    ensures Walk(t.parent, e, fuel).Some?
    ensures Walk(t.parent, e, fuel).value[0] == start
    decreases rank[e]
  {
    if e != start {
      WalkEnds(c, start, t, rank, t.parent[e].value, fuel - 1);
    }
  }

  /**
   * Along a root-to-node list of a ranked tree that starts at `start`, every
   * later point is a free cell and the ranks strictly increase, so no point
   * repeats.
   */
  lemma TreePathFacts(c: Config, start: Point, t: Tree, rank: map<Point, nat>, w: seq<Point>)
    requires Rectangular(c.occupancy) && TreeOk(c, start, t, rank)
    requires TreePath(t.parent, w) && w[0] == start
    ensures forall i :: 0 < i < |w| ==> IsCollisionFree(c, w[i])
    ensures forall i, j :: 0 <= i < j < |w| ==> w[i] != w[j]
  {
    forall i | 0 < i < |w| ensures w[i] != start && IsCollisionFree(c, w[i]) {
      assert w[i] in t.parent && t.parent[w[i]] == Some(w[i - 1]);
    }
    assert w[0] in rank;
    forall i, j | 0 <= i < j < |w| ensures w[i] != w[j] {
      RankGrows(w, rank, i, j);
    }
  }

  lemma {:induction false} RankGrows(w: seq<Point>, rank: map<Point, nat>, i: nat, j: nat)
    requires forall k :: 0 <= k < |w| ==> w[k] in rank
    requires forall k :: 0 < k < |w| ==> rank[w[k - 1]] < rank[w[k]]
    requires i < j < |w|
    ensures rank[w[i]] < rank[w[j]]
    decreases j - i
  {
    if i + 1 < j {
      RankGrows(w, rank, i, j - 1);
    }
  }

  /** The links of a root-to-node list are parent links, so each is at most one step long. */
  lemma PathEdgesShort(c: Config, t: Tree, w: seq<Point>)
    requires ShortEdges(c, t) && TreePath(t.parent, w)
    ensures forall i :: 0 < i < |w| ==> SqDist(w[i - 1], w[i]) <= c.stepSize * c.stepSize
  {
    forall i | 0 < i < |w| ensures SqDist(w[i - 1], w[i]) <= c.stepSize * c.stepSize {
      assert t.parent[w[i]] == Some(w[i - 1]);
    }
  }

  /** `_reconstruct_path` on the corrected tree: it ends, and yields a legal path from `start`. */
  lemma ReconstructedPath(c: Config, sqrt: real -> real, start: Point, t: Tree, rank: map<Point, nat>, e: Point)
    requires Rectangular(c.occupancy) && TreeOk(c, start, t, rank)
    requires IsSqrt(sqrt) ==> ShortEdges(c, t)
    requires e in t.parent
    ensures var w := Walk(t.parent, e, |t.nodes|);
            && w.Some? && |w.value| >= 1 && w.value[0] == start && w.value[|w.value| - 1] == e
            && (forall i :: 0 < i < |w.value| ==> IsCollisionFree(c, w.value[i]))
            && (forall i, j :: 0 <= i < j < |w.value| ==> w.value[i] != w.value[j])
            && (IsSqrt(sqrt) ==>
                  forall i :: 0 < i < |w.value| ==> SqDist(w.value[i - 1], w.value[i]) <= c.stepSize * c.stepSize)
  {
    WalkEnds(c, start, t, rank, e, |t.nodes|);
    var w := Walk(t.parent, e, |t.nodes|).value;
    TreePathFacts(c, start, t, rank, w);
    if IsSqrt(sqrt) {
      PathEdgesShort(c, t, w);
    }
  }

  /** What one corrected loop iteration leaves: the tree, and the steered point when it is free. */
  datatype Iteration = Iteration(tree: Tree, next: Option<Point>)

  /**
   * One iteration of the corrected `plan`: sample, find the nearest key,
   * steer, and insert the steered point below the nearest key if it is free
   * and not yet a key.
   */
  function Iterate(c: Config, sqrt: real -> real, goal: Point, t: Tree, smp: Sample): (r: Iteration)
    requires Rectangular(c.occupancy) && TreeShape(t) && |t.nodes| > 0
    ensures TreeShape(r.tree)
    ensures r.next.Some? ==> r.next.value in r.tree.parent && IsCollisionFree(c, r.next.value)
    ensures forall k :: k in t.parent ==> k in r.tree.parent && r.tree.parent[k] == t.parent[k]
  {
    var sampled := SamplePoint(c, goal, smp);
    var nearest := NearestNeighbor(t, sampled);
    var next := Steer(sqrt, c.stepSize, nearest, sampled);
    if !IsCollisionFree(c, next) then Iteration(t, None)
    else if next in t.parent then Iteration(t, Some(next))
    else Iteration(Put(t, next, Some(nearest)), Some(next))
  }

  /**
   * The loop of the corrected `plan`: the first iteration whose steered
   * point is free and strictly within `step_size` of the goal ends it with
   * `Reached`; running out of samples ends it with `Exhausted`.
   */
  function PlanCorrected(c: Config, sqrt: real -> real, goal: Point, t: Tree, samples: seq<Sample>): (o: Outcome)
    requires Rectangular(c.occupancy) && TreeShape(t) && |t.nodes| > 0
    ensures TreeShape(o.tree) && |o.tree.nodes| > 0
    ensures o.Reached? ==> o.end in o.tree.parent && Dist(sqrt, o.end, goal) < c.stepSize
    ensures o.Exhausted? && |samples| == 0 ==> o.tree == t
    decreases |samples|
  {
    if |samples| == 0 then Exhausted(t)
    else
      var it := Iterate(c, sqrt, goal, t, samples[0]);
      if it.next.Some? && Dist(sqrt, it.next.value, goal) < c.stepSize then Reached(it.tree, it.next.value)
      else PlanCorrected(c, sqrt, goal, it.tree, samples[1..])
  }

  /** The corrected loop over `samples[i..n]` is one iteration followed by the loop over `samples[i + 1..n]`. */
  lemma PlanCorrectedStep(c: Config, sqrt: real -> real, goal: Point, t: Tree, samples: seq<Sample>, i: nat, n: nat)
    requires Rectangular(c.occupancy) && TreeShape(t) && |t.nodes| > 0
    requires i < n <= |samples|
    ensures var it := Iterate(c, sqrt, goal, t, samples[i]);
            PlanCorrected(c, sqrt, goal, t, samples[i..n])
            == if it.next.Some? && Dist(sqrt, it.next.value, goal) < c.stepSize then Reached(it.tree, it.next.value)
               else PlanCorrected(c, sqrt, goal, it.tree, samples[i + 1..n])
  {
    assert samples[i..n][0] == samples[i] && samples[i..n][1..] == samples[i + 1..n];
  }

  /** A corrected iteration keeps the tree ranked, rooted at `start` and, for a true square root, its links short. */
  lemma IterateKeeps(c: Config, sqrt: real -> real, start: Point, goal: Point, t: Tree, rank: map<Point, nat>, smp: Sample)
    returns (rank': map<Point, nat>)
    requires Rectangular(c.occupancy) && 0.0 <= c.stepSize && TreeOk(c, start, t, rank)
    requires IsSqrt(sqrt) ==> ShortEdges(c, t)
    ensures TreeOk(c, start, Iterate(c, sqrt, goal, t, smp).tree, rank')
    ensures IsSqrt(sqrt) ==> ShortEdges(c, Iterate(c, sqrt, goal, t, smp).tree)
  {
    var sampled := SamplePoint(c, goal, smp);
    var nearest := NearestNeighbor(t, sampled);
    var next := Steer(sqrt, c.stepSize, nearest, sampled);
    IterateShort(c, sqrt, goal, t, smp);
    rank' := rank;
    if IsCollisionFree(c, next) && next !in t.parent {
      PutKeepsTreeOk(c, start, t, rank, next, nearest);
      rank' := rank[next := |t.nodes|];
      assert Iterate(c, sqrt, goal, t, smp).tree == Put(t, next, Some(nearest));
    } else {
      assert Iterate(c, sqrt, goal, t, smp).tree == t;
    }
  }

  /** For a true square root, a corrected iteration keeps every link of the tree at most one step long. */
  lemma IterateShort(c: Config, sqrt: real -> real, goal: Point, t: Tree, smp: Sample)
    requires Rectangular(c.occupancy) && 0.0 <= c.stepSize && TreeShape(t) && |t.nodes| > 0
    requires IsSqrt(sqrt) ==> ShortEdges(c, t)
    ensures IsSqrt(sqrt) ==> ShortEdges(c, Iterate(c, sqrt, goal, t, smp).tree)
  {
    if IsSqrt(sqrt) {
      var sampled := SamplePoint(c, goal, smp);
      var nearest := NearestNeighbor(t, sampled);
      var next := Steer(sqrt, c.stepSize, nearest, sampled);
      if IsCollisionFree(c, next) && next !in t.parent {
        SteerDistance(sqrt, c.stepSize, nearest, sampled);
        PutKeepsShortEdges(c, t, next, nearest);
      }
    }
  }

  /** The reconstruction from a tree key strictly within `step_size` of the goal is a path `Plan` may return. */
  lemma ReachedPath(c: Config, sqrt: real -> real, start: Point, goal: Point, t: Tree, rank: map<Point, nat>, e: Point,
                    path: Option<seq<Point>>)
    requires Rectangular(c.occupancy) && TreeOk(c, start, t, rank)
    requires IsSqrt(sqrt) ==> ShortEdges(c, t)
    requires e in t.parent && Dist(sqrt, e, goal) < c.stepSize
    requires path == Walk(t.parent, e, |t.nodes|)
    ensures path.Some? && |path.value| >= 1 && path.value[0] == start
    ensures Dist(sqrt, path.value[|path.value| - 1], goal) < c.stepSize
    ensures forall i :: 0 < i < |path.value| ==> IsCollisionFree(c, path.value[i])
    ensures forall i, j :: 0 <= i < j < |path.value| ==> path.value[i] != path.value[j]
    ensures IsSqrt(sqrt) ==>
              forall i :: 0 < i < |path.value| ==> SqDist(path.value[i - 1], path.value[i]) <= c.stepSize * c.stepSize
  {
    ReconstructedPath(c, sqrt, start, t, rank, e);
  }

  /**
   * `find_path` then `plan`, corrected: a steered point that is already a
   * key keeps its parent, so the tree stays acyclic. A returned path runs
   * from `start` through free cells, in steps of at most `step_size`, to a
   * point strictly within `step_size` of the goal, and repeats no point.
   * A path is returned exactly when some iteration among the first
   * `max_iter` reaches the goal, and it is the reconstruction from that
   * iteration's point; otherwise the answer is `None`.
   */
  method Plan(c: Config, sqrt: real -> real, start: Point, goal: Point, samples: seq<Sample>)
    returns (path: Option<seq<Point>>)
    requires Rectangular(c.occupancy) && 0.0 <= c.stepSize
    requires |samples| >= c.maxIter
    ensures var o := PlanCorrected(c, sqrt, goal, Seed(start), samples[..c.maxIter]);
            (path.None? <==> o.Exhausted?) && (o.Reached? ==> path == Walk(o.tree.parent, o.end, |o.tree.nodes|))
    ensures path.Some? ==> |path.value| >= 1 && path.value[0] == start
    ensures path.Some? ==> Dist(sqrt, path.value[|path.value| - 1], goal) < c.stepSize
    ensures path.Some? ==> forall i :: 0 < i < |path.value| ==> IsCollisionFree(c, path.value[i])
    ensures path.Some? ==> forall i, j :: 0 <= i < j < |path.value| ==> path.value[i] != path.value[j]
    ensures path.Some? && IsSqrt(sqrt) ==>
              forall i :: 0 < i < |path.value| ==> SqDist(path.value[i - 1], path.value[i]) <= c.stepSize * c.stepSize
  {
    var t, found, rank := Search(c, sqrt, start, goal, samples);
    if found.None? {
      return None;
    }
    path := Walk(t.parent, found.value, |t.nodes|);
    ReachedPath(c, sqrt, start, goal, t, rank, found.value, path);
  }

  /**
   * The loop of the corrected `plan`, up to the point where the path is
   * reconstructed: the final tree, and the point that reached the goal if
   * one did within `max_iter` iterations.
   */
  method Search(c: Config, sqrt: real -> real, start: Point, goal: Point, samples: seq<Sample>)
    returns (t: Tree, found: Option<Point>, ghost rank: map<Point, nat>)
    requires Rectangular(c.occupancy) && 0.0 <= c.stepSize
    requires |samples| >= c.maxIter
    ensures TreeOk(c, start, t, rank)
    ensures IsSqrt(sqrt) ==> ShortEdges(c, t)
    ensures found.Some? ==> found.value in t.parent && Dist(sqrt, found.value, goal) < c.stepSize
    ensures PlanCorrected(c, sqrt, goal, Seed(start), samples[..c.maxIter])
            == if found.Some? then Reached(t, found.value) else Exhausted(t)
  {
    t := Seed(start);
    rank := map[start := 0];
    ghost var o := PlanCorrected(c, sqrt, goal, t, samples[..c.maxIter]);
    assert samples[..c.maxIter] == samples[0..c.maxIter];
    var i := 0;
    while i < c.maxIter
      invariant i <= c.maxIter
      invariant TreeOk(c, start, t, rank)
      invariant IsSqrt(sqrt) ==> ShortEdges(c, t)
      invariant PlanCorrected(c, sqrt, goal, t, samples[i..c.maxIter]) == o
    {
      var it := Iterate(c, sqrt, goal, t, samples[i]);
      rank := IterateKeeps(c, sqrt, start, goal, t, rank, samples[i]);
      PlanCorrectedStep(c, sqrt, goal, t, samples, i, c.maxIter);
      t := it.tree;
      if it.next.Some? && Dist(sqrt, it.next.value, goal) < c.stepSize {
        return t, it.next, rank;
      }
      i := i + 1;
    }
    assert samples[i..c.maxIter] == [];
    return t, None, rank;
  }

  /** The fields of a `GeoAwareRRT`; `~transform` must exist, so the transform is invertible. */
  datatype GeoRrt = GeoRrt(grid: Matrix<int>, transform: Affine, elevation: Option<Matrix<real>>, penalty: real)

  predicate GeoWellFormed(g: GeoRrt)
  {
    Rectangular(g.grid) && Determinant(g.transform) != 0.0
    && (g.elevation.Some? ==> Rectangular(g.elevation.value))
  }

  /** `latlon_to_grid`: the inverse transform of `(lon, lat)`, each coordinate rounded, as `(row, col)`. */
  function LatLonToGrid(g: GeoRrt, pos: LatLon): (c: Cell)
    requires GeoWellFormed(g)
    ensures var p := Apply(Invert(g.transform), Point(pos.lon, pos.lat));
            -0.5 <= c.row as real - p.y <= 0.5 && -0.5 <= c.col as real - p.x <= 0.5
  {
    var p := Apply(Invert(g.transform), Point(pos.lon, pos.lat));
    Cell(Numeric.RoundHalfEven(p.y), Numeric.RoundHalfEven(p.x))
  }

  /** `grid_to_latlon`: the transform of `(col, row)`, read back as `(lat, lon)`. */
  function GridToLatLon(g: GeoRrt, c: Cell): (pos: LatLon)
    ensures Determinant(g.transform) != 0.0 ==>
              Apply(Invert(g.transform), Point(pos.lon, pos.lat)) == Point(c.col as real, c.row as real)
  {
    var q := Apply(g.transform, Point(c.col as real, c.row as real));
    LatLon(q.y, q.x)
  }

  /** Every grid cell survives a trip to geographic coordinates and back. */
  lemma GridRoundTrip(g: GeoRrt, c: Cell)
    requires GeoWellFormed(g)
    ensures LatLonToGrid(g, GridToLatLon(g, c)) == c
  {
    var pos := GridToLatLon(g, c);
    var p := Point(c.col as real, c.row as real);
    assert Point(pos.lon, pos.lat) == Apply(g.transform, p);
    assert Apply(Invert(g.transform), Apply(g.transform, p)) == p;
  }

  /** An elevation cost, or the `float("inf")` returned when an index is out of range. */
  datatype Cost = Finite(value: real) | Infinite

  /** Reading `elevation[int(p[0]), int(p[1])]`, numpy index wrap-around included. */
  function ElevationLookup(e: Matrix<real>, p: Point): (r: Option<real>)
    requires Rectangular(e)
    ensures r.Some? <==> -(Rows(e) as int) <= Numeric.Trunc(p.x) < Rows(e) && -(Cols(e) as int) <= Numeric.Trunc(p.y) < Cols(e)
  {
    match (Numeric.NumpyIndex(Numeric.Trunc(p.x), Rows(e)), Numeric.NumpyIndex(Numeric.Trunc(p.y), Cols(e)))
    case (Some(i), Some(j)) => Some(e[i][j])
    case _ => None
  }

  /**
   * `elevation_cost`: zero without elevation data; infinite when either
   * point's indices fall outside the array; otherwise the penalty times the
   * height change, which is never negative for a non-negative penalty.
   */
  function ElevationCost(g: GeoRrt, a: Point, b: Point): (r: Cost)
    requires GeoWellFormed(g)
    ensures g.elevation.None? ==> r == Finite(0.0)
    ensures g.elevation.Some? ==>
              (r.Infinite? <==> ElevationLookup(g.elevation.value, a).None? || ElevationLookup(g.elevation.value, b).None?)
    ensures r.Finite? && g.penalty >= 0.0 ==> r.value >= 0.0
  {
    match g.elevation
    case None => Finite(0.0)
    case Some(e) =>
      match (ElevationLookup(e, a), ElevationLookup(e, b))
      case (Some(e1), Some(e2)) =>
        var d := if e2 - e1 < 0.0 then e1 - e2 else e2 - e1;
        assert g.penalty >= 0.0 ==> g.penalty * d >= 0.0;
        Finite(g.penalty * d)
      case _ => Infinite
  }

  /** The elevation cost does not depend on the direction of the move. */
  lemma ElevationCostSymmetric(g: GeoRrt, a: Point, b: Point)
    requires GeoWellFormed(g)
    ensures ElevationCost(g, a, b) == ElevationCost(g, b, a)
  {
  }

  /** `_is_valid_and_free`: the truncated `(row, col)` is inside the grid and holds 0. */
  function IsValidAndFree(g: GeoRrt, p: Point): (b: bool)
    requires GeoWellFormed(g)
    ensures b <==> 0 <= Numeric.Trunc(p.x) < Rows(g.grid) && 0 <= Numeric.Trunc(p.y) < Cols(g.grid)
                   && g.grid[Numeric.Trunc(p.x)][Numeric.Trunc(p.y)] == 0
  {
    var row := Numeric.Trunc(p.x);
    var col := Numeric.Trunc(p.y);
    if row < 0 || row >= Rows(g.grid) || col < 0 || col >= Cols(g.grid) then false
    else g.grid[row][col] == 0
  }

  /**
   * `_is_valid_and_free` agrees with `is_collision_free` on points with
   * non-negative coordinates, but truncation toward zero also admits points
   * just below zero (row or column in (-1, 0)), which the bounds test of
   * `is_collision_free` rejects.
   */
  lemma ValidAndFreeVsCollisionFree(g: GeoRrt, c: Config, p: Point)
    requires GeoWellFormed(g) && c.occupancy == g.grid
    ensures 0.0 <= p.x && 0.0 <= p.y ==> (IsValidAndFree(g, p) <==> IsCollisionFree(c, p))
    ensures -1.0 < p.x < 0.0 && 0.0 <= p.y < 1.0 && |g.grid| > 0 && Cols(g.grid) > 0 && g.grid[0][0] == 0 ==>
              IsValidAndFree(g, p) && !IsCollisionFree(c, p)
  {
  }
}

=== FILE: rrt_star.dfy ===
/**
 * `RRTStar`: a sampling planner in world coordinates (metres) over an
 * occupancy map in which 0 marks an OBSTACLE, the opposite of the A* and
 * RRT grids. The world box is fixed; world points are mapped to clamped
 * pixels. Random draws are an injected sample per step.
 */
module RrtStar {
  import opened Wrappers
  import opened Grid
  import opened Geometry
  import Numeric

  /** The fixed world bounds in metres. */
  const XMin: real := -2.16
  const XMax: real := 2.42
  const YMin: real := -4.07
  const YMax: real := 1.78

  /** `sample_point` gives up on uniform draws after this many invalid ones. */
  const MaxAttempts: nat := 10

  /** The planner's configuration: map, endpoints (world coordinates) and tuning. */
  datatype Star = Star(occupancy: Matrix<int>, start: Point, goal: Point,
                       targetRadius: real, delta: real, maxNodes: nat)

  /** The planner's mutable part: `nodes`, `edges` (parent, child) and `path`. */
  datatype Edge = Edge(parent: Point, child: Point)
  datatype StarTree = StarTree(nodes: seq<Point>, edges: seq<Edge>, path: Option<seq<Point>>)

  /**
   * `__init__` with an in-memory grid: the tree holds only `start`. Without a
   * grid (and without a map file) construction fails.
   */
  function Init(grid: Option<Matrix<int>>, start: Point, goal: Point,
                targetRadius: real, delta: real, maxNodes: nat): (r: Result<(Star, StarTree)>)
    ensures grid.None? <==> r.Err?
    ensures r.Ok? ==> r.value.0.occupancy == grid.value && r.value.1 == StarTree([start], [], None)
  {
    match grid
    case None => Err(ValueError("Either map_path or occupancy_grid is required"))
    case Some(m) => Ok((Star(m, start, goal, targetRadius, delta, maxNodes), StarTree([start], [], None)))
  }

  /** A map pixel: `px` is the column (x), `py` the row (y). */
  datatype Pixel = Pixel(px: int, py: int)

  /**
   * `world2map`: scale the world box onto the pixel range, truncate, then
   * clamp into the map. On a non-empty map the pixel is always in range; on
   * an empty axis the clamp yields -1.
   */
  function World2Map(m: Matrix<int>, p: Point): (c: Pixel)
    ensures Cols(m) >= 1 ==> 0 <= c.px <= Cols(m) - 1
    ensures Rows(m) >= 1 ==> 0 <= c.py <= Rows(m) - 1
    ensures Cols(m) == 0 ==> c.px == -1
    ensures Rows(m) == 0 ==> c.py == -1
  {
    var w := Cols(m);
    var h := Rows(m);
    var px := Numeric.Trunc((p.x - XMin) / (XMax - XMin) * (w - 1) as real);
    var py := Numeric.Trunc((YMax - p.y) / (YMax - YMin) * (h - 1) as real);
    Pixel(Numeric.Clamp(px, 0, w - 1), Numeric.Clamp(py, 0, h - 1))
  }

  /** The corners of the world box map to the corner pixels. */
  lemma World2MapCorners(m: Matrix<int>)
    requires Rows(m) >= 1 && Cols(m) >= 1
    ensures World2Map(m, Point(XMin, YMax)) == Pixel(0, 0)
    ensures World2Map(m, Point(XMax, YMin)) == Pixel(Cols(m) - 1, Rows(m) - 1)
  {
    assert (XMax - XMin) / (XMax - XMin) == 1.0;
    assert (YMax - YMin) / (YMax - YMin) == 1.0;
  }

  /** The pixel of a point inside the map is free (non-zero). */
  predicate FreePixel(m: Matrix<int>, c: Pixel)
    requires Rectangular(m)
  {
    0 <= c.py < Rows(m) && 0 <= c.px < Cols(m) && m[c.py][c.px] != 0
  }

  /**
   * `is_valid_point`: the clamped pixel is in bounds and not an obstacle;
   * the parent-segment check after the early `return` never runs. Because
   * of the clamp the bounds test rejects nothing on a non-empty map.
   */
  function IsValidPoint(m: Matrix<int>, p: Point): (b: bool)
    requires Rectangular(m)
    ensures b <==> Rows(m) >= 1 && Cols(m) >= 1 && m[World2Map(m, p).py][World2Map(m, p).px] != 0
  {
    var c := World2Map(m, p);
    if !(0 <= c.px < Cols(m) && 0 <= c.py < Rows(m)) then false
    else if m[c.py][c.px] == 0 then false
    else true
  }

  /**
   * The goal bias of `sample_point`: `1 - d / width` clamped into
   * [0.4, 0.95], where `d` is the tree's distance to the goal.
   */
  function DynamicBias(goalDistance: real): (b: real)
    ensures 0.4 <= b <= 0.95
  {
    var raw := 1.0 - goalDistance / (XMax - XMin);
    var atLeast := if raw < 0.4 then 0.4 else raw;
    if atLeast > 0.95 then 0.95 else atLeast
  }

  /** A tree closer to the goal never gets a smaller goal bias. */
  lemma BiasMonotone(d1: real, d2: real)
    requires d1 <= d2
    ensures DynamicBias(d1) >= DynamicBias(d2)
  {
    assert d1 / (XMax - XMin) <= d2 / (XMax - XMin);
  }

  /** The smallest distance from any node of the tree to the goal. */
  function MinGoalDistance(sqrt: real -> real, nodes: seq<Point>, goal: Point): (d: real)
    requires |nodes| > 0
    ensures forall i :: 0 <= i < |nodes| ==> d <= Dist(sqrt, nodes[i], goal)
    ensures exists i :: 0 <= i < |nodes| && d == Dist(sqrt, nodes[i], goal)
  {
    var here := Dist(sqrt, nodes[0], goal);
    if |nodes| == 1 then here
    else
      var rest := MinGoalDistance(sqrt, nodes[1..], goal);
      assert forall i :: 1 <= i < |nodes| ==> nodes[i] == nodes[1..][i - 1];
      if rest < here then
        var j :| 0 <= j < |nodes[1..]| && rest == Dist(sqrt, nodes[1..][j], goal);
        assert nodes[j + 1] == nodes[1..][j];
        rest
      else here
  }

  /** The draws of one `sample_point` call: the bias coin, then the uniform pairs in [0, 1). */
  datatype StarSample = StarSample(coin: real, tries: seq<Point>)

  /** `np.random.uniform` over the world box for one pair of unit draws. */
  function TryPoint(u: Point): Point
  {
    Point(XMin + (XMax - XMin) * u.x, YMin + (YMax - YMin) * u.y)
  }

  /** The first of the attempts `k..` whose point is valid, if any. */
  function FirstValid(m: Matrix<int>, tries: seq<Point>, k: nat): (r: Option<nat>)
    requires Rectangular(m) && k <= MaxAttempts <= |tries|
    ensures r.Some? ==> k <= r.value < MaxAttempts && IsValidPoint(m, TryPoint(tries[r.value]))
    ensures r.Some? ==> forall j :: k <= j < r.value ==> !IsValidPoint(m, TryPoint(tries[j]))
    ensures r.None? ==> forall j :: k <= j < MaxAttempts ==> !IsValidPoint(m, TryPoint(tries[j]))
    decreases MaxAttempts - k
  {
    if k == MaxAttempts then None
    else if IsValidPoint(m, TryPoint(tries[k])) then Some(k)
    else FirstValid(m, tries, k + 1)
  }

  /**
   * `sample_point`: the goal when the coin falls under the dynamic bias;
   * otherwise the first valid uniform point, or `start` after ten invalid
   * ones.
   */
  function SamplePoint(s: Star, sqrt: real -> real, nodes: seq<Point>, smp: StarSample): (p: Point)
    requires Rectangular(s.occupancy) && |nodes| > 0 && |smp.tries| >= MaxAttempts
    ensures smp.coin < DynamicBias(MinGoalDistance(sqrt, nodes, s.goal)) ==> p == s.goal
    ensures smp.coin >= DynamicBias(MinGoalDistance(sqrt, nodes, s.goal)) ==>
              (p == s.start && forall j :: 0 <= j < MaxAttempts ==> !IsValidPoint(s.occupancy, TryPoint(smp.tries[j])))
              || (IsValidPoint(s.occupancy, p) && exists j :: 0 <= j < MaxAttempts && p == TryPoint(smp.tries[j]))
    ensures smp.coin >= DynamicBias(MinGoalDistance(sqrt, nodes, s.goal)) && FirstValid(s.occupancy, smp.tries, 0).Some? ==>
              p == TryPoint(smp.tries[FirstValid(s.occupancy, smp.tries, 0).value])
  {
    if smp.coin < DynamicBias(MinGoalDistance(sqrt, nodes, s.goal)) then s.goal
    else
      match FirstValid(s.occupancy, smp.tries, 0)
      case Some(j) => TryPoint(smp.tries[j])
      case None => s.start
  }

  /** `find_nearest`: the first node of minimal distance. */
  function FindNearest(nodes: seq<Point>, q: Point): (n: Point)
    requires |nodes| > 0
    ensures n in nodes
    ensures forall i :: 0 <= i < |nodes| ==> SqDist(n, q) <= SqDist(nodes[i], q)
    ensures exists k :: FirstNearestAt(nodes, q, k) && nodes[k] == n
  {
    var k := Nearest(nodes, q);
    assert FirstNearestAt(nodes, q, k);
    nodes[k]
  }

  /** Index `k` holds a node strictly closer to `q` than every node before it. */
  predicate FirstNearestAt(nodes: seq<Point>, q: Point, k: int)
  {
    0 <= k < |nodes| && forall j :: 0 <= j < k ==> SqDist(nodes[j], q) > SqDist(nodes[k], q)
  }

  /** A pixel read back as if it were a world point, as `generate_new_point` passes it on. */
  function PixelAsWorld(c: Pixel): Point
  {
    Point(c.px as real, c.py as real)
  }

  /** `min(self.delta, length * 0.7)`: the adaptive step length. */
  function StepLength(delta: real, length: real): real
  {
    if delta < length * 0.7 then delta else length * 0.7
  }

  /** The point `min(delta, 0.7 * length)` from `nearest` toward `target`, for a non-zero `length`. */
  function Advance(delta: real, length: real, nearest: Point, target: Point): Point
    requires length != 0.0
  {
    var step := StepLength(delta, length);
    Point(nearest.x + (target.x - nearest.x) / length * step,
          nearest.y + (target.y - nearest.y) / length * step)
  }

  /**
   * `generate_new_point`: `nearest` for a zero-length direction; otherwise
   * the advanced point, kept only if its pixel, passed again through
   * `is_valid_point` as though it were a world point, is valid.
   */
  function GenerateNewPoint(s: Star, sqrt: real -> real, nearest: Point, target: Point): (r: Point)
    requires Rectangular(s.occupancy)
    ensures r == nearest || IsValidPoint(s.occupancy, PixelAsWorld(World2Map(s.occupancy, r)))
    ensures r == nearest || (Dist(sqrt, nearest, target) != 0.0 && r == Advance(s.delta, Dist(sqrt, nearest, target), nearest, target))
    ensures Dist(sqrt, nearest, target) == 0.0 ==> r == nearest
    ensures Dist(sqrt, nearest, target) != 0.0 ==>
              var moved := Advance(s.delta, Dist(sqrt, nearest, target), nearest, target);
              (IsValidPoint(s.occupancy, PixelAsWorld(World2Map(s.occupancy, moved))) ==> r == moved)
              && (!IsValidPoint(s.occupancy, PixelAsWorld(World2Map(s.occupancy, moved))) ==> r == nearest)
  {
    var length := Dist(sqrt, nearest, target);
    if length == 0.0 then nearest
    else
      var moved := Advance(s.delta, length, nearest, target);
      if IsValidPoint(s.occupancy, PixelAsWorld(World2Map(s.occupancy, moved))) then moved else nearest
  }

  /**
   * The advanced point lies exactly one adaptive step from `nearest`, which
   * is short of the target: the move never overshoots.
   */
  lemma AdvanceDistance(sqrt: real -> real, delta: real, nearest: Point, target: Point)
    requires IsSqrt(sqrt) && delta >= 0.0 && Dist(sqrt, nearest, target) != 0.0
    ensures var length := Dist(sqrt, nearest, target);
            var r := Advance(delta, length, nearest, target);
            SqDist(nearest, r) == StepLength(delta, length) * StepLength(delta, length)
            && SqDist(nearest, r) < SqDist(nearest, target)
  {
    var length := Dist(sqrt, nearest, target);
    SqDistNonNegative(nearest, target);
    assert 0.0 < length && length * length == SqDist(nearest, target);
    var step := StepLength(delta, length);
    var r := Advance(delta, length, nearest, target);
    var dx := target.x - nearest.x;
    var dy := target.y - nearest.y;
    UnitDirection(dx, dy, length);
    var u := dx / length;
    var v := dy / length;
    assert r.x - nearest.x == u * step && r.y - nearest.y == v * step;
    assert SqDist(nearest, r) == (u * step) * (u * step) + (v * step) * (v * step);
    ScaledUnitLength(u, v, step);
    assert 0.0 <= step < length;
    SquareStrictlyMonotone(step, length);
  }

  /**
   * A new point either stays at `nearest` or lies exactly one adaptive step
   * from it, closer to `nearest` than the target is.
   */
  lemma NewPointStep(s: Star, sqrt: real -> real, nearest: Point, target: Point)
    requires Rectangular(s.occupancy) && IsSqrt(sqrt) && s.delta >= 0.0
    ensures var r := GenerateNewPoint(s, sqrt, nearest, target);
            var length := Dist(sqrt, nearest, target);
            r == nearest
            || (SqDist(nearest, r) == StepLength(s.delta, length) * StepLength(s.delta, length)
                && SqDist(nearest, r) < SqDist(nearest, target))
  {
    StayOrAdvance(sqrt, s.delta, nearest, target, GenerateNewPoint(s, sqrt, nearest, target));
  }

  /** Any point that is `nearest` or its advance toward `target` is `nearest` or one adaptive step away. */
  lemma StayOrAdvance(sqrt: real -> real, delta: real, nearest: Point, target: Point, r: Point)
    requires IsSqrt(sqrt) && delta >= 0.0
    requires r == nearest || (Dist(sqrt, nearest, target) != 0.0 && r == Advance(delta, Dist(sqrt, nearest, target), nearest, target))
    ensures r == nearest
            || (SqDist(nearest, r) == StepLength(delta, Dist(sqrt, nearest, target)) * StepLength(delta, Dist(sqrt, nearest, target))
                && SqDist(nearest, r) < SqDist(nearest, target))
  {
    if r != nearest {
      AdvanceDistance(sqrt, delta, nearest, target);
    }
  }

  /** What one `step` call leaves and whether the search goes on. */
  datatype StepResult = StepResult(tree: StarTree, more: bool)

  /** The candidate one `step` computes: sample, nearest node, then the new point toward the sample. */
  function NextPoint(s: Star, sqrt: real -> real, nodes: seq<Point>, smp: StarSample): Point
    requires Rectangular(s.occupancy) && |nodes| > 0 && |smp.tries| >= MaxAttempts
  {
    var target := SamplePoint(s, sqrt, nodes, smp);
    GenerateNewPoint(s, sqrt, FindNearest(nodes, target), target)
  }

  /** The value `self.path` receives from `get_final_path`: the path, or `None`. */
  function AsPath(f: FinalPath): (r: Option<seq<Point>>)
    ensures r.Some? <==> f.Path?
    ensures r.Some? ==> r.value == f.points
  {
    match f
    case Path(p) => Some(p)
    case _ => None
  }

  /**
   * `step`, with the malformed validity test read as "reject the point and
   * keep searching": at the node cap nothing happens and the search stops;
   * a valid new point is appended, and reaching the target radius records
   * the final path and stops.
   */
  function Step(s: Star, sqrt: real -> real, t: StarTree, smp: StarSample): (r: StepResult)
    requires Rectangular(s.occupancy) && |t.nodes| > 0 && |smp.tries| >= MaxAttempts
    ensures |t.nodes| >= s.maxNodes ==> r == StepResult(t, false)
    ensures r.tree.edges == t.edges
    ensures |t.nodes| <= |r.tree.nodes| <= |t.nodes| + 1 && r.tree.nodes[..|t.nodes|] == t.nodes
    ensures |r.tree.nodes| == |t.nodes| + 1 ==> IsValidPoint(s.occupancy, r.tree.nodes[|t.nodes|])
    ensures |t.nodes| < s.maxNodes ==> |r.tree.nodes| <= s.maxNodes
    ensures |t.nodes| < s.maxNodes && !r.more ==>
              |r.tree.nodes| == |t.nodes| + 1 && Dist(sqrt, r.tree.nodes[|t.nodes|], s.goal) <= s.targetRadius
    ensures |t.nodes| < s.maxNodes ==>
              var next := NextPoint(s, sqrt, t.nodes, smp);
              (|r.tree.nodes| == |t.nodes| + 1 <==> IsValidPoint(s.occupancy, next))
              && (!IsValidPoint(s.occupancy, next) ==> r == StepResult(t, true))
              && (IsValidPoint(s.occupancy, next) ==> r.tree.nodes == t.nodes + [next])
              && (IsValidPoint(s.occupancy, next) ==> (!r.more <==> Dist(sqrt, next, s.goal) <= s.targetRadius))
              && (IsValidPoint(s.occupancy, next) && r.more ==> r.tree.path == t.path)
              && (IsValidPoint(s.occupancy, next) && !r.more ==>
                    r.tree.path == AsPath(GetFinalPath(t.nodes + [next], t.edges, s.start, s.goal, |t.edges| + 1)))
  {
    if |t.nodes| >= s.maxNodes then StepResult(t, false)
    else
      var next := NextPoint(s, sqrt, t.nodes, smp);
      if !IsValidPoint(s.occupancy, next) then StepResult(t, true)
      else
        var nodes := t.nodes + [next];
        assert nodes[..|t.nodes|] == t.nodes;
        if Dist(sqrt, next, s.goal) <= s.targetRadius then
          StepResult(StarTree(nodes, t.edges, AsPath(GetFinalPath(nodes, t.edges, s.start, s.goal, |t.edges| + 1))), false)
        else StepResult(StarTree(nodes, t.edges, t.path), true)
  }

  /** Every node after the root passes `is_valid_point`. */
  predicate NodesValid(m: Matrix<int>, nodes: seq<Point>)
    requires Rectangular(m)
  {
    forall i :: 1 <= i < |nodes| ==> IsValidPoint(m, nodes[i])
  }

  /**
   * `step` keeps every non-root node valid, changes `self.path` only when it
   * stops, and a continuing step has reached no node within the target radius.
   */
  lemma StepKeepsValid(s: Star, sqrt: real -> real, t: StarTree, smp: StarSample)
    requires Rectangular(s.occupancy) && |t.nodes| > 0 && |smp.tries| >= MaxAttempts
    requires NodesValid(s.occupancy, t.nodes)
    ensures NodesValid(s.occupancy, Step(s, sqrt, t, smp).tree.nodes)
    ensures Step(s, sqrt, t, smp).tree.path != t.path ==> !Step(s, sqrt, t, smp).more
    ensures Step(s, sqrt, t, smp).more ==>
              forall i :: |t.nodes| <= i < |Step(s, sqrt, t, smp).tree.nodes| ==>
                Dist(sqrt, Step(s, sqrt, t, smp).tree.nodes[i], s.goal) > s.targetRadius
  {
  }


  /** The node cap is an invariant of `step`. */
  lemma NodeCapKept(s: Star, sqrt: real -> real, t: StarTree, smp: StarSample)
    requires Rectangular(s.occupancy) && |t.nodes| > 0 && |smp.tries| >= MaxAttempts
    requires |t.nodes| <= s.maxNodes
    ensures |Step(s, sqrt, t, smp).tree.nodes| <= s.maxNodes
  {
  }

  /** The parent recorded by the first edge that ends at `node`, if any. */
  function ParentOf(edges: seq<Edge>, node: Point): (r: Option<Point>)
    ensures r.Some? ==> exists i :: 0 <= i < |edges| && edges[i] == Edge(r.value, node)
    ensures r.None? ==> forall i :: 0 <= i < |edges| ==> edges[i].child != node
  {
    if |edges| == 0 then None
    else if edges[0].child == node then Some(edges[0].parent)
    else
      assert forall i :: 0 <= i < |edges[1..]| ==> edges[1..][i] == edges[i + 1];
      ParentOf(edges[1..], node)
  }

  /** The walk of `get_final_path`: the nodes passed before `start`, or why it stopped. */
  datatype Trace = Traced(nodes: seq<Point>) | TraceFailed | OutOfFuel

  /**
   * The `while node != self.start` loop, allowed `fuel` parent lookups:
   * the nodes visited (newest first, `start` excluded), a failed lookup,
   * or a walk still going.
   */
  function TraceBack(edges: seq<Edge>, start: Point, node: Point, fuel: nat): (r: Trace)
    ensures r.Traced? ==> start !in r.nodes
    ensures r.Traced? && |r.nodes| > 0 ==> r.nodes[0] == node
    ensures r.Traced? ==> forall i :: 0 < i < |r.nodes| ==> ParentOf(edges, r.nodes[i - 1]) == Some(r.nodes[i])
    decreases fuel
  {
    if node == start then Traced([])
    else if fuel == 0 then OutOfFuel
    else
      match ParentOf(edges, node)
      case None => TraceFailed
      case Some(p) =>
        match TraceBack(edges, start, p, fuel - 1)
        case Traced(rest) => Traced([node] + rest)
        case other => other
  }

  function Reverse(s: seq<Point>): (r: seq<Point>)
    ensures |r| == |s|
    ensures forall i :: 0 <= i < |s| ==> r[i] == s[|s| - 1 - i]
  {
    if |s| == 0 then [] else Reverse(s[1..]) + [s[0]]
  }

  /** `get_final_path`'s result: a path, `None` after a failed lookup, or a walk that has not ended. */
  datatype FinalPath = Path(points: seq<Point>) | Untraceable | Unfinished

  /**
   * `get_final_path`: walk back from the last node, put `start` first, move
   * a leading goal to the end, and append the goal if it is not last.
   */
  function GetFinalPath(nodes: seq<Point>, edges: seq<Edge>, start: Point, goal: Point, fuel: nat): (r: FinalPath)
    requires |nodes| > 0
    ensures r.Path? ==> |r.points| >= 1 && r.points[|r.points| - 1] == goal
    ensures r.Path? && start != goal ==> r.points[0] == start
  {
    match TraceBack(edges, start, nodes[|nodes| - 1], fuel)
    case TraceFailed => Untraceable
    case OutOfFuel => Unfinished
    case Traced(walked) =>
      var path := Reverse(walked + [start]);
      assert path[0] == start;
      var moved := if path[0] == goal then path[1..] + [goal] else path;
      Path(if moved[|moved| - 1] != goal then moved + [goal] else moved)
  }

  /**
   * `edges` is never appended to, so the final path exists only when the
   * last node is `start` itself, and is then `[start, goal]` (or `[goal]`
   * when they coincide).
   */
  lemma FinalPathWithoutEdges(nodes: seq<Point>, start: Point, goal: Point, fuel: nat)
    requires |nodes| > 0
    ensures nodes[|nodes| - 1] != start && fuel > 0 ==> GetFinalPath(nodes, [], start, goal, fuel) == Untraceable
    ensures nodes[|nodes| - 1] == start && start != goal ==>
              GetFinalPath(nodes, [], start, goal, fuel) == Path([start, goal])
    ensures nodes[|nodes| - 1] == start && start == goal ==>
              GetFinalPath(nodes, [], start, goal, fuel) == Path([goal])
  {
    var last := nodes[|nodes| - 1];
    if last == start {
      assert Reverse([] + [start]) == [start];
    }
  }

  /** `np.linspace(a, b, num)[i]`: evenly spaced from `a`, the last sample exactly `b`. */
  function Linspace(a: real, b: real, num: nat, i: nat): (r: real)
    requires i < num
    ensures i == 0 ==> r == a
    ensures num > 1 && i == num - 1 ==> r == b
  {
    if num == 1 then a
    else a + (i as real) * (b - a) / ((num - 1) as real)
  }

  /** Sample `i` of the segment, truncated to integers as `.astype(int)` does, then mapped to a pixel. */
  function SegmentPixel(m: Matrix<int>, p1: Point, p2: Point, num: nat, i: nat): Pixel
    requires i < num
  {
    var xw := Numeric.Trunc(Linspace(p1.x, p2.x, num, i));
    var yw := Numeric.Trunc(Linspace(p1.y, p2.y, num, i));
    World2Map(m, Point(xw as real, yw as real))
  }

  /** Whether samples `i..num` of the segment all avoid obstacles. */
  function SamplesFree(m: Matrix<int>, p1: Point, p2: Point, num: nat, i: nat): (b: bool)
    requires Rectangular(m) && Rows(m) >= 1 && Cols(m) >= 1 && i <= num
    ensures b <==> forall j :: i <= j < num ==> FreePixel(m, SegmentPixel(m, p1, p2, num, j))
    decreases num - i
  {
    if i == num then true
    else
      var c := SegmentPixel(m, p1, p2, num, i);
      if m[c.py][c.px] == 0 then false else SamplesFree(m, p1, p2, num, i + 1)
  }

  /**
   * `is_valid_path`: `int(2 * distance)` evenly spaced samples of the
   * segment must all avoid obstacles. A negative count is numpy's
   * ValueError; on an empty map the first lookup is an IndexError.
   */
  function IsValidPath(m: Matrix<int>, sqrt: real -> real, p1: Point, p2: Point): (r: Result<bool>)
    requires Rectangular(m)
    ensures var num := Numeric.Trunc(Dist(sqrt, p1, p2) * 2.0);
            r.Err? <==> num < 0 || (num > 0 && (Rows(m) == 0 || Cols(m) == 0))
    ensures Numeric.Trunc(Dist(sqrt, p1, p2) * 2.0) == 0 ==> r == Ok(true)
    ensures var num := Numeric.Trunc(Dist(sqrt, p1, p2) * 2.0);
            num > 0 && Rows(m) >= 1 && Cols(m) >= 1 ==>
              (r == Ok(true) <==> forall j :: 0 <= j < num ==> FreePixel(m, SegmentPixel(m, p1, p2, num, j)))
  {
    var num := Numeric.Trunc(Dist(sqrt, p1, p2) * 2.0);
    if num < 0 then Err(ValueError("Number of samples must be non-negative"))
    else if num == 0 then Ok(true)
    else if Rows(m) == 0 || Cols(m) == 0 then Err(IndexError)
    else Ok(SamplesFree(m, p1, p2, num, 0))
  }

  /** Segments shorter than half a metre are accepted without looking at the map. */
  lemma ShortSegmentUnchecked(m: Matrix<int>, sqrt: real -> real, p1: Point, p2: Point)
    requires Rectangular(m) && IsSqrt(sqrt)
    requires Dist(sqrt, p1, p2) < 0.5
    ensures IsValidPath(m, sqrt, p1, p2) == Ok(true)
  {
    SqDistNonNegative(p1, p2);
    assert 0.0 <= Dist(sqrt, p1, p2);
  }

  /**
   * A segment of at least half a metre on a non-empty map is accepted
   * exactly when every sample avoids obstacles; in particular the pixel of
   * `p1` (truncated) is free.
   */
  lemma LongSegmentChecked(m: Matrix<int>, sqrt: real -> real, p1: Point, p2: Point)
    requires Rectangular(m) && IsSqrt(sqrt) && Rows(m) >= 1 && Cols(m) >= 1
    requires Dist(sqrt, p1, p2) >= 0.5
    ensures var num := Numeric.Trunc(Dist(sqrt, p1, p2) * 2.0);
            num >= 1
            && (IsValidPath(m, sqrt, p1, p2) == Ok(true) <==>
                  forall j :: 0 <= j < num ==> FreePixel(m, SegmentPixel(m, p1, p2, num, j)))
    ensures IsValidPath(m, sqrt, p1, p2) == Ok(true) ==>
              FreePixel(m, World2Map(m, Point(Numeric.Trunc(p1.x) as real, Numeric.Trunc(p1.y) as real)))
  {
    var num := Numeric.Trunc(Dist(sqrt, p1, p2) * 2.0);
    assert num >= 1;
    if IsValidPath(m, sqrt, p1, p2) == Ok(true) {
      assert FreePixel(m, SegmentPixel(m, p1, p2, num, 0));
    }
  }
}

=== FILE: simulation.dfy ===
/**
 * `SimulationController` bookkeeping: waypoints to clamped grid cells, the
 * planned consecutive segments, heading normalisation, the elevation
 * lookup that never raises, and the sample count and timestamps of an
 * interpolated segment. Geodesic azimuths and distances, the sigmoid
 * easing and the GPS noise are foreign and enter as values.
 */
module Simulation {
  import opened Wrappers
  import opened Grid
  import opened Geometry
  import Numeric

  /** `compute_heading`: the azimuth shifted by 360 and reduced into [0, 360). */
  function ComputeHeading(azimuth: real): (h: real)
    ensures 0.0 <= h < 360.0
    ensures (azimuth + 360.0 - h) / 360.0 == ((azimuth + 360.0 - h) / 360.0).Floor as real
  {
    Numeric.FloatMod(azimuth + 360.0, 360.0)
  }

  /**
   * The azimuths `geod.inv` returns lie in [-180, 180]: negative ones are
   * turned by a full circle, the others are kept.
   */
  lemma HeadingOfAzimuth(azimuth: real)
    requires -180.0 <= azimuth <= 180.0
    ensures azimuth < 0.0 ==> ComputeHeading(azimuth) == azimuth + 360.0
    ensures 0.0 <= azimuth ==> ComputeHeading(azimuth) == azimuth
  {
    if azimuth < 0.0 {
      Numeric.FloatModInRange(azimuth + 360.0, 360.0);
    } else {
      Numeric.FloatModShifted(azimuth, 360.0);
    }
  }

  /** Normalising a heading twice is normalising it once. */
  lemma HeadingIdempotent(azimuth: real)
    ensures ComputeHeading(ComputeHeading(azimuth)) == ComputeHeading(azimuth)
  {
    Numeric.FloatModShifted(ComputeHeading(azimuth), 360.0);
  }

  /** `grid_to_latlon`: the transform applied to `(col, row)`, returned as `(lat, lon) = (y, x)`. */
  function GridToLatLon(t: Affine, c: Cell): (pos: LatLon)
    ensures Point(pos.lon, pos.lat) == Apply(t, Point(c.col as real, c.row as real))
  {
    var q := Apply(t, Point(c.col as real, c.row as real));
    LatLon(q.y, q.x)
  }

  /** The controller's raster: the DEM and its geographic transform. */
  datatype Raster = Raster(transform: Affine, elevation: Matrix<real>)

  predicate RasterOk(r: Raster)
  {
    Rectangular(r.elevation) && Determinant(r.transform) != 0.0
  }

  /** rasterio's `rowcol`: the inverse transform of `(lon, lat)`, floored, as (row, col). */
  function RowCol(t: Affine, pos: LatLon): Cell
    requires Determinant(t) != 0.0
  {
    var p := Apply(Invert(t), Point(pos.lon, pos.lat));
    Cell(p.y.Floor, p.x.Floor)
  }

  /** Grid cells survive a trip to geographic coordinates and back through `rowcol`. */
  lemma RowColRoundTrip(t: Affine, c: Cell)
    requires Determinant(t) != 0.0
    ensures RowCol(t, GridToLatLon(t, c)) == c
  {
    var p := Point(c.col as real, c.row as real);
    assert Apply(Invert(t), Apply(t, p)) == p;
  }

  /**
   * `safe_dem_func`: the elevation under a position, numpy's negative
   * indices included; 0.0 instead of the IndexError off the raster.
   */
  function SafeDem(r: Raster, pos: LatLon): (alt: real)
    requires RasterOk(r)
    ensures var c := RowCol(r.transform, pos);
            match (Numeric.NumpyIndex(c.row, Rows(r.elevation)), Numeric.NumpyIndex(c.col, Cols(r.elevation)))
            case (Some(i), Some(j)) => alt == r.elevation[i][j]
            case _ => alt == 0.0
  {
    var c := RowCol(r.transform, pos);
    match (Numeric.NumpyIndex(c.row, Rows(r.elevation)), Numeric.NumpyIndex(c.col, Cols(r.elevation)))
    case (Some(i), Some(j)) => r.elevation[i][j]
    case _ => 0.0
  }

  /** At the position of a raster cell, the lookup reads exactly that cell. */
  lemma SafeDemAtCell(r: Raster, c: Cell)
    requires RasterOk(r) && InBounds(r.elevation, c)
    ensures SafeDem(r, GridToLatLon(r.transform, c)) == r.elevation[c.row][c.col]
  {
    RowColRoundTrip(r.transform, c);
  }

  /** One waypoint of `_build_path`: the inverse transform, floored, then clamped into the raster. */
  function WaypointCell(r: Raster, pos: LatLon): (c: Cell)
    requires RasterOk(r)
    ensures Rows(r.elevation) >= 1 ==> 0 <= c.row < Rows(r.elevation)
    ensures Cols(r.elevation) >= 1 ==> 0 <= c.col < Cols(r.elevation)
  {
    var raw := RowCol(r.transform, pos);
    Cell(Numeric.Clamp(raw.row, 0, Rows(r.elevation) - 1), Numeric.Clamp(raw.col, 0, Cols(r.elevation) - 1))
  }

  /** A waypoint placed on a raster cell is mapped back to that cell; the clamp only acts off the raster. */
  lemma WaypointCellRoundTrip(r: Raster, c: Cell)
    requires RasterOk(r) && InBounds(r.elevation, c)
    ensures WaypointCell(r, GridToLatLon(r.transform, c)) == c
  {
    RowColRoundTrip(r.transform, c);
  }

  /** `_build_path`: one clamped (row, col) per waypoint, in waypoint order. */
  function BuildPath(r: Raster, waypoints: seq<LatLon>): (cells: seq<Cell>)
    requires RasterOk(r)
    ensures |cells| == |waypoints|
    ensures forall i :: 0 <= i < |waypoints| ==> cells[i] == WaypointCell(r, waypoints[i])
    ensures Rows(r.elevation) >= 1 && Cols(r.elevation) >= 1 ==>
              forall i :: 0 <= i < |cells| ==> InBounds(r.elevation, cells[i])
  {
    seq(|waypoints|, i requires 0 <= i < |waypoints| => WaypointCell(r, waypoints[i]))
  }

  /** A segment `run_simulation` goes on to fly: its index and its cells as positions. */
  datatype Leg = Leg(index: nat, route: seq<LatLon>)

  /**
   * The segment loop of `run_simulation`, up to the flight along each
   * route: fewer than two cells is a ValueError; otherwise each
   * consecutive pair is planned, an empty or missing route is skipped, and
   * every other route is turned into positions.
   */
  method PlanLegs(t: Affine, cells: seq<Cell>, plan: (Cell, Cell) -> Option<seq<Cell>>)
    returns (r: Result<seq<Leg>>)
    ensures r.Err? <==> |cells| < 2
    ensures r.Ok? ==> forall k :: 0 <= k < |r.value| ==> LegOk(t, cells, plan, r.value[k])
    ensures r.Ok? ==> forall k1, k2 :: 0 <= k1 < k2 < |r.value| ==> r.value[k1].index < r.value[k2].index
    ensures r.Ok? ==> forall i :: 0 <= i < |cells| - 1 ==> (Planned(plan, cells, i) <==> HasLeg(r.value, i))
  {
    if |cells| < 2 {
      return Err(ValueError("[SIM-RECORD] Not enough waypoints to simulate path."));
    }
    var legs: seq<Leg> := [];
    var i := 0;
    while i < |cells| - 1
      invariant 0 <= i <= |cells| - 1
      invariant forall k :: 0 <= k < |legs| ==> legs[k].index < i && LegOk(t, cells, plan, legs[k])
      invariant forall k1, k2 :: 0 <= k1 < k2 < |legs| ==> legs[k1].index < legs[k2].index
      invariant forall j :: 0 <= j < i ==> (Planned(plan, cells, j) <==> HasLeg(legs, j))
    {
      var segment := plan(cells[i], cells[i + 1]);
      ghost var before := legs;
      if segment.Some? && |segment.value| > 0 {
        legs := legs + [Leg(i, Routed(t, segment.value))];
        assert HasLeg(legs, i) by {
          assert legs[|legs| - 1].index == i;
        }
        assert forall j: nat :: HasLeg(before, j) ==> HasLeg(legs, j) by {
          assert forall k :: 0 <= k < |before| ==> legs[k] == before[k];
        }
        assert forall j: nat :: j < i && HasLeg(legs, j) ==> HasLeg(before, j) by {
          assert forall k :: 0 <= k < |before| ==> legs[k] == before[k];
        }
      } else {
        assert !HasLeg(legs, i);
      }
      i := i + 1;
    }
    return Ok(legs);
  }

  /** A leg for the pair at its index, with the planner's non-empty route as positions. */
  predicate LegOk(t: Affine, cells: seq<Cell>, plan: (Cell, Cell) -> Option<seq<Cell>>, leg: Leg)
  {
    && leg.index + 1 < |cells|
    && plan(cells[leg.index], cells[leg.index + 1]).Some?
    && leg.route == Routed(t, plan(cells[leg.index], cells[leg.index + 1]).value)
    && |leg.route| > 0
  }

  /** Some leg flies the pair at `i`. */
  predicate HasLeg(legs: seq<Leg>, i: nat)
  {
    exists k :: 0 <= k < |legs| && legs[k].index == i
  }

  /** Whether the planner returns a non-empty route for the pair at `i`. */
  predicate Planned(plan: (Cell, Cell) -> Option<seq<Cell>>, cells: seq<Cell>, i: nat)
    requires i + 1 < |cells|
  {
    plan(cells[i], cells[i + 1]).Some? && |plan(cells[i], cells[i + 1]).value| > 0
  }

  /** The geographic position of every cell of a planned segment, in order. */
  function Routed(t: Affine, segment: seq<Cell>): (route: seq<LatLon>)
    ensures |route| == |segment|
    ensures forall i :: 0 <= i < |segment| ==> route[i] == GridToLatLon(t, segment[i])
  {
    seq(|segment|, i requires 0 <= i < |segment| => GridToLatLon(t, segment[i]))
  }

  /**
   * `steps = int(duration_s * 1000 // interval_ms)` with `duration_s =
   * distance / speed`: a zero speed or interval is a ZeroDivisionError;
   * otherwise the floor of the milliseconds over the interval.
   */
  function SegmentSteps(distance: real, speed: real, intervalMs: real): (r: Result<int>)
    ensures r.Err? <==> speed == 0.0 || intervalMs == 0.0
    ensures r.Ok? && intervalMs > 0.0 ==>
              r.value as real * intervalMs <= distance / speed * 1000.0 < (r.value + 1) as real * intervalMs
  {
    if speed == 0.0 || intervalMs == 0.0 then Err(ZeroDivisionError)
    else
      Numeric.FloorQuotient(distance / speed * 1000.0, intervalMs);
      Ok((distance / speed * 1000.0 / intervalMs).Floor)
  }

  /** One emitted sample of a segment. */
  datatype Sample = Sample(timestampMs: real, lat: real, lon: real, alt: real, heading: real)

  /**
   * `interpolate_segment` given the segment's geodesic length and azimuth
   * and the eased, noisy positions: `steps` samples timed `i * interval_ms`,
   * each at the elevation under it and all with the segment's heading. A
   * negative count is numpy's ValueError.
   */
  function InterpolateSegment(r: Raster, distance: real, azimuth: real, speed: real, intervalMs: real,
                              positions: seq<LatLon>): (out: Result<seq<Sample>>)
    requires RasterOk(r)
    requires SegmentSteps(distance, speed, intervalMs).Ok? ==> |positions| >= SegmentSteps(distance, speed, intervalMs).value
    ensures out.Err? <==> SegmentSteps(distance, speed, intervalMs).Err? || SegmentSteps(distance, speed, intervalMs).value < 0
    ensures out.Ok? ==> |out.value| == SegmentSteps(distance, speed, intervalMs).value
    ensures out.Ok? ==> forall i :: 0 <= i < |out.value| ==>
              out.value[i] == Sample(i as real * intervalMs, positions[i].lat, positions[i].lon,
                                     SafeDem(r, positions[i]), ComputeHeading(azimuth))
  {
    match SegmentSteps(distance, speed, intervalMs)
    case Err(e) => Err(e)
    case Ok(steps) =>
      if steps < 0 then Err(ValueError("Number of samples must be non-negative"))
      else
        var heading := ComputeHeading(azimuth);
        Ok(seq(steps, i requires 0 <= i < steps =>
          Sample(i as real * intervalMs, positions[i].lat, positions[i].lon, SafeDem(r, positions[i]), heading)))
  }

  /** With a positive interval the timestamps of a segment strictly increase and share one heading. */
  lemma SegmentTimesIncrease(r: Raster, distance: real, azimuth: real, speed: real, intervalMs: real,
                             positions: seq<LatLon>)
    requires RasterOk(r) && intervalMs > 0.0
    requires SegmentSteps(distance, speed, intervalMs).Ok? ==> |positions| >= SegmentSteps(distance, speed, intervalMs).value
    ensures var out := InterpolateSegment(r, distance, azimuth, speed, intervalMs, positions);
            out.Ok? ==> forall i, j :: 0 <= i < j < |out.value| ==>
              out.value[i].timestampMs < out.value[j].timestampMs && out.value[i].heading == out.value[j].heading
  {
    var out := InterpolateSegment(r, distance, azimuth, speed, intervalMs, positions);
    if out.Ok? {
      TimesIncrease(out.value, intervalMs, ComputeHeading(azimuth));
    }
  }

  /** Samples timed `i * interval` for a positive interval, all with one heading. */
  lemma TimesIncrease(samples: seq<Sample>, intervalMs: real, heading: real)
    requires intervalMs > 0.0
    requires forall i :: 0 <= i < |samples| ==>
               samples[i].timestampMs == i as real * intervalMs && samples[i].heading == heading
    ensures forall i, j :: 0 <= i < j < |samples| ==>
              samples[i].timestampMs < samples[j].timestampMs && samples[i].heading == samples[j].heading
  {
    forall i, j | 0 <= i < j < |samples|
      ensures samples[i].timestampMs < samples[j].timestampMs
    {
      Numeric.MulMonotone(i as real, j as real, intervalMs);
    }
  }
}

=== FILE: text.dfy ===
/**
 * The Python string operations the parsers rely on: whitespace, `strip`,
 * `split()`, `lower`, and the decimal forms `int()` and `float()` accept,
 * each with the formatter that inverts it.
 */
module Text {
  import opened Wrappers

  /** `str.isspace` for one character, by code point. */
  predicate IsSpace(c: char)
  {
    var k := c as int;
    || k == 0x20 || 0x09 <= k <= 0x0D || 0x1C <= k <= 0x1F || k == 0x85 || k == 0xA0 || k == 0x1680
    || 0x2000 <= k <= 0x200A || k == 0x2028 || k == 0x2029 || k == 0x202F || k == 0x205F || k == 0x3000
  }

  predicate NoSpace(s: string)
  {
    forall i :: 0 <= i < |s| ==> !IsSpace(s[i])
  }

  /** The number of leading whitespace characters. */
  function LeadingSpace(s: string): (n: nat)
    ensures n <= |s|
    ensures forall i :: 0 <= i < n ==> IsSpace(s[i])
    ensures n < |s| ==> !IsSpace(s[n])
  {
    if |s| == 0 || !IsSpace(s[0]) then 0 else 1 + LeadingSpace(s[1..])
  }

  /** The number of trailing whitespace characters. */
  function TrailingSpace(s: string): (n: nat)
    ensures n <= |s|
    ensures forall i :: |s| - n <= i < |s| ==> IsSpace(s[i])
    ensures n < |s| ==> !IsSpace(s[|s| - n - 1])
  {
    if |s| == 0 || !IsSpace(s[|s| - 1]) then 0 else 1 + TrailingSpace(s[..|s| - 1])
  }

  /**
   * `str.strip()`: the slice left after removing leading and trailing
   * whitespace; it neither starts nor ends with whitespace.
   */
  function Strip(s: string): (r: string)
    ensures |r| <= |s|
    ensures |r| > 0 ==> !IsSpace(r[0]) && !IsSpace(r[|r| - 1])
    ensures LeadingSpace(s) + |r| <= |s| && r == s[LeadingSpace(s)..LeadingSpace(s) + |r|]
    ensures forall i :: LeadingSpace(s) + |r| <= i < |s| ==> IsSpace(s[i])
  {
    var a := LeadingSpace(s);
    var rest := s[a..];
    var b := TrailingSpace(rest);
    rest[..|rest| - b]
  }

  /** Stripping a string without surrounding whitespace changes nothing. */
  lemma StripUnchanged(s: string)
    requires |s| > 0 ==> !IsSpace(s[0]) && !IsSpace(s[|s| - 1])
    ensures Strip(s) == s
  {
  }

  /** The number of leading non-whitespace characters: the first token's length. */
  function TokenLength(s: string): (n: nat)
    ensures n <= |s|
    ensures forall i :: 0 <= i < n ==> !IsSpace(s[i])
    ensures n < |s| ==> IsSpace(s[n])
  {
    if |s| == 0 || IsSpace(s[0]) then 0 else 1 + TokenLength(s[1..])
  }

  /**
   * `str.split()` with no separator: the maximal runs of non-whitespace
   * characters, in order.
   */
  function Split(s: string): (tokens: seq<string>)
    ensures forall k :: 0 <= k < |tokens| ==> |tokens[k]| > 0 && NoSpace(tokens[k])
    decreases |s|
  {
    if |s| == 0 then []
    else if IsSpace(s[0]) then Split(s[1..])
    else
      var n := TokenLength(s);
      [s[..n]] + Split(s[n..])
  }

  /** Whitespace around and between the tokens does not matter. */
  lemma {:induction false} SplitSpaces(w: string, s: string)
    requires forall i :: 0 <= i < |w| ==> IsSpace(w[i])
    ensures Split(w + s) == Split(s)
  {
    if |w| > 0 {
      assert |w + s| > 0 && IsSpace((w + s)[0]);
      assert Split(w + s) == Split((w + s)[1..]);
      assert (w + s)[1..] == w[1..] + s;
      SplitSpaces(w[1..], s);
    } else {
      assert w + s == s;
    }
  }

  /** Trailing whitespace does not add a token. */
  lemma {:induction false} SplitTrailing(s: string, w: string)
    requires forall i :: 0 <= i < |w| ==> IsSpace(w[i])
    ensures Split(s + w) == Split(s)
    decreases |s|
  {
    if |s| == 0 {
      assert s + w == w + "";
      SplitSpaces(w, "");
      assert Split("") == [];
    } else if IsSpace(s[0]) {
      assert (s + w)[1..] == s[1..] + w;
      SplitTrailing(s[1..], w);
    } else {
      var n := TokenLength(s);
      assert s + w == s[..n] + (s[n..] + w);
      TokenLengthOf(s[..n], s[n..] + w);
      assert s[..n] == (s + w)[..n];
      assert (s + w)[n..] == s[n..] + w;
      SplitTrailing(s[n..], w);
    }
  }

  /** Dropping a whitespace prefix does not change the tokens. */
  lemma SplitDropPrefix(s: string, a: nat)
    requires a <= |s| && forall i :: 0 <= i < a ==> IsSpace(s[i])
    ensures Split(s[a..]) == Split(s)
  {
    assert s == s[..a] + s[a..];
    SplitSpaces(s[..a], s[a..]);
  }

  /** Dropping a whitespace suffix does not change the tokens. */
  lemma SplitDropSuffix(s: string, n: nat)
    requires n <= |s| && forall i :: n <= i < |s| ==> IsSpace(s[i])
    ensures Split(s[..n]) == Split(s)
  {
    SpacesFrom(s, n);
    SplitTrailing(s[..n], s[n..]);
    SliceJoin(s, n);
  }

  /** The suffix from `n` of a string whitespace from `n` on is all whitespace. */
  lemma SpacesFrom(s: string, n: nat)
    requires n <= |s| && forall i :: n <= i < |s| ==> IsSpace(s[i])
    ensures forall i :: 0 <= i < |s[n..]| ==> IsSpace(s[n..][i])
  {
    forall i | 0 <= i < |s[n..]|
      ensures IsSpace(s[n..][i])
    {
      assert s[n..][i] == s[n + i];
    }
  }

  /** A sequence is its prefix followed by the rest. */
  lemma SliceJoin<T>(s: seq<T>, n: nat)
    requires n <= |s|
    ensures s[..n] + s[n..] == s
  {
  }

  /** `split()` already ignores the whitespace `strip()` removes. */
  lemma SplitStrip(s: string)
    ensures Split(Strip(s)) == Split(s)
  {
    var a := LeadingSpace(s);
    var r := Strip(s);
    var rest := s[a..];
    SplitDropPrefix(s, a);
    assert r == rest[..|r|];
    assert forall i :: |r| <= i < |rest| ==> rest[i] == s[a + i];
    SplitDropSuffix(rest, |r|);
  }

  /** Splitting two space-free words joined by whitespace gives the two words back. */
  lemma SplitTwo(a: string, w: string, b: string)
    requires |a| > 0 && NoSpace(a) && |b| > 0 && NoSpace(b)
    requires |w| > 0 && forall i :: 0 <= i < |w| ==> IsSpace(w[i])
    ensures Split(a + w + b) == [a, b]
  {
    var s := a + w + b;
    TokenLengthOf(a, w + b);
    assert s == a + (w + b);
    assert s[..|a|] == a && s[|a|..] == w + b;
    SplitSpaces(w, b);
    TokenLengthOf(b, "");
    assert b + "" == b;
    assert b[|b|..] == [];
  }

  /** A space-free word followed by whitespace or the end is exactly one token long. */
  lemma {:induction false} TokenLengthOf(a: string, rest: string)
    requires NoSpace(a) && (|rest| > 0 ==> IsSpace(rest[0]))
    ensures TokenLength(a + rest) == |a|
  {
    if |a| > 0 {
      assert (a + rest)[1..] == a[1..] + rest;
      TokenLengthOf(a[1..], rest);
    }
  }

  /** `str.lower` on one character; only the ASCII capitals are mapped. */
  function LowerChar(c: char): char
  {
    if 'A' <= c <= 'Z' then (c as int - 'A' as int + 'a' as int) as char else c
  }

  function Lower(s: string): (r: string)
    ensures |r| == |s|
    ensures forall i :: 0 <= i < |s| ==> r[i] == LowerChar(s[i])
  {
    seq(|s|, i requires 0 <= i < |s| => LowerChar(s[i]))
  }

  /** Lower-casing a lower-case string changes nothing. */
  lemma LowerIdempotent(s: string)
    ensures Lower(Lower(s)) == Lower(s)
  {
  }

  /** `str.upper` on the ASCII letters, the inverse direction of `LowerChar`. */
  function Upper(s: string): (r: string)
    ensures |r| == |s|
  {
    seq(|s|, i requires 0 <= i < |s| => if 'a' <= s[i] <= 'z' then (s[i] as int - 'a' as int + 'A' as int) as char else s[i])
  }

  /** Lower-casing forgets exactly what upper-casing changed. */
  lemma LowerUpper(s: string)
    ensures Lower(Upper(s)) == Lower(s)
  {
  }

  predicate IsDigit(c: char)
  {
    '0' <= c <= '9'
  }

  predicate AllDigits(s: string)
  {
    forall i :: 0 <= i < |s| ==> IsDigit(s[i])
  }

  /** The value of a string of decimal digits, most significant first. */
  function DigitsValue(s: string): (v: nat)
    requires AllDigits(s)
  {
    if |s| == 0 then 0 else DigitsValue(s[..|s| - 1]) * 10 + (s[|s| - 1] as int - '0' as int)
  }

  /** The shortest decimal form of a natural number. */
  function ShowNat(n: nat): (s: string)
    ensures |s| > 0 && AllDigits(s)
  {
    var d := (n % 10 + '0' as int) as char;
    if n < 10 then [d] else ShowNat(n / 10) + [d]
  }

  /** Reading back the decimal form of a number gives the number. */
  lemma {:induction false} ShowNatRoundTrip(n: nat)
    ensures DigitsValue(ShowNat(n)) == n
  {
    if n >= 10 {
      var s := ShowNat(n);
      assert s[..|s| - 1] == ShowNat(n / 10);
      ShowNatRoundTrip(n / 10);
    }
  }

  predicate IsSign(c: char)
  {
    c == '-' || c == '+'
  }

  /** `int(s)` for decimal strings: optional surrounding whitespace and sign, then at least one digit. */
  function ParseInt(s: string): (r: Option<int>)
    ensures r.Some? ==> |Strip(s)| > 0
    ensures var t := Strip(s);
            r.Some? <==> |t| > 0 && (AllDigits(t) || (IsSign(t[0]) && |t| > 1 && AllDigits(t[1..])))
    ensures var t := Strip(s);
            r.Some? && AllDigits(t) ==> r.value == DigitsValue(t)
    ensures var t := Strip(s);
            r.Some? && t[0] == '+' ==> r.value == DigitsValue(t[1..])
    ensures var t := Strip(s);
            r.Some? && t[0] == '-' ==> r.value == -(DigitsValue(t[1..]) as int)
  {
    var t := Strip(s);
    if |t| > 0 && (t[0] == '-' || t[0] == '+') then
      var ds := t[1..];
      if |ds| > 0 && AllDigits(ds) then
        var v: int := DigitsValue(ds);
        Some(if t[0] == '-' then -v else v)
      else None
    else if |t| > 0 && AllDigits(t) then Some(DigitsValue(t))
    else None
  }

  /** `str(n)` for an integer. */
  function ShowInt(n: int): (s: string)
    ensures |s| > 0 && NoSpace(s)
  {
    if n < 0 then "-" + ShowNat(-n) else ShowNat(n)
  }

  /** Reading back the decimal form of an integer gives the integer. */
  lemma ParseShowInt(n: int)
    ensures ParseInt(ShowInt(n)) == Some(n)
  {
    var s := ShowInt(n);
    StripUnchanged(s);
    if n < 0 {
      assert s[1..] == ShowNat(-n);
      ShowNatRoundTrip(-n);
    } else {
      ShowNatRoundTrip(n);
    }
  }

  /** The index of the first `.` in `s`, or `|s|`. */
  function DotIndex(s: string): (k: nat)
    ensures k <= |s|
    ensures forall i :: 0 <= i < k ==> s[i] != '.'
    ensures k < |s| ==> s[k] == '.'
  {
    if |s| == 0 || s[0] == '.' then 0 else 1 + DotIndex(s[1..])
  }

  /** The value in [0, 1) of the digits after a decimal point, first digit tenths. */
  function Fraction(f: string): (v: real)
    requires AllDigits(f)
    ensures 0.0 <= v < 1.0
  {
    if |f| == 0 then 0.0 else ((f[0] as int - '0' as int) as real + Fraction(f[1..])) / 10.0
  }

  /** The value of the digits before and after a point, when both are digits and not both empty. */
  function DecimalParts(whole: string, frac: string): (r: Option<real>)
    ensures r.Some? <==> AllDigits(whole) && AllDigits(frac) && |whole| + |frac| > 0
    ensures r.Some? ==> r.value >= 0.0
  {
    if AllDigits(whole) && AllDigits(frac) && |whole| + |frac| > 0 then
      Some(DigitsValue(whole) as real + Fraction(frac))
    else None
  }

  /** The value of an unsigned decimal `digits[.digits]` with at least one digit. */
  function UnsignedDecimal(t: string): (r: Option<real>)
    ensures r.Some? ==> r.value >= 0.0
  {
    var k := DotIndex(t);
    DecimalParts(t[..k], if k < |t| then t[k + 1..] else "")
  }

  /** An optionally signed unsigned decimal: the sign applied to the reading of the rest. */
  function SignedDecimal(t: string): (r: Option<real>)
    ensures r.Some? ==> |t| > 0
    ensures |t| == 0 || !IsSign(t[0]) ==> r == UnsignedDecimal(t)
    ensures |t| > 0 && IsSign(t[0]) ==> UnsignedDecimal(t).None?
    ensures |t| > 0 && t[0] == '+' ==> r == UnsignedDecimal(t[1..])
    ensures |t| > 0 && t[0] == '-' ==>
              (r.Some? <==> UnsignedDecimal(t[1..]).Some?) && (r.Some? ==> r.value == -UnsignedDecimal(t[1..]).value)
  {
    if |t| > 0 && IsSign(t[0]) then
      SignedNotUnsigned(t);
      match UnsignedDecimal(t[1..])
      case Some(v) => Some(if t[0] == '-' then -v else v)
      case None => None
    else
      EmptyNotUnsigned(t);
      UnsignedDecimal(t)
  }

  /**
   * `float(s)` for plain decimals: optional surrounding whitespace and sign,
   * digits with at most one point, at least one digit.
   */
  function ParseDecimal(s: string): (r: Option<real>)
    ensures r.Some? ==> |Strip(s)| > 0
    ensures var t := Strip(s);
            |t| == 0 || !IsSign(t[0]) ==> r == UnsignedDecimal(t)
    ensures var t := Strip(s);
            |t| > 0 && t[0] == '+' ==> r == UnsignedDecimal(t[1..])
    ensures var t := Strip(s);
            |t| > 0 && t[0] == '-' ==>
              (r.Some? <==> UnsignedDecimal(t[1..]).Some?) && (r.Some? ==> r.value == -UnsignedDecimal(t[1..]).value)
  {
    SignedDecimal(Strip(s))
  }

  /** The empty string is no decimal. */
  lemma EmptyNotUnsigned(t: string)
    ensures |t| == 0 ==> UnsignedDecimal(t).None?
  {
  }

  /** A sign is not part of an unsigned decimal. */
  lemma SignedNotUnsigned(t: string)
    requires |t| > 0 && IsSign(t[0])
    ensures UnsignedDecimal(t).None?
  {
    var k := DotIndex(t);
    assert k > 0 && t[..k][0] == t[0];
  }

  /** A string of digits alone reads as its value. */
  lemma UnsignedWhole(t: string)
    requires |t| > 0 && AllDigits(t)
    ensures UnsignedDecimal(t) == Some(DigitsValue(t) as real)
  {
    DotIndexNone(t);
    assert t[..|t|] == t;
  }

  /** A string of digits has no point. */
  lemma {:induction false} DotIndexNone(t: string)
    requires AllDigits(t)
    ensures DotIndex(t) == |t|
  {
    if |t| > 0 {
      DotIndexNone(t[1..]);
    }
  }

  /** Digits, a point and digits read as the whole part plus the fraction. */
  lemma UnsignedWithPoint(w: string, f: string)
    requires AllDigits(w) && AllDigits(f) && |w| + |f| > 0
    ensures UnsignedDecimal(w + "." + f) == DecimalParts(w, f)
    ensures UnsignedDecimal(w + "." + f) == Some(DigitsValue(w) as real + Fraction(f))
  {
    SplitAtPoint(w, f);
    UnsignedAtPoint(w + "." + f, w, f);
  }

  /** Cutting `w + "." + f` around its first point gives back both sides. */
  lemma SplitAtPoint(w: string, f: string)
    requires AllDigits(w)
    ensures DotIndex(w + "." + f) == |w|
    ensures (w + "." + f)[..|w|] == w
    ensures (w + "." + f)[|w| + 1..] == f
  {
    assert w + "." + f == w + ("." + f);
    DotIndexAt(w, "." + f);
  }

  /** A string whose first point follows `w` reads as `w` and what follows the point. */
  lemma UnsignedAtPoint(t: string, w: string, f: string)
    requires DotIndex(t) == |w| < |t|
    requires t[..|w|] == w && t[|w| + 1..] == f
    ensures UnsignedDecimal(t) == DecimalParts(w, f)
  {
  }

  /** The first point of `w + rest` is the one at `rest[0]` when `w` has none. */
  lemma {:induction false} DotIndexAt(w: string, rest: string)
    requires AllDigits(w) && |rest| > 0 && rest[0] == '.'
    ensures DotIndex(w + rest) == |w|
  {
    if |w| > 0 {
      assert (w + rest)[1..] == w[1..] + rest;
      DotIndexAt(w[1..], rest);
    }
  }

  /** Reading back the decimal form of a natural number as a decimal gives the number. */
  lemma ParseShowNatDecimal(n: nat)
    ensures ParseDecimal(ShowNat(n)) == Some(n as real)
  {
    var s := ShowNat(n);
    StripUnchanged(s);
    UnsignedWhole(s);
    ShowNatRoundTrip(n);
  }

  /** `str.replace(c, "")`: every occurrence of `c` removed. */
  function RemoveChar(s: string, c: char): (r: string)
    ensures |r| <= |s|
    ensures c !in r
    ensures c !in s ==> r == s
  {
    if |s| == 0 then []
    else
      assert s == [s[0]] + s[1..];
      if s[0] == c then RemoveChar(s[1..], c)
      else [s[0]] + RemoveChar(s[1..], c)
  }

  /** Removing a character keeps every other character, as often as it occurred. */
  lemma {:induction false} RemoveCharKeepsOthers(s: string, c: char)
    ensures forall x :: x != c ==> multiset(RemoveChar(s, c))[x] == multiset(s)[x]
  {
    if |s| > 0 {
      RemoveCharKeepsOthers(s[1..], c);
      assert s == [s[0]] + s[1..];
      assert multiset(s) == multiset([s[0]]) + multiset(s[1..]);
      if s[0] != c {
        assert RemoveChar(s, c) == [s[0]] + RemoveChar(s[1..], c);
        assert multiset(RemoveChar(s, c)) == multiset([s[0]]) + multiset(RemoveChar(s[1..], c));
      }
    }
  }

  /** Removing a character from a concatenation removes it from each part. */
  lemma {:induction false} RemoveCharAppend(a: string, b: string, c: char)
    ensures RemoveChar(a + b, c) == RemoveChar(a, c) + RemoveChar(b, c)
  {
    if |a| > 0 {
      assert (a + b)[1..] == a[1..] + b;
      assert (a + b)[0] == a[0];
      RemoveCharAppend(a[1..], b, c);
    } else {
      assert a + b == b;
    }
  }
}

=== FILE: tsp.dfy ===
/**
 * Tour support: the symmetric cost matrix of a list of waypoints, the
 * complete graph over its indices, and the cost of a closed tour. The
 * Christofides tour itself comes from networkx and is a parameter here.
 */
module Tsp {
  import opened Wrappers
  import opened Geometry

  type CostMatrix = seq<seq<real>>

  /** An `n` x `n` matrix. */
  predicate Square(m: CostMatrix, n: nat)
  {
    |m| == n && forall i :: 0 <= i < n ==> |m[i]| == n
  }

  /**
   * The distance of the metric named `metric` between two waypoints:
   * scipy's `euclidean` through the injected square root, or the injected
   * geodesic distance in metres; any other name is a ValueError.
   */
  function PairDistance(metric: string, sqrt: real -> real, geodesic: (Point, Point) -> real,
                        a: Point, b: Point): (r: Result<real>)
    ensures r.Err? <==> metric != "euclidean" && metric != "geodesic"
  {
    if metric == "euclidean" then Ok(Dist(sqrt, a, b))
    else if metric == "geodesic" then Ok(geodesic(a, b))
    else Err(ValueError("Unsupported metric"))
  }

  predicate Supported(metric: string)
  {
    metric == "euclidean" || metric == "geodesic"
  }

  /** The value the matrix holds at `(i, j)`: the distance from the later waypoint to the earlier. */
  function Entry(metric: string, sqrt: real -> real, geodesic: (Point, Point) -> real,
                 w: seq<Point>, i: nat, j: nat): real
    requires i < |w| && j < |w| && (i != j ==> Supported(metric))
  {
    if i == j then 0.0
    else if i > j then PairDistance(metric, sqrt, geodesic, w[i], w[j]).value
    else PairDistance(metric, sqrt, geodesic, w[j], w[i]).value
  }

  /** The whole matrix of `Entry` values: what a successful `compute_cost_matrix` returns. */
  function CostMatrixOf(w: seq<Point>, metric: string, sqrt: real -> real,
                        geodesic: (Point, Point) -> real): (m: CostMatrix)
    requires |w| < 2 || Supported(metric)
    ensures Square(m, |w|)
    ensures forall i, j :: 0 <= i < |w| && 0 <= j < |w| ==> m[i][j] == Entry(metric, sqrt, geodesic, w, i, j)
  {
    seq(|w|, i requires 0 <= i < |w| =>
      seq(|w|, j requires 0 <= j < |w| => Entry(metric, sqrt, geodesic, w, i, j)))
  }

  /** Whether the loops have written cell `(a, b)` before reaching `i`, `j`. */
  predicate Written(a: nat, b: nat, i: nat, j: nat)
  {
    var hi := if a > b then a else b;
    var lo := if a > b then b else a;
    lo < hi && (hi < i || (hi == i && lo < j))
  }

  /** Writing cell `(i, j)` and its mirror into `m`. */
  function SetPair(m: CostMatrix, i: nat, j: nat, d: real): (r: CostMatrix)
    requires i < |m| && j < |m| && j < |m[i]| && i < |m[j]|
    ensures |r| == |m| && forall k :: 0 <= k < |m| ==> |r[k]| == |m[k]|
    ensures r[i][j] == d && r[j][i] == d
    ensures forall a, b :: 0 <= a < |m| && 0 <= b < |m[a]| && (a, b) != (i, j) && (a, b) != (j, i) ==>
              r[a][b] == m[a][b]
  {
    var m1 := m[i := m[i][j := d]];
    m1[j := m1[j][i := d]]
  }

  /**
   * `compute_cost_matrix`: an `n` x `n` matrix of zeros filled below and
   * above the diagonal. An unsupported metric raises on the first pair, so
   * only when there are at least two waypoints.
   */
  method ComputeCostMatrix(w: seq<Point>, metric: string, sqrt: real -> real,
                           geodesic: (Point, Point) -> real) returns (r: Result<CostMatrix>)
    ensures r.Err? <==> |w| >= 2 && !Supported(metric)
    ensures r.Ok? ==> Square(r.value, |w|)
    ensures r.Ok? ==> forall i :: 0 <= i < |w| ==> r.value[i][i] == 0.0
    ensures r.Ok? ==> forall i, j :: 0 <= i < |w| && 0 <= j < |w| && i != j ==>
              r.value[i][j] == Entry(metric, sqrt, geodesic, w, i, j)
    ensures r.Ok? ==> r.value == CostMatrixOf(w, metric, sqrt, geodesic)
  {
    var n := |w|;
    var m: CostMatrix := seq(n, _ => seq(n, _ => 0.0));
    var i := 0;
    while i < n
      invariant 0 <= i <= n
      invariant Square(m, n)
      invariant !Supported(metric) ==> i <= 1
      invariant forall a, b :: 0 <= a < n && 0 <= b < n ==>
                  m[a][b] == (if Written(a, b, i, 0) then Entry(metric, sqrt, geodesic, w, a, b) else 0.0)
    {
      var j := 0;
      while j < i
        invariant 0 <= j <= i
        invariant Square(m, n)
        invariant !Supported(metric) ==> j == 0
        invariant forall a, b :: 0 <= a < n && 0 <= b < n ==>
                    m[a][b] == (if Written(a, b, i, j) then Entry(metric, sqrt, geodesic, w, a, b) else 0.0)
      {
        var d := PairDistance(metric, sqrt, geodesic, w[i], w[j]);
        if d.Err? {
          return Err(d.error);
        }
        m := SetPair(m, i, j, d.value);
        j := j + 1;
      }
      i := i + 1;
    }
    var full := CostMatrixOf(w, metric, sqrt, geodesic);
    forall a | 0 <= a < n ensures m[a] == full[a] {
      assert forall b :: 0 <= b < n ==> m[a][b] == full[a][b];
    }
    return Ok(m);
  }

  /** The matrix is symmetric with a zero diagonal: the entry formula says so for every pair. */
  lemma EntrySymmetric(metric: string, sqrt: real -> real, geodesic: (Point, Point) -> real,
                       w: seq<Point>, i: nat, j: nat)
    requires Supported(metric) && i < |w| && j < |w|
    ensures Entry(metric, sqrt, geodesic, w, i, j) == Entry(metric, sqrt, geodesic, w, j, i)
    ensures Entry(metric, sqrt, geodesic, w, i, i) == 0.0
  {
  }

  /** One undirected edge `u - v` with `u > v` and its weight. */
  datatype WeightedEdge = WeightedEdge(u: nat, v: nat, weight: real)

  /** Strict lexicographic order on the `(u, v)` pairs of edges. */
  predicate PairBefore(e: WeightedEdge, f: WeightedEdge)
  {
    e.u < f.u || (e.u == f.u && e.v < f.v)
  }

  /** The edges `add_edge` is called with for row `i`: `(i, j)` for every `j < i`. */
  function RowEdges(m: CostMatrix, i: nat): (row: seq<WeightedEdge>)
    requires i < |m| && |m[i]| == |m|
    ensures |row| == i
    ensures forall j :: 0 <= j < i ==> row[j] == WeightedEdge(i, j, m[i][j])
  {
    seq(i, j requires 0 <= j < i => WeightedEdge(i, j, m[i][j]))
  }

  /** The edges `add_edge` is called with for rows `0..i`, in call order. */
  function GraphEdges(m: CostMatrix, i: nat): seq<WeightedEdge>
    requires Square(m, |m|) && i <= |m|
  {
    if i == 0 then [] else GraphEdges(m, i - 1) + RowEdges(m, i - 1)
  }

  /** Every edge joins a later node to an earlier one with the matrix weight, in strictly increasing pair order. */
  lemma {:induction false} GraphEdgesOrdered(m: CostMatrix, i: nat)
    requires Square(m, |m|) && i <= |m|
    ensures forall k :: 0 <= k < |GraphEdges(m, i)| ==>
              GraphEdges(m, i)[k].v < GraphEdges(m, i)[k].u < i
              && GraphEdges(m, i)[k].weight == m[GraphEdges(m, i)[k].u][GraphEdges(m, i)[k].v]
    ensures forall k1, k2 :: 0 <= k1 < k2 < |GraphEdges(m, i)| ==> PairBefore(GraphEdges(m, i)[k1], GraphEdges(m, i)[k2])
  {
    if i > 0 {
      GraphEdgesOrdered(m, i - 1);
      var before := GraphEdges(m, i - 1);
      var row := RowEdges(m, i - 1);
      var r := before + row;
      assert GraphEdges(m, i) == r;
      assert forall k :: |before| <= k < |r| ==> r[k] == row[k - |before|];
      forall k1, k2 | 0 <= k1 < k2 < |r|
        ensures PairBefore(r[k1], r[k2])
      {
        if k2 < |before| {
          assert r[k1] == before[k1] && r[k2] == before[k2];
        } else if k1 < |before| {
          assert r[k1] == before[k1] && before[k1].u < i - 1 && r[k2].u == i - 1;
        }
      }
    }
  }

  /** Every pair `a > b` below `i` has its edge. */
  lemma {:induction false} GraphEdgesComplete(m: CostMatrix, i: nat)
    requires Square(m, |m|) && i <= |m|
    ensures forall a, b :: 0 <= b < a < i ==> WeightedEdge(a, b, m[a][b]) in GraphEdges(m, i)
  {
    if i > 0 {
      GraphEdgesComplete(m, i - 1);
      var before := GraphEdges(m, i - 1);
      var row := RowEdges(m, i - 1);
      assert GraphEdges(m, i) == before + row;
      forall a, b | 0 <= b < a < i
        ensures WeightedEdge(a, b, m[a][b]) in before + row
      {
        if a < i - 1 {
          assert WeightedEdge(a, b, m[a][b]) in before;
        } else {
          assert row[b] == WeightedEdge(a, b, m[a][b]);
        }
      }
    }
  }

  /**
   * `build_graph_from_matrix`: one edge per unordered pair `i > j` weighted
   * `cost[i][j]`, none from a node to itself, and none twice.
   */
  function BuildGraph(m: CostMatrix): (r: seq<WeightedEdge>)
    requires Square(m, |m|)
    ensures forall k :: 0 <= k < |r| ==> r[k].v < r[k].u < |m| && r[k].weight == m[r[k].u][r[k].v]
    ensures forall a, b :: 0 <= b < a < |m| ==> WeightedEdge(a, b, m[a][b]) in r
  {
    GraphEdgesOrdered(m, |m|);
    GraphEdgesComplete(m, |m|);
    GraphEdges(m, |m|)
  }

  /** No two edges of the graph join the same pair. */
  lemma GraphEdgesDistinct(m: CostMatrix, k1: nat, k2: nat)
    requires Square(m, |m|) && k1 < k2 < |BuildGraph(m)|
    ensures (BuildGraph(m)[k1].u, BuildGraph(m)[k1].v) != (BuildGraph(m)[k2].u, BuildGraph(m)[k2].v)
  {
    GraphEdgesOrdered(m, |m|);
  }

  /** A tour's node indices all address the matrix. */
  predicate TourOver(m: CostMatrix, t: seq<nat>)
  {
    forall k :: 0 <= k < |t| ==> t[k] < |m| && t[k] < |m[t[k]]|
  }

  /** The sum over consecutive tour entries of `cost[t[i]][t[i + 1]]`. */
  function OpenCost(m: CostMatrix, t: seq<nat>): real
    requires TourOver(m, t) && Square(m, |m|)
  {
    if |t| <= 1 then 0.0 else m[t[0]][t[1]] + OpenCost(m, t[1..])
  }

  /** The closed tour cost: the consecutive sum plus the edge from the last entry back to the first. */
  function CycleCost(m: CostMatrix, t: seq<nat>): real
    requires TourOver(m, t) && Square(m, |m|) && |t| > 0
  {
    OpenCost(m, t) + m[t[|t| - 1]][t[0]]
  }

  /**
   * `solve_tsp_christofides` given the tour networkx returns: the tour and
   * its closed cost. An empty tour fails at `tsp_tour[-1]`.
   */
  function SolveTsp(m: CostMatrix, tour: seq<nat>): (r: Result<(seq<nat>, real)>)
    requires Square(m, |m|) && TourOver(m, tour)
    ensures r.Err? <==> |tour| == 0
    ensures r.Ok? ==> r.value.0 == tour && r.value.1 == CycleCost(m, tour)
  {
    if |tour| == 0 then Err(IndexError) else Ok((tour, CycleCost(m, tour)))
  }

  /** Appending one entry adds exactly the new last edge to the consecutive sum. */
  lemma {:induction false} OpenCostAppend(m: CostMatrix, t: seq<nat>, x: nat)
    requires Square(m, |m|) && TourOver(m, t) && |t| > 0 && x < |m|
    ensures TourOver(m, t + [x])
    ensures OpenCost(m, t + [x]) == OpenCost(m, t) + m[t[|t| - 1]][x]
  {
    if |t| > 1 {
      assert (t + [x])[1..] == t[1..] + [x];
      OpenCostAppend(m, t[1..], x);
    }
  }

  /** The closed cost does not depend on which entry the tour starts from. */
  lemma CycleCostRotation(m: CostMatrix, t: seq<nat>)
    requires Square(m, |m|) && TourOver(m, t) && |t| > 0
    ensures TourOver(m, t[1..] + [t[0]])
    ensures CycleCost(m, t[1..] + [t[0]]) == CycleCost(m, t)
  {
    if |t| > 1 {
      OpenCostAppend(m, t[1..], t[0]);
    }
  }

  /** With non-negative entries the tour cost is non-negative. */
  lemma {:induction false} OpenCostNonNegative(m: CostMatrix, t: seq<nat>)
    requires Square(m, |m|) && TourOver(m, t)
    requires forall i, j :: 0 <= i < |m| && 0 <= j < |m| ==> m[i][j] >= 0.0
    ensures OpenCost(m, t) >= 0.0
  {
    if |t| > 1 {
      OpenCostNonNegative(m, t[1..]);
    }
  }

  lemma CycleCostNonNegative(m: CostMatrix, t: seq<nat>)
    requires Square(m, |m|) && TourOver(m, t) && |t| > 0
    requires forall i, j :: 0 <= i < |m| && 0 <= j < |m| ==> m[i][j] >= 0.0
    ensures SolveTsp(m, t).Ok? && SolveTsp(m, t).value.1 >= 0.0
  {
    OpenCostNonNegative(m, t);
  }
}

=== FILE: world_data.dfy ===
/**
 * `WorldDataBuilder`: from the DEM and the building footprints to the
 * flight waypoints, one per distinct raster cell among the roughest
 * buildings, and their reordering along a travelling-salesman tour. File
 * access, the Overpass query, the roughness computation and Christofides
 * are parameters.
 */
module WorldData {
  import opened Wrappers
  import opened Geometry
  import opened Grid
  import Numeric
  import opened GeoUtils
  import Tsp

  /** At most this many ranked buildings, and this many deduplicated ones, become waypoints. */
  const MaxWaypoints: nat := 80

  /** What `generate_waypoints` needs from the builder: the box `generate_dem` set, whether the DEM file exists, the configuration. */
  datatype Builder = Builder(bbox: Option<Bbox>, demExists: bool, config: Config)

  /**
   * The deduplication key of a centroid: the inverse transform, floored,
   * then clamped into the DEM's shape. The source names the outputs
   * (row, col) in the order the transform returns them; modelled as written.
   */
  function KeyCell(inv: Affine, rows: nat, cols: nat, c: Point): (k: Cell)
    ensures rows >= 1 ==> 0 <= k.row < rows
    ensures cols >= 1 ==> 0 <= k.col < cols
  {
    var p := Apply(inv, c);
    Cell(Numeric.Clamp(p.x.Floor, 0, rows - 1), Numeric.Clamp(p.y.Floor, 0, cols - 1))
  }

  /** No earlier entry has the same key. */
  predicate IsFirst(keys: seq<Cell>, i: nat)
    requires i < |keys|
  {
    forall j :: 0 <= j < i ==> keys[j] != keys[i]
  }

  /** Every key has a first occurrence, at or before any occurrence. */
  lemma {:induction false} FirstOccurrence(keys: seq<Cell>, i: nat) returns (j: nat)
    requires i < |keys|
    ensures j <= i && keys[j] == keys[i] && IsFirst(keys, j)
  {
    if IsFirst(keys, i) {
      j := i;
    } else {
      var e :| 0 <= e < i && keys[e] == keys[i];
      j := FirstOccurrence(keys, e);
    }
  }

  /** The key of every ranked polygon, in ranked order. */
  function KeysOf<P>(ranked: seq<P>, centroid: P -> Point, inv: Affine, rows: nat, cols: nat): (keys: seq<Cell>)
    ensures |keys| == |ranked|
    ensures forall i :: 0 <= i < |ranked| ==> keys[i] == KeyCell(inv, rows, cols, centroid(ranked[i]))
  {
    seq(|ranked|, i requires 0 <= i < |ranked| => KeyCell(inv, rows, cols, centroid(ranked[i])))
  }

  /**
   * `deduped` is `ranked` at the strictly increasing indices `picked`, and
   * those are exactly the first occurrences of their keys.
   */
  ghost predicate Deduplicated<P>(ranked: seq<P>, keys: seq<Cell>, deduped: seq<P>, picked: seq<nat>)
    requires |keys| == |ranked|
  {
    |deduped| == |picked|
    && (forall k :: 0 <= k < |picked| ==> picked[k] < |ranked| && deduped[k] == ranked[picked[k]])
    && (forall k, l :: 0 <= k < l < |picked| ==> picked[k] < picked[l])
    && (forall i :: 0 <= i < |ranked| ==> (i in picked <==> IsFirst(keys, i)))
  }

  /** A non-empty list holds its first entry. */
  lemma HeadIsMember(s: seq<nat>)
    ensures |s| > 0 ==> s[0] in s
  {
  }

  /** Strictly increasing indices. */
  predicate Increasing(s: seq<nat>)
  {
    forall k, l :: 0 <= k < l < |s| ==> s[k] < s[l]
  }

  /** The first entry of an increasing list is its smallest member. */
  lemma HeadIsLeast(s: seq<nat>, x: nat)
    requires Increasing(s) && x in s
    ensures s[0] <= x
  {
    var k :| 0 <= k < |s| && s[k] == x;
    assert k == 0 || s[0] < s[k];
  }

  /** Dropping the head of an increasing list removes exactly that member, and the rest still increases. */
  lemma IncreasingTail(s: seq<nat>, x: nat)
    requires Increasing(s) && |s| > 0
    ensures Increasing(s[1..])
    ensures x in s[1..] <==> x in s && x != s[0]
  {
    if x in s && x != s[0] {
      var k :| 0 <= k < |s| && s[k] == x;
      assert s[1..][k - 1] == x;
    }
    if x in s[1..] {
      var k :| 0 <= k < |s[1..]| && s[1..][k] == x;
      assert s[0] < s[k + 1];
    }
  }

  /** Two strictly increasing index lists with the same members are the same list. */
  lemma {:induction false} IncreasingSameMembers(a: seq<nat>, b: seq<nat>)
    requires Increasing(a) && Increasing(b)
    requires forall x :: x in a <==> x in b
    ensures a == b
  {
    if |a| == 0 {
      HeadIsMember(b);
    } else {
      HeadIsMember(a);
      HeadIsMember(b);
      HeadIsLeast(b, a[0]);
      HeadIsLeast(a, b[0]);
      forall x
        ensures x in a[1..] <==> x in b[1..]
      {
        IncreasingTail(a, x);
        IncreasingTail(b, x);
      }
      IncreasingTail(a, 0);
      IncreasingTail(b, 0);
      IncreasingSameMembers(a[1..], b[1..]);
      assert a == [a[0]] + a[1..] && b == [b[0]] + b[1..];
    }
  }

  /** The deduplication has one outcome: the first occurrences, in ranked order, fix both lists. */
  lemma DedupUnique<P>(ranked: seq<P>, keys: seq<Cell>, d1: seq<P>, p1: seq<nat>, d2: seq<P>, p2: seq<nat>)
    requires |keys| == |ranked|
    requires Deduplicated(ranked, keys, d1, p1) && Deduplicated(ranked, keys, d2, p2)
    ensures p1 == p2 && d1 == d2
  {
    forall x
      ensures x in p1 <==> x in p2
    {
      if x in p1 {
        var k :| 0 <= k < |p1| && p1[k] == x;
        assert x < |ranked|;
      }
      if x in p2 {
        var k :| 0 <= k < |p2| && p2[k] == x;
        assert x < |ranked|;
      }
    }
    IncreasingSameMembers(p1, p2);
  }

  /**
   * The deduplication loop of `generate_waypoints`: keep a polygon when
   * its key has not been seen, in ranked order. A degenerate transform
   * makes every polygon raise, and the loop skips them all.
   */
  method Dedup<P>(ranked: seq<P>, centroid: P -> Point, t: Affine, rows: nat, cols: nat)
    returns (deduped: seq<P>, picked: seq<nat>)
    ensures |deduped| == |picked|
    ensures forall k :: 0 <= k < |picked| ==> picked[k] < |ranked| && deduped[k] == ranked[picked[k]]
    ensures forall k, l :: 0 <= k < l < |picked| ==> picked[k] < picked[l]
    ensures Determinant(t) == 0.0 ==> picked == [] && deduped == []
    ensures Determinant(t) != 0.0 ==>
              Deduplicated(ranked, KeysOf(ranked, centroid, Invert(t), rows, cols), deduped, picked)
  {
    if Determinant(t) == 0.0 {
      return [], [];
    }
    var inv := Invert(t);
    var keys := KeysOf(ranked, centroid, inv, rows, cols);
    var seen: set<Cell> := {};
    deduped, picked := [], [];
    var i := 0;
    while i < |ranked|
      invariant 0 <= i <= |ranked|
      invariant seen == set j | 0 <= j < i :: keys[j]
      invariant |deduped| == |picked|
      invariant forall k :: 0 <= k < |picked| ==> picked[k] < i && deduped[k] == ranked[picked[k]]
      invariant forall k, l :: 0 <= k < l < |picked| ==> picked[k] < picked[l]
      invariant forall j :: 0 <= j < i ==> (j in picked <==> IsFirst(keys, j))
    {
      var key := keys[i];
      if key !in seen {
        seen := seen + {key};
        deduped := deduped + [ranked[i]];
        picked := picked + [i];
      } else {
        assert i !in picked;
      }
      i := i + 1;
    }
  }

  /** The kept polygons have pairwise different keys, and every key seen is kept once. */
  lemma DedupKeys(keys: seq<Cell>, picked: seq<nat>)
    requires forall k :: 0 <= k < |picked| ==> picked[k] < |keys|
    requires forall k, l :: 0 <= k < l < |picked| ==> picked[k] < picked[l]
    requires forall i :: 0 <= i < |keys| ==> (i in picked <==> IsFirst(keys, i))
    ensures forall k, l :: 0 <= k < l < |picked| ==> keys[picked[k]] != keys[picked[l]]
    ensures forall i :: 0 <= i < |keys| ==> KeptAtOrBefore(keys, picked, i)
  {
    forall k, l | 0 <= k < l < |picked|
      ensures keys[picked[k]] != keys[picked[l]]
    {
      assert picked[l] in picked;
    }
    forall i | 0 <= i < |keys|
      ensures KeptAtOrBefore(keys, picked, i)
    {
      var j := FirstOccurrence(keys, i);
      assert j in picked;
      var k :| 0 <= k < |picked| && picked[k] == j;
      assert picked[k] <= i && keys[picked[k]] == keys[i];
    }
  }

  /** Some kept entry, at or before `i`, has the key of entry `i`. */
  predicate KeptAtOrBefore(keys: seq<Cell>, picked: seq<nat>, i: nat)
    requires i < |keys|
    requires forall k :: 0 <= k < |picked| ==> picked[k] < |keys|
  {
    exists k :: 0 <= k < |picked| && picked[k] <= i && keys[picked[k]] == keys[i]
  }

  /**
   * `generate_waypoints`, without the file writes: check the DEM is there,
   * rank the buildings by the roughness under them, keep one per DEM cell,
   * read the `waypoints` section (its clearance is never used), turn the
   * first 80 kept buildings into waypoints, and look up the output path:
   * without a (truthy) `output_json` the `paths` section must be there.
   */
  method GenerateWaypoints<P>(b: Builder, dem: Matrix<real>, transform: Affine, terrain: Matrix<real>,
                              buildings: seq<P>, centroid: P -> Point, outputGiven: bool)
    returns (r: Result<seq<Waypoint>>, deduped: seq<P>, picked: seq<nat>)
    requires Rectangular(dem) && Rectangular(terrain)
    ensures b.bbox.None? || !b.demExists ==> r == Err(RuntimeError("DEM not ready. Run generate_dem first."))
    ensures b.bbox.Some? && b.demExists && RankBuildings(buildings, centroid, terrain, transform, MaxWaypoints).Err? ==>
              r == Err(RankBuildings(buildings, centroid, terrain, transform, MaxWaypoints).error)
    ensures (b.bbox.Some? && b.demExists && RankBuildings(buildings, centroid, terrain, transform, MaxWaypoints).Ok?
             && "waypoints" !in b.config) ==> r == Err(KeyError("waypoints"))
    ensures (b.bbox.Some? && b.demExists && RankBuildings(buildings, centroid, terrain, transform, MaxWaypoints).Ok?
             && "waypoints" in b.config && "simulation" !in b.config) ==> r == Err(KeyError("simulation"))
    ensures (b.bbox.Some? && b.demExists && RankBuildings(buildings, centroid, terrain, transform, MaxWaypoints).Ok?
             && "waypoints" in b.config && "simulation" in b.config && !outputGiven && "paths" !in b.config) ==>
              r == Err(KeyError("paths"))
    ensures r.Ok? <==> b.bbox.Some? && b.demExists && RankBuildings(buildings, centroid, terrain, transform, MaxWaypoints).Ok?
                       && "waypoints" in b.config && "simulation" in b.config && (outputGiven || "paths" in b.config)
    ensures r.Ok? ==> |r.value| == if |deduped| < MaxWaypoints then |deduped| else MaxWaypoints
    ensures r.Ok? ==> forall k :: 0 <= k < |r.value| ==>
              r.value[k] == Waypoint(centroid(deduped[k]).y, centroid(deduped[k]).x,
                                     Setting(b.config, "simulation", "altitude_clearance", 20.0))
    ensures r.Ok? && Determinant(transform) != 0.0 ==>
              var ranked := RankBuildings(buildings, centroid, terrain, transform, MaxWaypoints).value;
              Deduplicated(ranked, KeysOf(ranked, centroid, Invert(transform), Rows(dem), Cols(dem)), deduped, picked)
    ensures r.Ok? && Determinant(transform) == 0.0 ==> |buildings| == 0 && deduped == [] && r.value == []
    ensures r.Ok? ==> forall k :: 0 <= k < |deduped| ==> deduped[k] in buildings
  {
    deduped, picked := [], [];
    if b.bbox.None? || !b.demExists {
      return Err(RuntimeError("DEM not ready. Run generate_dem first.")), deduped, picked;
    }
    var ranked := RankBuildings(buildings, centroid, terrain, transform, MaxWaypoints);
    if ranked.Err? {
      return Err(ranked.error), deduped, picked;
    }
    deduped, picked := Dedup(ranked.value, centroid, transform, Rows(dem), Cols(dem));
    if "waypoints" !in b.config {
      return Err(KeyError("waypoints")), deduped, picked;
    }
    r := FlightWaypoints(Take(deduped, MaxWaypoints), centroid, b.config);
    if r.Ok? && !outputGiven && "paths" !in b.config {
      r := Err(KeyError("paths"));
    }
    if |buildings| > 0 {
      var rs := RankedScores(buildings, centroid, terrain, Invert(transform));
      forall k | 0 <= k < |deduped|
        ensures deduped[k] in buildings
      {
        assert rs[picked[k]] in rs;
      }
    }
  }

  /** The `(lat, lon)` pairs handed to the cost matrix, as points with `x` the latitude. */
  function TspCoords(waypoints: seq<Waypoint>): (cs: seq<Point>)
    ensures |cs| == |waypoints|
    ensures forall i :: 0 <= i < |waypoints| ==> cs[i] == Point(waypoints[i].lat, waypoints[i].lon)
  {
    seq(|waypoints|, i requires 0 <= i < |waypoints| => Point(waypoints[i].lat, waypoints[i].lon))
  }

  /** The waypoints in tour order: position `k` holds the waypoint the tour names `k`-th. */
  function Reorder(waypoints: seq<Waypoint>, tour: seq<nat>): (r: seq<Waypoint>)
    requires forall k :: 0 <= k < |tour| ==> tour[k] < |waypoints|
    ensures |r| == |tour|
    ensures forall k :: 0 <= k < |tour| ==> r[k] == waypoints[tour[k]]
  {
    seq(|tour|, k requires 0 <= k < |tour| => waypoints[tour[k]])
  }

  /** A tour that visits every index makes the reordering hold exactly the original waypoints. */
  lemma ReorderVisitsAll(waypoints: seq<Waypoint>, tour: seq<nat>)
    requires forall k :: 0 <= k < |tour| ==> tour[k] < |waypoints|
    requires forall i :: 0 <= i < |waypoints| ==> i in tour
    ensures forall w :: w in Reorder(waypoints, tour) <==> w in waypoints
  {
    var r := Reorder(waypoints, tour);
    forall w | w in waypoints
      ensures w in r
    {
      var i :| 0 <= i < |waypoints| && waypoints[i] == w;
      assert i in tour;
      var k :| 0 <= k < |tour| && tour[k] == i;
      assert r[k] == w;
    }
  }

  /** The tour `christofides` returns on the cost matrix of the waypoints' `(lat, lon)` pairs. */
  function ChristofidesTour(waypoints: seq<Waypoint>, metric: string, sqrt: real -> real,
                            geodesic: (Point, Point) -> real, christofides: Tsp.CostMatrix -> seq<nat>): seq<nat>
    requires |waypoints| < 2 || Tsp.Supported(metric)
  {
    christofides(Tsp.CostMatrixOf(TspCoords(waypoints), metric, sqrt, geodesic))
  }

  /** The cost matrix can be built, and the tour over it is non-empty and addresses only waypoints. */
  predicate TourFound(waypoints: seq<Waypoint>, metric: string, sqrt: real -> real,
                      geodesic: (Point, Point) -> real, christofides: Tsp.CostMatrix -> seq<nat>)
  {
    (|waypoints| < 2 || Tsp.Supported(metric))
    && var tour := ChristofidesTour(waypoints, metric, sqrt, geodesic, christofides);
       |tour| > 0 && forall k :: 0 <= k < |tour| ==> tour[k] < |waypoints|
  }

  /**
   * `generate_ordered_waypoints` after the waypoints are made: the cost
   * matrix over their `(lat, lon)`, the tour `christofides` returns, its
   * cost, and the waypoints in tour order. A tour index outside the matrix
   * is the IndexError of the cost sum, an empty tour the IndexError of
   * `tsp_tour[-1]`.
   */
  method GenerateOrderedWaypoints(waypoints: seq<Waypoint>, metric: string, sqrt: real -> real,
                                  geodesic: (Point, Point) -> real, christofides: Tsp.CostMatrix -> seq<nat>)
    returns (r: Result<seq<Waypoint>>)
    ensures |waypoints| >= 2 && !Tsp.Supported(metric) ==> r.Err?
    ensures r.Ok? <==> TourFound(waypoints, metric, sqrt, geodesic, christofides)
    ensures r.Ok? ==> (TourFound(waypoints, metric, sqrt, geodesic, christofides) &&
                       r.value == Reorder(waypoints, ChristofidesTour(waypoints, metric, sqrt, geodesic, christofides)))
    ensures !r.Ok? ==> r.Err? && (r.error == IndexError || (|waypoints| >= 2 && !Tsp.Supported(metric)))
  {
    var m := Tsp.ComputeCostMatrix(TspCoords(waypoints), metric, sqrt, geodesic);
    if m.Err? {
      return Err(m.error);
    }
    var tour := christofides(m.value);
    if !Tsp.TourOver(m.value, tour) {
      return Err(IndexError);
    }
    var solved := Tsp.SolveTsp(m.value, tour);
    if solved.Err? {
      return Err(solved.error);
    }
    return Ok(Reorder(waypoints, solved.value.0));
  }
}

=== FILE: wrappers.dfy ===
/** Failure-carrying result types shared by every module of the model. */
module Wrappers {

  /** A value that may be absent, the model of Python's `None`. */
  datatype Option<+T> = None | Some(value: T)

  /** The errors the modelled code raises, by the Python exception type it uses. */
  datatype Error =
    | ValueError(message: string)
    | RuntimeError(message: string)
    | IndexError
    | KeyError(key: string)
    | ZeroDivisionError
    | HttpError(status: int, detail: string)

  /** Either a value or the exception the source raises instead. */
  datatype Result<+T> = Ok(value: T) | Err(error: Error)
}
